=== FILE: README.md ===
# Storefront decision logic, in Dafny

This project models the decision logic of a headphone storefront built from
content slices: the product listing with its sort, pagination and sold-out
rules; the cart view and its quantity buttons; the small interactive widgets
(timeline carousel, accordion, navigation header, payment and delivery forms,
sign-up form, support request form); the choice of header per route; the
checkout page layout; and the field-resolution helpers that read loosely typed
content (links, labels, rich text, option lists, gallery and split-grid
layouts).

Each source component is one module. What a component renders is a datatype
describing the rendered structure; what it does on an event is a pure function
from state to state. Calls into the cart store, whose code is not part of this
model, are recorded as a sequence of `CartCall`s (`AddToCart`, `RemoveFromCart`,
`ClearCart`); what the store does with them is an abstract function, and the
few assumptions a property needs about it (removal by id, appending a new id,
clearing) are stated as predicates. Network results arrive as inputs
(`Fetched`: a body or a failure). Content fields are JavaScript values
(`JsValue.Value`) read with JavaScript's truthiness, `||`, optional property
reads, `String()` and `trim`. Prices are integer cents.

Shared modules: `Wrappers` (`Option`, `Fetched`), `Seqs` (filter, JavaScript
`slice`, `join`), `JsValue`, `Catalog` (products, cart lines, cart calls, the
cart total), `StableSort` (an insertion sort by an integer key with a proof that
it is the only stable sort, which stands for `Array.prototype.sort`, stable
since section 22.1.3.27 of ECMA-262 2019), and `Arith`.

## Model

| member | source | states |
|---|---|---|
| ProductGrid.MarkSoldOut | slices/ProductGrid/index.tsx:48-51 | the fetched list keeps its order and length; a product is flagged sold out exactly when its fetch position is 2, 5, 7, 14 or 17 |
| ProductGrid.SoldOutCount | slices/ProductGrid/index.tsx:48-50 | at most five products are ever sold out, and exactly five once the catalogue has more than seventeen |
| ProductGrid.ParseSort | slices/ProductGrid/index.tsx:112-117 | the select value "price-asc" means ascending, "price-desc" descending, and any other value leaves the order alone |
| ProductGrid.CompareIsKeyDifference | slices/ProductGrid/index.tsx:58-62 | the comparator is the difference of an integer sort key (price, minus price, or a constant), so sorting by it is sorting by that key |
| ProductGrid.SortedProducts | slices/ProductGrid/index.tsx:57-63 | sorting neither adds nor drops a product: the result is a permutation of the listing |
| ProductGrid.SortedProductsOrder | slices/ProductGrid/index.tsx:57-62 | ascending option gives non-decreasing prices, descending non-increasing, the default option leaves the fetch order unchanged, and products of equal price stay in fetch order under every option |
| ProductGrid.AnyStableSortAgrees | slices/ProductGrid/index.tsx:58-62 | every ordering the comparator accepts that keeps comparator-equal products in fetch order equals the model's sort, so any stable engine sort gives the same listing |
| ProductGrid.TotalPages | slices/ProductGrid/index.tsx:38 | the page count is the ceiling of the product count over nine: no products means no pages, otherwise the last page holds between one and nine products |
| ProductGrid.CurrentItems | slices/ProductGrid/index.tsx:66-69 | a page shows at most nine products, and they are the contiguous run starting at (page-1)*9 of the sorted listing |
| ProductGrid.PageSize | slices/ProductGrid/index.tsx:65-69 | every page from 1 to the page count shows between one and nine products; a page past the end, or page 0, shows none |
| ProductGrid.PagesCoverListing | slices/ProductGrid/index.tsx:65-69 | concatenating pages 1 to the page count gives back the sorted listing exactly |
| ProductGrid.PagesFromSuffix | slices/ProductGrid/index.tsx:65-69 | the pages from page p onwards concatenate to the listing from position (p-1)*9 |
| ProductGrid.PageNumbers | slices/ProductGrid/index.tsx:182 | the candidate page numbers are 1 to the page count, in order |
| ProductGrid.VisiblePages | slices/ProductGrid/index.tsx:182-188 | the window holds at most the page count of numbers and only pages that are the first, the last or a neighbour of the current one (completed by VisiblePagesSpec) |
| ProductGrid.VisiblePagesSpec | slices/ProductGrid/index.tsx:182-188 | a page number is offered exactly when it is between 1 and the page count and is the first, the last, or within one of the current page; the offered numbers strictly increase |
| ProductGrid.PageLinks | slices/ProductGrid/index.tsx:189-204 | one link per visible page, carrying that page number in order; a link is active exactly when its page is the current one; the first link never has an ellipsis before it |
| ProductGrid.EllipsisMarksHiddenPages | slices/ProductGrid/index.tsx:189-192 | an ellipsis stands before a link exactly when some page between it and the previous link is not offered |
| ProductGrid.ActiveLinkIsCurrent | slices/ProductGrid/index.tsx:195-199 | a page link is highlighted exactly when it is the current page |
| ProductGrid.NavigateStaysInRange | slices/ProductGrid/index.tsx:174-207 | Prev, Next and clicking an offered page never take the current page out of 1 to the page count (or, with no products, out of the initial page and the 0 that Next gives) |
| ProductGrid.NavigateMovesByOne | slices/ProductGrid/index.tsx:173-179 | an enabled Next advances one page and an enabled Prev goes back one; when disabled they leave the page where it is |
| ProductGrid.Navigate | slices/ProductGrid/index.tsx:173-179 | Prev never goes below page 1 nor back more than one page, Next never past the page count nor forward more than one, and a number click goes to that page |
| ProductGrid.PageInRange | slices/ProductGrid/index.tsx:174-207 | the pages the pager can reach: 1 to the page count, or 0 and 1 for an empty listing (used by NavigateStaysInRange) |
| ProductGrid.ReachablePageShowsProducts | slices/ProductGrid/index.tsx:65-69 | with products, every page the view can be on shows between one and nine of them |
| ProductGrid.StartAdding | slices/ProductGrid/index.tsx:72-74 | clicking Add on an available product puts it on the "Adding..." list; a sold-out product changes nothing |
| ProductGrid.FinishAdding | slices/ProductGrid/index.tsx:88-91 | when the add completes, the "Adding..." list keeps exactly the other products, in their order |
| ProductGrid.FinishUndoesStart | slices/ProductGrid/index.tsx:88-91 | starting and then finishing an add leaves the pending list as finishing alone would |
| ProductGrid.DisabledUnlessAddLabel | slices/ProductGrid/index.tsx:150-165 | the card button is disabled exactly when it does not read "Add to Cart" (it reads "Sold Out" or "Adding...") |
| ProductGrid.Button | slices/ProductGrid/index.tsx:150-165 | the button reads "Sold Out" exactly for a sold-out product and "Adding..." exactly for an available one whose add is pending; "Add to Cart" otherwise |
| ProductGrid.ButtonDisabled | slices/ProductGrid/index.tsx:150-152 | the button is disabled for a sold-out product or a pending add (related to the label by DisabledUnlessAddLabel) |
| ProductGrid.ClickDisablesButton | slices/ProductGrid/index.tsx:150-152 | a click on an available product disables its button until the add finishes, and re-enables it afterwards |
| ProductGrid.OnFetch | slices/ProductGrid/index.tsx:44-55 | a fetch always ends loading and keeps the sort and page; a received list replaces the products with that list flagged by position (MarkSoldOut of the body); a failure keeps the old ones |
| ProductGrid.View | slices/ProductGrid/index.tsx:94-95 | the loading screen shows exactly while loading; afterwards the cards are the current page of the products in the chosen sort order, the count shows every product and the page links are those of the page count |
| ProductGrid.FirstScreen | slices/ProductGrid/index.tsx:65-69 | whatever the fetch returns the first page is in range, and a non-empty catalogue first shows between one and nine cards |
| Catalog.AddOne | slices/ProductGrid/index.tsx:71-81 | a sold-out product never reaches the cart; an available one is added once, as a line carrying its id, title, price and image with quantity 1 |
| Catalog.CartTotalAppend | app/components/CartItemsDisplay.tsx:41 | the cart total of two runs of lines is the sum of their totals |
| Catalog.CartTotal | app/components/CartItemsDisplay.tsx:41 | the cart total, the sum of price times quantity over the lines (split over concatenation by CartTotalAppend) |
| Catalog.LineFor | slices/ProductGrid/index.tsx:75-81 | the cart line an add sends: the product's id, title, price and image with the given quantity |
| Catalog.WithoutIdTotal | app/components/CartItemsDisplay.tsx:15-21 | removing a line by its id lowers the total by exactly that line's amount when ids are unique |
| CartItemsDisplay.AddQuantity | app/components/CartItemsDisplay.tsx:11-13 | "+" issues exactly one add, for the same product with quantity 1 |
| CartItemsDisplay.Run | app/components/CartItemsDisplay.tsx:9-22 | applies a sequence of cart calls to a cart through the store, in order; the handlers' lemmas describe its result |
| CartItemsDisplay.RemoveQuantity | app/components/CartItemsDisplay.tsx:15-22 | "-" always removes the line first, then re-adds it only when more than one unit was in the cart, never with a quantity below 1 |
| CartItemsDisplay.RemoveLine | app/components/CartItemsDisplay.tsx:84-89 | "Remove" issues only a removal by the line's id |
| CartItemsDisplay.ClearAll | app/components/CartItemsDisplay.tsx:99-104 | "Clear All" issues a single clear |
| CartItemsDisplay.DecrementMovesLineLast | app/components/CartItemsDisplay.tsx:15-18 | on a store that removes by id and appends new ids, "-" on a line of several units moves it to the end with one unit fewer and lowers the total by one unit price |
| CartItemsDisplay.DecrementLastUnitRemovesLine | app/components/CartItemsDisplay.tsx:19-21 | "-" on a single unit removes the line and its whole amount |
| CartItemsDisplay.RemoveLineDropsLine | app/components/CartItemsDisplay.tsx:85 | "Remove" drops the line whatever its quantity and lowers the total by its whole amount |
| CartItemsDisplay.ReduceTotalIsSum | app/components/CartItemsDisplay.tsx:41 | the reduce from an initial value adds that value to the sum of price times quantity over the lines |
| CartItemsDisplay.ReduceTotal | app/components/CartItemsDisplay.tsx:41 | the left-to-right `reduce` from a starting sum; ReduceTotalIsSum shows it equals the start plus CartTotal |
| CartItemsDisplay.LinesOf | app/components/CartItemsDisplay.tsx:48-82 | one rendered line per cart line, in order, each showing price times quantity |
| CartItemsDisplay.View | app/components/CartItemsDisplay.tsx:24-41 | the empty-cart screen shows exactly when the cart is missing or empty; otherwise every line is listed and the total is the cart total |
| CartItemsDisplay.ClearAllShowsEmptyCart | app/components/CartItemsDisplay.tsx:99-104 | after "Clear All" on a store that clears, the view is the empty-cart screen |
| Accordion.ToggleOpensClicked | slices/Accordion/index.tsx:44-48 | after a click on an item, that item is open exactly when it was closed, and every other item is closed |
| Accordion.Toggle | slices/Accordion/index.tsx:44-48 | a click closes the item when it is the open one, and otherwise opens exactly the clicked item |
| Accordion.IsOpen | slices/Accordion/index.tsx:85 | an item is expanded exactly when its index is the open one (used by ToggleOpensClicked and OneExpanded) |
| Accordion.AtMostOneOpen | slices/Accordion/index.tsx:41 | no two different items are ever open at once |
| Accordion.DoubleToggle | slices/Accordion/index.tsx:47 | clicking an item twice restores the state exactly when nothing or that item was open; if another item was open, everything ends closed |
| Accordion.OpenItemWasClickedLast | slices/Accordion/index.tsx:47 | after any clicks, the open item, if any, is the one clicked last |
| Accordion.View | slices/Accordion/index.tsx:83-121 | one rendered item per entry, expanded exactly when open, with its title shown exactly when non-empty |
| Accordion.OneExpanded | slices/Accordion/index.tsx:85 | at most one rendered item is expanded |
| ChronologyTimeline.JsRem | slices/ChronologyTimeline/index.tsx:30-31 | the remainder operator gives NaN for a zero divisor and the usual remainder for a non-negative dividend |
| ChronologyTimeline.Next | slices/ChronologyTimeline/index.tsx:30 | the next arrow gives NaN exactly for an empty timeline or a NaN index; from a milestone it moves one forward, wrapping from the last to the first |
| ChronologyTimeline.Prev | slices/ChronologyTimeline/index.tsx:31 | the previous arrow gives NaN exactly for an empty timeline or a NaN index; from a milestone it moves one back, wrapping from the first to the last |
| ChronologyTimeline.NextOnMilestone | slices/ChronologyTimeline/index.tsx:30 | the right arrow moves to the next milestone and wraps from the last to the first |
| ChronologyTimeline.PrevOnMilestone | slices/ChronologyTimeline/index.tsx:31 | the left arrow moves to the previous milestone and wraps from the first to the last |
| ChronologyTimeline.ArrowsStayInRange | slices/ChronologyTimeline/index.tsx:30-31 | with at least one milestone both arrows keep the index on a milestone |
| ChronologyTimeline.PrevUndoesNext | slices/ChronologyTimeline/index.tsx:30-31 | left undoes right and right undoes left |
| ChronologyTimeline.ForwardIsRotation | slices/ChronologyTimeline/index.tsx:30 | k presses of the right arrow advance the index by k modulo the number of milestones |
| ChronologyTimeline.FullCircle | slices/ChronologyTimeline/index.tsx:30 | as many right presses as there are milestones return to the start |
| ChronologyTimeline.EmptyTimelineIsNaN | slices/ChronologyTimeline/index.tsx:30-31 | with no milestones any arrow press makes the index NaN |
| ChronologyTimeline.Current | slices/ChronologyTimeline/index.tsx:33 | a milestone is shown exactly when the index is on one, and it is that milestone |
| ChronologyTimeline.AlwaysShowsAMilestone | slices/ChronologyTimeline/index.tsx:27-33 | with at least one milestone, after any arrow presses from the start some milestone is shown |
| ChronologyTimeline.PressStaysInRange | slices/ChronologyTimeline/index.tsx:74-85 | any sequence of arrow presses keeps the index on a milestone |
| Navbar2.LoadedDocument | app/components/navbar2.tsx:28-35 | a failed load, or a reply without data, leaves the header document null; otherwise it is the reply's data |
| Navbar2.Href | app/components/navbar2.tsx:78 | a section link goes to its url when set and to "#" otherwise |
| Navbar2.SectionLinks | app/components/navbar2.tsx:75-86 | a section yields one link per item of the section read as a list |
| Navbar2.LinksFrom | app/components/navbar2.tsx:75-136 | the links of the sections from a given one on: none past the last section, and otherwise those of that section first, every one of them truthy |
| Navbar2.NavLinks | app/components/navbar2.tsx:75-136 | the navigation links are the headphone, earphones, accessories, collaborations and blog section links, in that order, and every one has a target |
| Navbar2.LinksFromSections | app/components/navbar2.tsx:75-136 | walking the sections from the first collects the five section link lists one after another |
| Navbar2.NoSectionsNoLinks | app/components/navbar2.tsx:18-19 | a document without any of the five sections yields no links |
| Navbar2.SingleItemSection | app/components/navbar2.tsx:18-19 | a section holding a single item rather than a list yields exactly that item's link |
| Navbar2.LogoFor | app/components/navbar2.tsx:53-68 | a logo is drawn exactly when the item has a logo image, and a drawn logo always links somewhere |
| Navbar2.Settle | app/components/navbar2.tsx:37-43 | the effects that close one panel when the other opens never touch the country dropdown |
| Navbar2.Flip | app/components/navbar2.tsx:143-202 | a toggle button flips its own panel and leaves the other two alone |
| Navbar2.Click | app/components/navbar2.tsx:166 | a click and the renders it causes flip the country selector exactly when the country button was clicked (the other panels are stated by ClickSearch, ClickMenu and NeverBothOpen) |
| Navbar2.ClickSearch | app/components/navbar2.tsx:37-39 | the search button flips search, and opening search closes the mobile menu |
| Navbar2.ClickMenu | app/components/navbar2.tsx:41-43 | the menu button flips the mobile menu, and opening it closes search |
| Navbar2.ClickCountry | app/components/navbar2.tsx:166 | the country button flips only the country dropdown |
| Navbar2.NeverBothOpen | app/components/navbar2.tsx:37-43 | after any click has settled, search and the mobile menu are not both open |
| Navbar2.NeverBothOpenAfterClicks | app/components/navbar2.tsx:37-43 | from a state where they are not both open, no sequence of clicks opens both |
| Navbar2.View | app/components/navbar2.tsx:176-223 | nothing renders until the document loads; then the links are the collected navigation links, one logo per configured logo, and the search box, the mobile menu (listing the same links) and the country list show exactly when their flags are set |
| Navbar2.FailedLoadRendersNothing | app/components/navbar2.tsx:31-32 | a failed load renders no header |
| JsValue.ToArray | app/components/navbar2.tsx:18-19 | a falsy field gives no items, a list gives its items, and any other value gives a one-item list |
| JsValue.ToArrayIdempotent | app/components/navbar2.tsx:18-19 | reading a list back as a field gives the same list |
| JsValue.Truthy | slices/NavigationMenu/index.tsx:19 | JavaScript truthiness: undefined, null, false, 0 and "" are falsy, everything else (including empty lists and objects) is truthy |
| JsValue.Get | slices/NavigationMenu/index.tsx:19 | a property read gives the object's own value, undefined for a missing key or a non-object, and on a string a truthy built-in exactly for the string HTML methods of ECMA-262 Annex B |
| JsValue.Or | slices/FormRequest/index.tsx:65-66 | `a || b` gives `a` when it is truthy and `b` otherwise |
| JsValue.TextOr | slices/AuthenticationForm/index.tsx:151 | `s || fallback` on an optional string gives the string when non-empty and the fallback otherwise |
| JsValue.IsJsWhitespace | slices/AuthenticationForm/index.tsx:46 | the characters `trim` removes: the white space and line terminators of ECMA-262 |
| JsValue.Trim | slices/AuthenticationForm/index.tsx:46 | trimming never lengthens a string and leaves no white space at either end |
| JsValue.TrimEndIsPrefix | slices/AuthenticationForm/index.tsx:46 | trimming the end of a string leaves a prefix of it |
| JsValue.TrimStartDropsWhitespace | slices/AuthenticationForm/index.tsx:46 | trimming the start drops only white space, and only from the start |
| JsValue.TrimEndDropsWhitespace | slices/AuthenticationForm/index.tsx:46 | trimming the end drops only white space, and only from the end |
| JsValue.TrimIsInfix | slices/AuthenticationForm/index.tsx:46 | a trimmed string is the part of the input between a leading and a trailing run of white space |
| JsValue.FirstTruthyIsFirst | slices/FooterMinimal/index.tsx:40 | a chain of `||` gives the first truthy value in it |
| JsValue.CentsToFixedRoundTrip | slices/CartSummary/index.tsx:28 | the two-decimal text of a non-negative amount reads back as that amount |
| JsValue.BlankIffAllWhitespace | slices/AuthenticationForm/index.tsx:46 | a string trims to nothing exactly when all its characters are whitespace |
| JsValue.IncludesIffOccurs | slices/AuthenticationForm/index.tsx:164 | `includes` holds exactly when the text occurs at some position |
| Routing.NavbarTable | app/components/navbarselectors.tsx:15-24 | "/" and "/signup" get the home navbar, "/checkout", "/support" and "/support2" get none, every other path gets the second navbar, and exactly one of these happens (the JavaScript copy in navbarselectors.jsx, lines 11-19, makes the same choice) |
| Routing.SelectNavbar | app/components/navbarselectors.tsx:15-24 | the navbar a path shows; its decision table is NavbarTable |
| Routing.HeadTextFollowsNavbar | app/components/GlobalHeadText.tsx:10-11 | the head text shows exactly when its field is set and the path is not one of the three that hide the navbar |
| Routing.ShowsHeadText | app/components/GlobalHeadText.tsx:10-11 | the announcement text shows for a truthy field outside checkout and support (see HeadTextFollowsNavbar) |
| CheckoutPage.FirstSection | app/checkout/page.tsx:14-23 | the first column holds no more slices than the page |
| CheckoutPage.SecondSection | app/checkout/page.tsx:26-28 | the second column holds no more slices than the page |
| CheckoutPage.InFirstSection | app/checkout/page.tsx:14-23 | a slice belongs to the first column when its type is one of the five form types |
| CheckoutPage.InSecondSection | app/checkout/page.tsx:26-28 | a slice belongs to the second column when it is the cart summary |
| CheckoutPage.ColumnsSplitTheDocument | app/checkout/page.tsx:14-28 | a slice is in the first column exactly when its type is one of the five form types, in the second exactly when it is the cart summary, never in both, each column in page order with every copy of a kept slice, together no more than the page |
| CheckoutPage.EverySliceShown | app/checkout/page.tsx:14-28 | when every slice has one of the six known types, the two columns together show them all |
| ProductDetail.IdToFetch | slices/ProductDetail/index.tsx:27-33 | the fetched id is at least 1: the linked id when it parses to a number of at least 1, otherwise 1 |
| ProductDetail.FallsBack | slices/ProductDetail/index.tsx:29-30 | the page falls back to product 1 for a missing, empty or blank id, one `Number` cannot parse, or one below 1 (used by IdToFetch) |
| ProductDetail.BlankIdFetchesFirst | slices/ProductDetail/index.tsx:29-30 | a missing or blank id fetches product 1 |
| ProductDetail.LinkedIdIsFetched | slices/ProductDetail/index.tsx:29-33 | the decimal text of a positive id fetches that id |
| ProductDetail.DetailAgreesWithGrid | slices/ProductDetail/index.tsx:41-42 | the detail page calls a product sold out exactly when the listing does for the product at that position |
| ProductDetail.OnFetch | slices/ProductDetail/index.tsx:35-50 | a fetch always ends loading; a product is present exactly when the fetch succeeded, flagged by its id's sold-out rule |
| ProductDetail.HandleAdd | slices/ProductDetail/index.tsx:53-62 | nothing reaches the cart without a product or for a sold-out one; otherwise one line with its id, title, price and image and quantity 1 is added |
| ProductDetail.View | slices/ProductDetail/index.tsx:69-70 | the loading screen shows while loading and "not found" exactly when loading ended without a product; the details show the loaded product, with the button disabled and the badge shown exactly when it is sold out |
| ProductDetail.ButtonMatchesHandler | slices/ProductDetail/index.tsx:102 | the button is enabled exactly when clicking it adds to the cart |
| ProductDetail.FetchSettles | slices/ProductDetail/index.tsx:26-51 | after the fetch the page shows details exactly on success and "not found" exactly on failure |
| ProductRecommendations.Recommended | slices/ProductRecommendations/index.tsx:27 | the first four fetched products, in fetch order |
| ProductRecommendations.Card | slices/ProductRecommendations/index.tsx:64 | a recommendation is sold out exactly when its price is below 20 |
| ProductRecommendations.OnClickIsGuardedAdd | slices/ProductRecommendations/index.tsx:41-42 | a click adds one unit exactly when the product is not sold out |
| ProductRecommendations.OnClick | slices/ProductRecommendations/index.tsx:41-42 | a click issues no cart call exactly for a product priced below 20.00, and otherwise one add of a line with its id, title, price and image and quantity 1 |
| ProductRecommendations.OnFetch | slices/ProductRecommendations/index.tsx:23-34 | a fetch ends loading and keeps the recommended products, or the old ones on failure |
| ProductRecommendations.View | slices/ProductRecommendations/index.tsx:63-64 | cards show once loading ends, the i-th card being that of the i-th kept product |
| ProductRecommendations.AtMostFourCards | slices/ProductRecommendations/index.tsx:27 | after the fetch at most four cards show, for the first fetched products in order |
| ProductFeatureGrid.FeaturedProducts | slices/ProductFeatureGrid/index.tsx:33-47 | the first four fetched products in order, each decorated by its position |
| ProductFeatureGrid.Decorate | slices/ProductFeatureGrid/index.tsx:36-47 | a decorated product keeps the product; it is sold out exactly at position 1, which alone gets the "From " prefix, new exactly at position 3, and engravable exactly at positions 0 and 2 |
| ProductFeatureGrid.BadgesAreExclusive | slices/ProductFeatureGrid/index.tsx:39-46 | no product is both sold out and new; the "From " price prefix appears exactly on the sold-out one; an engravable product is neither |
| ProductFeatureGrid.OneSoldOut | slices/ProductFeatureGrid/index.tsx:39 | with four products, exactly the second is sold out |
| ProductFeatureGrid.FirstWord | slices/ProductFeatureGrid/index.tsx:127 | the short title is the title's prefix up to its first space |
| ProductFeatureGrid.FirstWordOfPhrase | slices/ProductFeatureGrid/index.tsx:127 | a title made of a word, a space and more gives that word |
| ProductFeatureGrid.Heading | slices/ProductFeatureGrid/index.tsx:127 | the heading is the short title, a space, then "Wireless" exactly for the third product and nothing otherwise |
| ProductFeatureGrid.PriceLine | slices/ProductFeatureGrid/index.tsx:131 | the price line is the prefix, then "$", then exactly the two-decimal price digits |
| ProductFeatureGrid.DescriptionShowsCategory | slices/ProductFeatureGrid/index.tsx:137-139 | a non-electronics product shows its category; an electronics one shows a fixed description instead |
| ProductFeatureGrid.Description | slices/ProductFeatureGrid/index.tsx:136-141 | the first line is the category outside electronics and one of the three fixed phrases inside it; the second line is non-empty exactly for the first two products |
| ProductFeatureGrid.SwatchCount | slices/ProductFeatureGrid/index.tsx:149 | the fourth product shows four swatches and every other product six |
| ProductFeatureGrid.EntryOr | slices/ProductFeatureGrid/index.tsx:68 | a colour table lookup gives the entry when present and non-empty, the fallback otherwise |
| ProductFeatureGrid.SwatchStyle | slices/ProductFeatureGrid/index.tsx:61-83 | every swatch gets some style |
| ProductFeatureGrid.DrawnSwatchesUseTables | slices/ProductFeatureGrid/index.tsx:61-83 | every drawn swatch takes its style from its product's colour table |
| ProductFeatureGrid.OnFetch | slices/ProductFeatureGrid/index.tsx:29-56 | a fetch ends loading; a received list is replaced by the first four products decorated by position (FeaturedProducts of the body); a failure keeps the old ones |
| CheckoutDeliveryForm.Initial | slices/CheckoutDeliveryForm/index.tsx:36-41 | the form starts on "United States" with no countries or states loaded and the configured default state, or none |
| CheckoutDeliveryForm.OnCountries | slices/CheckoutDeliveryForm/index.tsx:44-57 | a successful reply sets the country list; an error reply or a failure leaves it; nothing else changes |
| CheckoutDeliveryForm.StatesRequest | slices/CheckoutDeliveryForm/index.tsx:60-64 | an empty country clears the states and sends no request; any other country requests its states |
| CheckoutDeliveryForm.OnStates | slices/CheckoutDeliveryForm/index.tsx:76-91 | a successful reply sets the state list and selects the default state when it is set and in the list, and clears the selection otherwise; an error reply or a failure empties the list and keeps the selection |
| CheckoutDeliveryForm.SelectedStateIsAnOption | slices/CheckoutDeliveryForm/index.tsx:80-84 | after a successful reply the selected state is the default when the default is in the list, and empty otherwise; a non-empty selection is always the default and one of the offered options |
| CheckoutDeliveryForm.StateOptions | slices/CheckoutDeliveryForm/index.tsx:210-215 | the options are an empty placeholder followed by the states |
| CheckoutDeliveryForm.ChooseState | slices/CheckoutDeliveryForm/index.tsx:206 | choosing an offered state selects exactly that state and changes nothing else |
| CheckoutDeliveryForm.ChooseCountry | slices/CheckoutDeliveryForm/index.tsx:122 | choosing a different country selects it and, unless it is empty, requests the states of that very country and keeps the current states until they arrive; an empty country clears the states; the country list and the selected state are kept |
| CheckoutDeliveryForm.StateSelectView | slices/CheckoutDeliveryForm/index.tsx:208-210 | the state select is disabled exactly when there are no states, with "---" then and "Select state" otherwise |
| CheckoutDeliveryForm.FailedStatesDisableSelect | slices/CheckoutDeliveryForm/index.tsx:85-91 | a failed or error states reply disables the state select |
| CheckoutDeliveryForm.Shipping | slices/CheckoutDeliveryForm/index.tsx:266-285 | the "enter your address" message shows exactly when there are no shipping methods; otherwise they are listed as given |
| AuthenticationForm.FieldKey | slices/AuthenticationForm/index.tsx:25 | a field is keyed by its label, or by "field_" and its position when it has none |
| AuthenticationForm.UnlabelledKeysDiffer | slices/AuthenticationForm/index.tsx:25 | two unlabelled fields at different positions never share a key |
| AuthenticationForm.Keys | slices/AuthenticationForm/index.tsx:22-28 | every field's key is a form key, and every form key is the key of some field |
| AuthenticationForm.InitialData | slices/AuthenticationForm/index.tsx:22-28 | the form starts with exactly the field keys, each empty |
| AuthenticationForm.Change | slices/AuthenticationForm/index.tsx:35-37 | typing sets the named value and leaves every other value, the touched set, loading and the message alone |
| AuthenticationForm.Blur | slices/AuthenticationForm/index.tsx:39-41 | leaving a field marks only that field touched and keeps the values |
| AuthenticationForm.IsFormValid | slices/AuthenticationForm/index.tsx:43-46 | the form is valid when it has no fields or no value is blank (restated without trimming by ValidIffNoWhitespaceOnlyValue) |
| AuthenticationForm.ValidIffNoWhitespaceOnlyValue | slices/AuthenticationForm/index.tsx:43-46 | the form is valid exactly when no value is empty or whitespace only |
| AuthenticationForm.FreshFormIsInvalid | slices/AuthenticationForm/index.tsx:43-46 | a form with fields starts invalid |
| AuthenticationForm.Submit | slices/AuthenticationForm/index.tsx:48-81 | a submit posts exactly when the form is valid and has fields, and then posts its values; it leaves for the listing exactly on a valid form with no fields or a received reply; it always shows a message |
| AuthenticationForm.InvalidSubmitSendsNothing | slices/AuthenticationForm/index.tsx:50-53 | an invalid submit posts nothing, navigates nowhere, keeps the values and asks to fill every field |
| AuthenticationForm.ValidSubmitPostsValues | slices/AuthenticationForm/index.tsx:55-81 | a valid submit posts the current values; success resets the form and navigates; failure keeps the values and shows the error |
| AuthenticationForm.KeysStayIntact | slices/AuthenticationForm/index.tsx:69 | typing in a known field and submitting keep the form keys equal to the field keys |
| AuthenticationForm.ErrorHintOnlyAfterBlur | slices/AuthenticationForm/index.tsx:119 | a field's hint shows only once it was left, exactly when its value is blank, and typing a non-blank value hides it |
| AuthenticationForm.ShowError | slices/AuthenticationForm/index.tsx:119 | an input shows its hint when it was left and its value is blank (see ErrorHintOnlyAfterBlur) |
| AuthenticationForm.FillAllMessageDrawnGreen | slices/AuthenticationForm/index.tsx:164 | the "fill all fields" message reports a problem but is drawn in the success colour, because only text containing "Error" is drawn red |
| AuthenticationForm.MessageColours | slices/AuthenticationForm/index.tsx:164 | the error message is drawn red; the no-fields and success messages are not and report no problem |
| AuthenticationForm.InputFor | slices/AuthenticationForm/index.tsx:117-140 | each input is named by its field key, shows the stored value (or empty), and shows its hint exactly when the error rule says so |
| AuthenticationForm.View | slices/AuthenticationForm/index.tsx:115-169 | a form without fields shows a notice; otherwise one input per field, and the submit button is disabled exactly while loading or invalid; a non-empty message is shown with its colour |
| AuthenticationForm.FreshFormCannotSubmit | slices/AuthenticationForm/index.tsx:148 | the submit button of a fresh form with fields is disabled |
| AuthenticationForm.SubmitDisabled | slices/AuthenticationForm/index.tsx:148 | the submit button is disabled while loading or while the form is invalid (see FreshFormCannotSubmit) |
| FormRequest.FirstTitleBlock | slices/FormRequest/index.tsx:11-14 | for the declared but unused `SimpleRichTextTitle` helper, finds the earliest heading or paragraph block with text, or reports that none has any |
| FormRequest.SimpleRichTextTitle | slices/FormRequest/index.tsx:9-17 | the `SimpleRichTextTitle` helper, which the component declares but never renders (the drawn heading is `FormRequest.Title`): a non-list draws nothing, and whatever is drawn has text |
| FormRequest.TitleIsEarliestBlock | slices/FormRequest/index.tsx:11-15 | the unused helper's result is the text of the earliest heading or paragraph block with text |
| FormRequest.RequestOptions | slices/FormRequest/index.tsx:32-36 | a list of request types is kept, a single value becomes a one-item list, a falsy value gives none |
| FormRequest.RequestOptionsAsList | slices/FormRequest/index.tsx:32-36 | the request types are the field read as a list, as the header reads its sections |
| FormRequest.Title | slices/FormRequest/index.tsx:115-121 | a heading shows exactly when the title is set; a non-list title is shown as it is; a list title shows its first block's text, or "" when that is missing or empty |
| FormRequest.EmptyTitleListDrawsEmptyHeading | slices/FormRequest/index.tsx:117-118 | an empty list as title still draws a heading, with empty text, because an empty list is truthy |
| FormRequest.LabelsOf | slices/FormRequest/index.tsx:65-230 | each of the eight labels is its configured value when that is truthy and its own default text otherwise |
| FormRequest.ChangeText | slices/FormRequest/index.tsx:47-49 | typing updates only the named field |
| FormRequest.ChangeFiles | slices/FormRequest/index.tsx:44-46 | choosing files stores the first one, and nothing when none was chosen |
| FormRequest.Submit | slices/FormRequest/index.tsx:52-63 | a submit with the required fields filled clears the form and raises the toast; otherwise the browser blocks it and nothing changes |
| FormRequest.RequiredFilled | slices/FormRequest/index.tsx:130-183 | the browser lets the form submit only when the email, subject and request type inputs are filled (used by Submit) |
| FormRequest.ToastTimeout | slices/FormRequest/index.tsx:55 | the toast timer hides the toast and keeps the form |
| FormRequest.SubmitClearsRequired | slices/FormRequest/index.tsx:56-62 | after a submit that went through the required fields are empty, so a second submit changes nothing more |
| FormRequest.OnlySubmitShowsToast | slices/FormRequest/index.tsx:44-62 | typing and choosing files never raise the toast; a submit raises it exactly when the required fields are filled |
| PaymentMethodForm.BlockTexts | slices/PaymentMethodForm/index.tsx:20 | one text per rich-text block, empty for a block without text |
| PaymentMethodForm.GetText | slices/PaymentMethodForm/index.tsx:17-23 | a falsy field gives "", a string itself, rich text its blocks' texts joined by one space, an object its text, anything else "" |
| PaymentMethodForm.RichTextLength | slices/PaymentMethodForm/index.tsx:20 | joined rich text is as long as its blocks' texts plus one space between each pair |
| PaymentMethodForm.SingleBlockText | slices/PaymentMethodForm/index.tsx:20 | a single block gives its own text |
| PaymentMethodForm.Placeholder | slices/PaymentMethodForm/index.tsx:91 | a placeholder is the field's text when non-empty and the default otherwise, so it is never empty |
| PaymentMethodForm.CardFormOf | slices/PaymentMethodForm/index.tsx:89-110 | each card input shows the text of its own placeholder key (card number, expiration, security code, name on card) when that is truthy, and its own built-in default otherwise; all four are non-empty |
| PaymentMethodForm.UnsetPlaceholdersDefault | slices/PaymentMethodForm/index.tsx:91-108 | when none of the four placeholder texts is set, the four inputs show the built-in defaults |
| PaymentMethodForm.Icons | slices/PaymentMethodForm/index.tsx:73-82 | only payment methods with an icon url are drawn, in their listed order |
| PaymentMethodForm.IconsKeepEveryItemWithUrl | slices/PaymentMethodForm/index.tsx:73-82 | a payment method is drawn exactly when it is listed and has an icon url |
| PaymentMethodForm.Apply | slices/PaymentMethodForm/index.tsx:61 | choosing the card selects it and keeps the shipping box; ticking the box flips it and keeps the selection |
| PaymentMethodForm.EventsDetermineState | slices/PaymentMethodForm/index.tsx:12-13 | from the start, the card is selected exactly when it was ever chosen, and the shipping box is ticked exactly after an even number of toggles |
| PaymentMethodForm.EventsFrom | slices/PaymentMethodForm/index.tsx:120 | from any reachable state, once chosen the card stays selected, and each toggle flips the shipping box |
| PaymentMethodForm.View | slices/PaymentMethodForm/index.tsx:87-120 | the card inputs show exactly when the card is selected, and are the configured card form; the icons are those of the configured payment methods; the radio is checked exactly then, and the shipping box shows when configured, reflecting its flag |
| CartSummary.OrZero | slices/CartSummary/index.tsx:93 | a missing amount counts as zero |
| CartSummary.Subtotal | slices/CartSummary/index.tsx:92-95 | the reduce computes the sum of price times quantity over the lines |
| CartSummary.IncompleteLinesAddNothing | slices/CartSummary/index.tsx:93 | lines without a price or a quantity add nothing |
| CartSummary.SumOfLinesAppend | slices/CartSummary/index.tsx:92-95 | the subtotal of two runs of lines is the sum of their subtotals |
| CartSummary.SumOfLines | slices/CartSummary/index.tsx:92-95 | the subtotal, the sum over the lines of price-or-0 times quantity-or-0 (split over concatenation by SumOfLinesAppend) |
| CartSummary.SubtotalNonNegative | slices/CartSummary/index.tsx:92-95 | non-negative prices and quantities give a non-negative subtotal |
| CartSummary.FormatPrice | slices/CartSummary/index.tsx:25-29 | a formatted price starts with the currency symbol and has at least a digit, a point and two decimals after it |
| CartSummary.ZeroPriceIsGeneralFormat | slices/CartSummary/index.tsx:27-28 | the special case for a missing or zero price prints what the general format prints for zero |
| CartSummary.FormatPriceRoundTrip | slices/CartSummary/index.tsx:25-29 | the text after the symbol reads back as the price, or zero when missing |
| CartSummary.LineViewOf | slices/CartSummary/index.tsx:40-66 | a line's image alt text is its name (or "Product"); its heading shows the name and its second line the option, each as given and empty when missing (no "Product" fallback there); a badge with its quantity exactly when a non-zero quantity is set, and its own price formatted with the currency symbol |
| CartSummary.View | slices/CartSummary/index.tsx:91-115 | "No items" shows exactly when there are no lines; otherwise the i-th row is the line view of the i-th line; subtotal and total show the same formatted sum of the lines |
| CartSummary.EmptySummary | slices/CartSummary/index.tsx:69-70 | an empty summary shows the message and a zero subtotal and total |
| FooterMinimal.Links | slices/FooterMinimal/index.tsx:26 | the footer links are the configured list, or none when it is not a list |
| FooterMinimal.LinkUrl | slices/FooterMinimal/index.tsx:29-34 | a link goes to its url when set; else to "/" followed by its uid when it has a type and a uid; else, and for an empty link, to "#" |
| FooterMinimal.DocumentLinkPath | slices/FooterMinimal/index.tsx:31-32 | any document link object with a type and a non-empty uid, whatever its other keys, goes to its uid under the root, unless it also has a url, which wins |
| FooterMinimal.LinkText | slices/FooterMinimal/index.tsx:37-41 | a link's text is the first set of its label, text and link text, else "Link" |
| FooterMinimal.LabelWins | slices/FooterMinimal/index.tsx:40 | a set label is the link text |
| FooterMinimal.Texts | slices/FooterMinimal/index.tsx:15 | one text per kept block, in order |
| FooterMinimal.Note | slices/FooterMinimal/index.tsx:9-22 | a note that is not a list draws nothing; a list draws the texts of its paragraph blocks, in order, each with text |
| FooterMinimal.NoteDrawsParagraphsOnly | slices/FooterMinimal/index.tsx:15 | a note block is drawn exactly when it is a paragraph with text |
| FooterMinimal.View | slices/FooterMinimal/index.tsx:43-75 | the i-th footer link has the target and text of the i-th configured link; the note area shows exactly when a note is set, with that note's paragraphs |
| NavigationMenu.MenuLinks | slices/NavigationMenu/index.tsx:43-47 | the menu comes from the primary menu links when a list, else the slice items when a list, else nothing |
| NavigationMenu.ResolveLink | slices/NavigationMenu/index.tsx:17-24 | a truthy `link` wins; otherwise a truthy `menu_link`; otherwise an object item with a link type or a url links to itself; a non-empty string item resolves to the built-in `String.prototype.link` method; anything else, and a falsy item, resolves to nothing |
| NavigationMenu.ResolveLabel | slices/NavigationMenu/index.tsx:26-36 | an empty item has an empty label; any other takes the first truthy of its label, text, menu_label and title, then its link's label or title, then "Menu Item" |
| NavigationMenu.LinkCaption | slices/NavigationMenu/index.tsx:33 | the link's caption is the link itself when falsy, and otherwise its label or, failing that, its title |
| NavigationMenu.LabelPriority | slices/NavigationMenu/index.tsx:26-36 | the first of label, text, menu_label and title that is set gives the label, whatever the later keys and the link hold |
| NavigationMenu.LinkLabelIsLastResort | slices/NavigationMenu/index.tsx:28-35 | the link's own label is used only when the item has none of its four label keys |
| NavigationMenu.EntryFor | slices/NavigationMenu/index.tsx:59-94 | an item renders as a content link, to its resolved field, exactly when it resolves to an object link, and disabled otherwise (never as a plain anchor), always with its resolved label |
| NavigationMenu.StringItemIsDisabled | slices/NavigationMenu/index.tsx:19-22 | a non-empty string item renders disabled with the label "Menu Item": its `link` property is the truthy built-in method, so the string branch is never reached |
| NavigationMenu.NoItemResolvesToHref | slices/NavigationMenu/index.tsx:22 | no item at all reaches the plain-href branch |
| NavigationMenu.NonObjectLinkIsDisabled | slices/NavigationMenu/index.tsx:63 | an item whose link is set but is not an object renders disabled |
| NavigationMenu.View | slices/NavigationMenu/index.tsx:58-98 | "no menu links" shows exactly when the menu is empty; otherwise one entry per item, in order |
| FeatureSplitGrid.Items | slices/FeatureSplitGrid/index.tsx:16 | features come from the primary items when set, else the slice items, else none |
| FeatureSplitGrid.EmptyPrimaryItemsHideSliceItems | slices/FeatureSplitGrid/index.tsx:16 | an empty primary list hides the slice items, because an empty list is truthy |
| FeatureSplitGrid.Button | slices/FeatureSplitGrid/index.tsx:92-98 | a button shows exactly on the last feature when its button url is set, with a caption that is never empty |
| FeatureSplitGrid.Pair | slices/FeatureSplitGrid/index.tsx:106-116 | an item gives two cells of its own index: media first and text second on even rows, the other way round on odd rows |
| FeatureSplitGrid.CellsFrom | slices/FeatureSplitGrid/index.tsx:33-119 | each feature contributes exactly two cells |
| FeatureSplitGrid.Cells | slices/FeatureSplitGrid/index.tsx:33-119 | the grid has two cells per feature |
| FeatureSplitGrid.CellsFromPairs | slices/FeatureSplitGrid/index.tsx:104-116 | cells 2j and 2j+1 are the two cells of feature j, in its order |
| FeatureSplitGrid.ZigZag | slices/FeatureSplitGrid/index.tsx:106-116 | feature i fills row i with its media in column i mod 2 and its text in the other, so the media alternates sides |
| FeatureSplitGrid.ButtonOnlyOnLast | slices/FeatureSplitGrid/index.tsx:92 | only the last feature's text cell can carry a button |
| FeatureSplitGrid.View | slices/FeatureSplitGrid/index.tsx:18-24 | "no features" shows exactly when there are no features; otherwise the grid of their cells |
| ProductGalleryGrid.Layout | slices/ProductGalleryGrid/index.tsx:42-72 | five or more items give two columns, items 1 and 3 on the left and 2, 4 and 5 on the right; fewer give a flat grid of all of them, with the empty message exactly when there are none |
| ProductGalleryGrid.PlacesFirstFive | slices/ProductGalleryGrid/index.tsx:44-72 | the two columns place exactly the first five items, each once, and later items never; a flat grid places every item in order |
| ProductGalleryGrid.Drawn | slices/ProductGalleryGrid/index.tsx:15 | only placed items with an image url are drawn, in their placed order |
| ProductGalleryGrid.DrawnIffImage | slices/ProductGalleryGrid/index.tsx:15 | a placed item is drawn exactly when it has an image url |
| ProductGalleryGrid.EmptyMessageOnlyWhenEmpty | slices/ProductGalleryGrid/index.tsx:73-77 | the empty message never shows beside images, and a missing list shows it |
| StableSort.SortIsStable | slices/ProductGrid/index.tsx:58 | the sort orders by key and keeps the elements of each key in their original order |
| StableSort.StableSortIsUnique | slices/ProductGrid/index.tsx:58 | two lists ordered by key that keep each key's elements in the same order are equal |

## Left out

- The cart store: its code is not part of this model. Views are modelled by the cart calls they issue. Properties about the resulting cart assume a store that removes by id, appends a new id at the end, or clears, and say so in their preconditions.
- Network and content fetching (the product API, the countries API, the content service's `getSingle`): each result is an input, either a body or a failure. Stale or concurrent responses are not modelled.
- The content-only page routes, the root layout and the content client configuration: they only fetch and render.
- Floating-point prices: amounts are integer cents. `toFixed(2)` is exact on cents, so its rounding of binary fractions is not modelled.
- Timers and toasts: the 500 ms "Adding..." delay is the separate `FinishAdding` step, the request form's toast timer is `ToastTimeout`, and the notification library call is not modelled.
- `Number()` string parsing: the product id parser is a parameter of `ProductDetail.IdToFetch`, returning a real number or none for NaN; it cannot return `Infinity`, so `Number("Infinity")`, which passes the `< 1` test in the source and is fetched, is not modelled.
- Property reads that would throw on `null` or `undefined` (a rich-text block's `type`, a block's `text`) read as `undefined` instead.
- `undefined` and `null` are merged into `Option.None` where the source treats them alike. A non-null but empty file list stores `undefined` rather than `null`; both are `None`.
- A truthy non-list `items` field in the split feature grid would make `map` throw; the model draws no items instead.
- Browser form validation: email format checks are not modelled, and the `required` attribute is the predicate `FormRequest.RequiredFilled`.
- The intermediate loading state of the sign-up submit: `AuthenticationForm.Submit` goes from the click straight to the settled outcome.
- Styling: class strings, colour tables beyond which table a swatch reads, and SVG icons.
- React effect scheduling: effects settle synchronously after each event.
- The cart summary's discount input and shipping and discount labels, and the request form's breadcrumb and search bar: presentation only.
- The other slices and the first navbar (`app/components/navbar.tsx`): presentation only, or independent toggles.
- CartSummary.LineViewOf: a quantity of 0 renders a stray "0" in the source (`quantity && …`); the model shows no badge.
- PaymentMethodForm.Icons: any `payment_methods` value other than a list, `null` or `undefined` (a string, even the empty one, a number, a boolean or an object) makes the `?.map` call throw; the model draws no icons instead.
- Catalog.LineFor: the spread `{ ...product, quantity: 1 }` in the recommendations click also copies the description, category and rating into the cart line; the model keeps only id, title, price, image and quantity, which are all any cart view reads.
- CartSummary.View: the `currency_label` span drawn before the total is presentation only and not part of the view.
- AuthenticationForm.Submit: a reply whose JSON is `null` makes `data.id` throw, which the source's catch block turns into the error message; the model treats every received reply as a success.
- Property reads on strings: only the string HTML methods of ECMA-262 Annex B (such as `link`) are modelled as built-ins; other built-in properties, such as `length`, read as `undefined`; none of the keys the modelled components read is one of them.

=== FILE: accordion.dfy ===
/**
 The accordion: at most one item is open, recorded as the open item's index
 or null. Clicking an item closes it when it is the open one and otherwise
 opens it, closing whichever was open before.
 */
module Accordion {
  import opened Wrappers

  /** `openIndex`: `None` when every item is closed. */
  type OpenIndex = Option<int>

  const Initial: OpenIndex := None

  /** `handleToggle(index)`. */
  function Toggle(open: OpenIndex, index: int): (r: OpenIndex)
    ensures r.None? <==> open == Some(index)
    ensures r.Some? ==> r.value == index
  {
    if open == Some(index) then None else Some(index)
  }

  /** `openIndex === index`. */
  predicate IsOpen(open: OpenIndex, index: int) {
    open == Some(index)
  }

  /** After a click on `i`, item `j` is open exactly when `j` is `i` and `i` was closed. */
  lemma ToggleOpensClicked(open: OpenIndex, i: int, j: int)
    ensures IsOpen(Toggle(open, i), j) <==> j == i && !IsOpen(open, i)
  {
  }

  /** Two open items are the same item. */
  lemma AtMostOneOpen(open: OpenIndex, j: int, k: int)
    requires IsOpen(open, j) && IsOpen(open, k)
    ensures j == k
  {
  }

  /**
   Clicking the same item twice restores the state exactly when nothing else
   was open: from a state where another item was open, the second click
   leaves every item closed.
   */
  lemma DoubleToggle(open: OpenIndex, i: int)
    ensures Toggle(Toggle(open, i), i) == open <==> open == None || open == Some(i)
    ensures open.Some? && open != Some(i) ==> Toggle(Toggle(open, i), i) == None
  {
  }

  /** The clicks in order. */
  function Clicks(open: OpenIndex, clicked: seq<int>): OpenIndex
    decreases |clicked|
  {
    if |clicked| == 0 then open else Clicks(Toggle(open, clicked[0]), clicked[1..])
  }

  /** After any clicks, the open item (if any) is the last one clicked. */
  lemma {:induction false} OpenItemWasClickedLast(open: OpenIndex, clicked: seq<int>)
    requires |clicked| > 0
    ensures var r := Clicks(open, clicked);
      r == None || r == Some(clicked[|clicked| - 1])
    decreases |clicked|
  {
    if |clicked| > 1 {
      OpenItemWasClickedLast(Toggle(open, clicked[0]), clicked[1..]);
    }
  }

  /** One rendered item: whether its title shows, and whether it is expanded. */
  datatype ItemView = ItemView(titleShown: bool, expanded: bool)

  function View(open: OpenIndex, titles: seq<string>): (items: seq<ItemView>)
    ensures |items| == |titles|
    ensures forall j :: 0 <= j < |items| ==> (items[j].expanded <==> IsOpen(open, j))
    ensures forall j :: 0 <= j < |items| ==> (items[j].titleShown <==> titles[j] != "")
  {
    seq(|titles|, j requires 0 <= j < |titles| => ItemView(titles[j] != "", open == Some(j)))
  }

  /** Whatever was clicked, at most one rendered item is expanded. */
  lemma OneExpanded(open: OpenIndex, titles: seq<string>, j: nat, k: nat)
    requires j < |titles| && k < |titles|
    requires View(open, titles)[j].expanded && View(open, titles)[k].expanded
    ensures j == k
  {
  }
}

=== FILE: arith.dfy ===
/** Facts about Euclidean division that the solver does not find unaided. */
module Arith {

  /** Euclid's division is unique: a quotient and an in-range remainder are `/` and `%`. */
  lemma ModUnique(a: int, n: int, q: int, r: int)
    requires n > 0 && a == q * n + r && 0 <= r < n
    ensures a % n == r && a / n == q
  {
    var q', r' := a / n, a % n;
    assert (q - q') * n == r' - r;
    if q > q' {
      MulAtLeast(q - q', n);
    } else if q < q' {
      MulAtLeast(q' - q, n);
    }
  }

  lemma MulAtLeast(k: int, n: int)
    requires k >= 1 && n > 0
    ensures k * n >= n
  {
  }
}

=== FILE: authentication_form.dfy ===
/**
 The sign-up form: one text input per configured field, keyed by the field's
 label (or `field_<index>` without one), a submit that refuses blank values,
 posts the values otherwise, and on success clears the form and goes to the
 product listing; plus the "required" hint of a touched blank field and the
 colour of the status message.
 */
module AuthenticationForm {
  import opened Wrappers
  import opened Seqs
  import opened JsValue

  /** A configured field: its optional label and optional input type. */
  datatype Field = Field(inputLabel: Option<string>, inputType: Option<string>)

  /** `field.input_label ?? \`field_${index}\``: only a missing label falls back, an empty one does not. */
  function FieldKey(f: Field, index: nat): (key: string)
    ensures f.inputLabel.Some? ==> key == f.inputLabel.value
    ensures f.inputLabel.None? ==> |key| > 6 && key[..6] == "field_"
  {
    f.inputLabel.GetOr("field_" + NatToString(index))
  }

  /** Two unlabelled fields never share a key. */
  lemma UnlabelledKeysDiffer(f: Field, g: Field, i: nat, j: nat)
    requires f.inputLabel.None? && g.inputLabel.None? && i != j
    ensures FieldKey(f, i) != FieldKey(g, j)
  {
    if FieldKey(f, i) == FieldKey(g, j) {
      var a, b := NatToString(i), NatToString(j);
      assert ("field_" + a)[6..] == a;
      assert ("field_" + b)[6..] == b;
      NatToStringRoundTrip(i);
      NatToStringRoundTrip(j);
      assert false;
    }
  }

  function Keys(fields: seq<Field>): (keys: set<string>)
    ensures forall i :: 0 <= i < |fields| ==> FieldKey(fields[i], i) in keys
    ensures forall k :: k in keys ==> exists i :: 0 <= i < |fields| && FieldKey(fields[i], i) == k
  {
    set i | 0 <= i < |fields| :: FieldKey(fields[i], i)
  }

  /** `initialFormState`: every key mapped to the empty string. */
  function InitialData(fields: seq<Field>): (data: map<string, string>)
    ensures data.Keys == Keys(fields)
    ensures forall k :: k in data ==> data[k] == ""
  {
    map k | k in Keys(fields) :: ""
  }

  datatype FormState = FormState(
    data: map<string, string>,
    loading: bool,
    message: Option<string>,
    touched: map<string, bool>)

  function Initial(fields: seq<Field>): FormState {
    FormState(InitialData(fields), false, None, map[])
  }

  /** `handleChange`: the input named `name` takes `value`. */
  function Change(s: FormState, name: string, value: string): (r: FormState)
    ensures r.data.Keys == s.data.Keys + {name}
    ensures r.data[name] == value
    ensures forall k :: k in s.data && k != name ==> r.data[k] == s.data[k]
    ensures r.touched == s.touched && r.loading == s.loading && r.message == s.message
  {
    s.(data := s.data[name := value])
  }

  /** `handleBlur`: the input named `name` is marked touched. */
  function Blur(s: FormState, name: string): (r: FormState)
    ensures r.touched.Keys == s.touched.Keys + {name} && r.touched[name]
    ensures forall k :: k in s.touched && k != name ==> r.touched[k] == s.touched[k]
    ensures r.data == s.data
  {
    s.(touched := s.touched[name := true])
  }

  /** `isFormValid`: no fields, or every value non-blank after `trim`. */
  predicate IsFormValid(data: map<string, string>) {
    |data.Keys| == 0 || forall k :: k in data ==> !IsBlank(data[k])
  }

  /** Valid exactly when no value consists of whitespace only. */
  lemma ValidIffNoWhitespaceOnlyValue(data: map<string, string>)
    ensures IsFormValid(data) <==> forall k :: k in data ==> !AllWhitespace(data[k])
  {
    forall k | k in data {
      BlankIffAllWhitespace(data[k]);
    }
  }

  /** A freshly initialised form with fields is not yet valid. */
  lemma FreshFormIsInvalid(fields: seq<Field>)
    requires |fields| > 0
    ensures !IsFormValid(InitialData(fields))
  {
    var k := FieldKey(fields[0], 0);
    assert k in InitialData(fields);
    assert |InitialData(fields).Keys| != 0;
  }

  // ------------------------------------------------------------------ submit

  const FillAllMessage := "❌" + " Please fill in all " + "fields before submitting."
  const NoFieldsMessage := "✅" + " No fields to submit."
  const ErrorMessage := "❌ " + "Error submitting form." + " Please try again."

  function SuccessMessage(reply: Value): string {
    "✅ User created successfully! ID: " + ToJsString(Get(reply, "id"))
  }

  /** What a submit did: the values it posted, if any, and whether it went to the product listing. */
  datatype Submitted = Submitted(state: FormState, posted: Option<map<string, string>>, navigated: bool)

  /**
   `handleSubmit`, with the outcome of the request it makes (ignored when it
   makes none). A failed request, or a reply that is not JSON, lands in the
   catch block.
   */
  function Submit(s: FormState, initial: map<string, string>, outcome: Fetched<Value>): (r: Submitted)
    ensures r.posted.Some? <==> IsFormValid(s.data) && |s.data.Keys| > 0
    ensures r.posted.Some? ==> r.posted.value == s.data
    ensures r.navigated <==> IsFormValid(s.data) && (|s.data.Keys| == 0 || outcome.Received?)
    ensures r.state.message.Some?
  {
    if !IsFormValid(s.data) then Submitted(s.(message := Some(FillAllMessage)), None, false)
    else if |s.data.Keys| == 0 then Submitted(s.(message := Some(NoFieldsMessage), loading := false), None, true)
    else match outcome
      case Received(reply) =>
        Submitted(FormState(initial, false, Some(SuccessMessage(reply)), map[]), Some(s.data), true)
      case Failed =>
        Submitted(s.(message := Some(ErrorMessage), loading := false), Some(s.data), false)
  }

  /** An invalid form sends nothing, stays on the page, keeps its values and says why. */
  lemma InvalidSubmitSendsNothing(s: FormState, initial: map<string, string>, outcome: Fetched<Value>)
    requires !IsFormValid(s.data)
    ensures var r := Submit(s, initial, outcome);
      r.posted == None && !r.navigated && r.state.data == s.data && r.state.message == Some(FillAllMessage)
  {
  }

  /** A valid form with fields posts exactly its values; it is cleared and leaves the page only on success. */
  lemma ValidSubmitPostsValues(s: FormState, initial: map<string, string>, outcome: Fetched<Value>)
    requires IsFormValid(s.data) && |s.data.Keys| > 0
    ensures var r := Submit(s, initial, outcome);
      r.posted == Some(s.data) && !r.state.loading && (r.navigated <==> outcome.Received?)
    ensures outcome.Received? ==> var r := Submit(s, initial, outcome);
      r.state.data == initial && r.state.touched == map[]
    ensures outcome.Failed? ==> var r := Submit(s, initial, outcome);
      r.state.data == s.data && r.state.message == Some(ErrorMessage)
  {
  }

  /** The values keep the configured keys through typing in the inputs and submitting. */
  predicate KeysIntact(s: FormState, fields: seq<Field>) {
    s.data.Keys == Keys(fields)
  }

  lemma KeysStayIntact(s: FormState, fields: seq<Field>, name: string, value: string, outcome: Fetched<Value>)
    requires KeysIntact(s, fields) && name in Keys(fields)
    ensures KeysIntact(Change(s, name, value), fields)
    ensures KeysIntact(Submit(s, InitialData(fields), outcome).state, fields)
  {
  }

  // -------------------------------------------------------------------- view

  /** `touchedFields[key] && formData[key].trim() === ""`. */
  predicate ShowError(s: FormState, key: string) {
    key in s.touched && s.touched[key] && key in s.data && IsBlank(s.data[key])
  }

  /** The hint never shows before the input is left, and disappears once it holds a non-blank value. */
  lemma ErrorHintOnlyAfterBlur(s: FormState, key: string, value: string)
    ensures key !in s.touched ==> !ShowError(s, key)
    ensures ShowError(Blur(s, key), key) <==> key in s.data && IsBlank(s.data[key])
    ensures !AllWhitespace(value) ==> !ShowError(Change(s, key, value), key)
  {
    BlankIffAllWhitespace(value);
  }

  predicate SubmitDisabled(s: FormState) {
    s.loading || !IsFormValid(s.data)
  }

  function SubmitLabel(s: FormState, buttonLabel: Option<string>): string {
    if s.loading then "Submitting..." else TextOr(buttonLabel, "Submit")
  }

  /** A message is drawn red when it contains "Error", green otherwise. */
  predicate Red(message: string) {
    Includes(message, "Error")
  }

  /** The messages that report a problem: they start with the cross mark. */
  predicate ReportsProblem(message: string) {
    |message| > 0 && message[0] == '❌'
  }

  /**
   The colour follows the cross mark for every message but one: the message
   for an incomplete form reports a problem yet is drawn green, since it does
   not contain "Error". It can only appear through a submit that bypasses the
   disabled button.
   */
  lemma FillAllMessageDrawnGreen()
    ensures !Red(FillAllMessage)
    ensures ReportsProblem(FillAllMessage)
  {
    assert 'E' !in FillAllMessage;
    MissingFirstCharExcludes(FillAllMessage, "Error");
  }

  lemma MessageColours(reply: Value)
    ensures ReportsProblem(ErrorMessage) && Red(ErrorMessage)
    ensures !ReportsProblem(NoFieldsMessage) && !Red(NoFieldsMessage)
    ensures !ReportsProblem(SuccessMessage(reply))
  {
    assert ErrorMessage == "❌ " + ("Error submitting form." + " Please try again.");
    assert ("Error submitting form." + " Please try again.")[..5] == "Error";
    assert OccursAt(ErrorMessage, "Error", 2);
    IncludesIffOccurs(ErrorMessage, "Error");
    assert 'E' !in NoFieldsMessage;
    MissingFirstCharExcludes(NoFieldsMessage, "Error");
  }

  /** One rendered input: its name, type, value and whether the "required" hint shows. */
  datatype InputView = InputView(name: string, inputType: string, value: string, hint: bool)

  datatype FormView =
    | Inputs(inputs: seq<InputView>, submitDisabled: bool, submitLabel: string)
    | NoFieldsNotice

  datatype MessageView = MessageView(text: string, red: bool)

  function InputFor(s: FormState, f: Field, index: nat): (v: InputView)
    ensures v.name == FieldKey(f, index)
    ensures v.hint <==> ShowError(s, v.name)
    ensures v.name in s.data ==> v.value == s.data[v.name]
    ensures v.name !in s.data ==> v.value == ""
  {
    var key := FieldKey(f, index);
    InputView(key, TextOr(f.inputType, "text"), if key in s.data then s.data[key] else "", ShowError(s, key))
  }

  /** The form with one input per configured field, or the notice when none are configured; then the message, if any. */
  function View(s: FormState, fields: seq<Field>, buttonLabel: Option<string>): (v: (FormView, Option<MessageView>))
    ensures v.0.NoFieldsNotice? <==> |fields| == 0
    ensures v.0.Inputs? ==> |v.0.inputs| == |fields|
    ensures v.0.Inputs? ==> forall i :: 0 <= i < |fields| ==> v.0.inputs[i] == InputFor(s, fields[i], i)
    ensures v.0.Inputs? ==> (v.0.submitDisabled <==> s.loading || !IsFormValid(s.data))
    ensures v.1.Some? <==> s.message.Some? && s.message.value != ""
    ensures v.1.Some? ==> v.1.value.text == s.message.value && (v.1.value.red <==> Red(s.message.value))
  {
    var form :=
      if |fields| == 0 then NoFieldsNotice
      else Inputs(seq(|fields|, i requires 0 <= i < |fields| => InputFor(s, fields[i], i)),
                  SubmitDisabled(s), SubmitLabel(s, buttonLabel));
    var message :=
      if s.message.Some? && s.message.value != "" then Some(MessageView(s.message.value, Red(s.message.value))) else None;
    (form, message)
  }

  /** While the configured fields hold only blanks, the submit button is disabled. */
  lemma FreshFormCannotSubmit(fields: seq<Field>, buttonLabel: Option<string>)
    requires |fields| > 0
    ensures View(Initial(fields), fields, buttonLabel).0.submitDisabled
  {
    FreshFormIsInvalid(fields);
  }
}

=== FILE: cart_items_display.dfy ===
/**
 The cart page: the empty-cart screen, one line per cart entry with its amount,
 the running total, and the calls the "+", "−", "Remove" and "Clear All"
 buttons issue to the cart store.
 */
module CartItemsDisplay {
  import opened Wrappers
  import opened Catalog

  /** "+": one `addToCart` of the same line with quantity 1. */
  function AddQuantity(item: CartItem): (calls: seq<CartCall>)
    ensures |calls| == 1 && calls[0].AddToCart?
    ensures calls[0].item.id == item.id && calls[0].item.title == item.title
    ensures calls[0].item.price == item.price && calls[0].item.image == item.image
    ensures calls[0].item.quantity == 1
  {
    [AddToCart(item.(quantity := 1))]
  }

  /**
   "−": above one unit, remove the line and add it back with one unit less;
   at one unit or below, only remove it.
   */
  function RemoveQuantity(item: CartItem): (calls: seq<CartCall>)
    ensures |calls| >= 1 && calls[0] == RemoveFromCart(item.id)
    ensures |calls| == 2 <==> item.quantity > 1
    ensures |calls| <= 2
    ensures |calls| == 2 ==> calls[1].AddToCart? && calls[1].item == item.(quantity := item.quantity - 1)
    ensures forall i :: 0 <= i < |calls| && calls[i].AddToCart? ==> calls[i].item.quantity >= 1
  {
    if item.quantity > 1 then
      [RemoveFromCart(item.id), AddToCart(item.(quantity := item.quantity - 1))]
    else
      [RemoveFromCart(item.id)]
  }

  /** "Remove": the whole line goes, whatever its quantity. */
  function RemoveLine(item: CartItem): (calls: seq<CartCall>)
    ensures calls == [RemoveFromCart(item.id)]
  {
    [RemoveFromCart(item.id)]
  }

  /** "Clear All": a single `clearCart`, whatever the cart holds. */
  function ClearAll(): (calls: seq<CartCall>)
    ensures |calls| == 1 && calls[0].ClearCart?
  {
    [ClearCart]
  }

  // ---------------------------------------------------------------------------
  // What the calls do to a store that behaves as the cart store is described

  /** A cart store: the cart after one call. */
  type Store = (seq<CartItem>, CartCall) -> seq<CartItem>

  /** `removeFromCart(id)` drops the lines carrying `id` and keeps the rest in order. */
  ghost predicate RemovesById(store: Store) {
    forall cart: seq<CartItem>, id: int :: store(cart, RemoveFromCart(id)) == WithoutId(cart, id)
  }

  /** `addToCart` of an id the cart does not hold appends the line. */
  ghost predicate AppendsNewId(store: Store) {
    forall cart: seq<CartItem>, it: CartItem ::
      (forall j :: 0 <= j < |cart| ==> cart[j].id != it.id) ==> store(cart, AddToCart(it)) == cart + [it]
  }

  /** The cart after issuing `calls` in order. */
  function Run(store: Store, cart: seq<CartItem>, calls: seq<CartCall>): seq<CartItem>
    decreases |calls|
  {
    if |calls| == 0 then cart else Run(store, store(cart, calls[0]), calls[1..])
  }

  /** `clearCart` empties the cart. */
  ghost predicate ClearsAll(store: Store) {
    forall cart: seq<CartItem> :: store(cart, ClearCart) == []
  }

  ghost predicate IdsUnique(cart: seq<CartItem>) {
    forall i, j :: 0 <= i < j < |cart| ==> cart[i].id != cart[j].id
  }

  /**
   On any store that removes by id and appends new ids, "−" on a line with more
   than one unit leaves that line last with one unit less, and lowers the
   total by one unit price.
   */
  lemma DecrementMovesLineLast(store: Store, cart: seq<CartItem>, i: nat)
    requires RemovesById(store) && AppendsNewId(store)
    requires i < |cart| && IdsUnique(cart)
    requires cart[i].quantity > 1
    ensures Run(store, cart, RemoveQuantity(cart[i]))
            == WithoutId(cart, cart[i].id) + [cart[i].(quantity := cart[i].quantity - 1)]
    ensures CartTotal(Run(store, cart, RemoveQuantity(cart[i]))) == CartTotal(cart) - cart[i].price
  {
    var item := cart[i];
    var calls := RemoveQuantity(item);
    var rest := WithoutId(cart, item.id);
    var less := item.(quantity := item.quantity - 1);
    assert calls == [RemoveFromCart(item.id), AddToCart(less)];
    assert store(cart, RemoveFromCart(item.id)) == rest;
    assert store(rest, AddToCart(less)) == rest + [less];
    RunTwo(store, cart, RemoveFromCart(item.id), AddToCart(less));
    assert Run(store, cart, calls) == rest + [less];
    DecrementedTotal(cart, i);
    OneUnitLess(item);
  }

  lemma DecrementedTotal(cart: seq<CartItem>, i: nat)
    requires i < |cart| && IdsUnique(cart)
    ensures CartTotal(WithoutId(cart, cart[i].id) + [cart[i].(quantity := cart[i].quantity - 1)])
            == CartTotal(cart) - LineAmount(cart[i]) + LineAmount(cart[i].(quantity := cart[i].quantity - 1))
  {
    var less := cart[i].(quantity := cart[i].quantity - 1);
    assert forall j :: 0 <= j < |cart| && j != i ==> cart[j].id != cart[i].id;
    WithoutIdTotal(cart, i);
    CartTotalAppend(WithoutId(cart, cart[i].id), [less]);
    SingleLineTotal(less);
  }

  lemma SingleLineTotal(item: CartItem)
    ensures CartTotal([item]) == LineAmount(item)
  {
    assert [item][1..] == [];
  }

  lemma OneUnitLess(item: CartItem)
    ensures LineAmount(item.(quantity := item.quantity - 1)) == LineAmount(item) - item.price
  {
    var p, q := item.price, item.quantity;
    assert LineAmount(item.(quantity := q - 1)) == p * (q - 1);
    assert p * (q - 1) == p * q - p;
  }

  lemma RunTwo(store: Store, cart: seq<CartItem>, a: CartCall, b: CartCall)
    ensures Run(store, cart, [a, b]) == store(store(cart, a), b)
  {
    assert [a, b][1..] == [b];
    assert [b][1..] == [];
    assert Run(store, cart, [a, b]) == Run(store, store(cart, a), [b]);
    assert Run(store, store(cart, a), [b]) == Run(store, store(store(cart, a), b), []);
  }

  /** On the same stores, "−" on a single unit removes the line entirely. */
  lemma DecrementLastUnitRemovesLine(store: Store, cart: seq<CartItem>, i: nat)
    requires RemovesById(store)
    requires i < |cart| && IdsUnique(cart)
    requires cart[i].quantity <= 1
    ensures Run(store, cart, RemoveQuantity(cart[i])) == WithoutId(cart, cart[i].id)
    ensures cart[i] !in Run(store, cart, RemoveQuantity(cart[i]))
    ensures CartTotal(Run(store, cart, RemoveQuantity(cart[i]))) == CartTotal(cart) - LineAmount(cart[i])
  {
    var calls := RemoveQuantity(cart[i]);
    assert store(cart, calls[0]) == WithoutId(cart, cart[i].id);
    assert calls[1..] == [];
    WithoutIdMembership(cart, cart[i].id, cart[i]);
    WithoutIdTotal(cart, i);
  }

  /** On a store that removes by id, "Remove" drops the line whatever its quantity, and its whole amount. */
  lemma RemoveLineDropsLine(store: Store, cart: seq<CartItem>, i: nat)
    requires RemovesById(store)
    requires i < |cart| && IdsUnique(cart)
    ensures cart[i] !in Run(store, cart, RemoveLine(cart[i]))
    ensures CartTotal(Run(store, cart, RemoveLine(cart[i]))) == CartTotal(cart) - LineAmount(cart[i])
  {
    var calls := RemoveLine(cart[i]);
    assert Run(store, cart, calls) == Run(store, WithoutId(cart, cart[i].id), calls[1..]);
    assert calls[1..] == [];
    WithoutIdMembership(cart, cart[i].id, cart[i]);
    WithoutIdTotal(cart, i);
  }

  // ---------------------------------------------------------------------------
  // The screen

  datatype Line = Line(item: CartItem, amount: int)

  datatype CartScreen =
    | EmptyCart
    | Filled(lines: seq<Line>, total: int)

  /** `cart.reduce((sum, item) => sum + item.price * item.quantity, acc)`. */
  function ReduceTotal(acc: int, cart: seq<CartItem>): int
    decreases |cart|
  {
    if |cart| == 0 then acc else ReduceTotal(acc + LineAmount(cart[0]), cart[1..])
  }

  lemma {:induction false} ReduceTotalIsSum(acc: int, cart: seq<CartItem>)
    ensures ReduceTotal(acc, cart) == acc + CartTotal(cart)
    decreases |cart|
  {
    if |cart| > 0 {
      ReduceTotalIsSum(acc + LineAmount(cart[0]), cart[1..]);
    }
  }

  function LinesOf(cart: seq<CartItem>): (lines: seq<Line>)
    ensures |lines| == |cart|
    ensures forall i :: 0 <= i < |cart| ==> lines[i].item == cart[i]
    ensures forall i :: 0 <= i < |cart| ==> lines[i].amount == cart[i].price * cart[i].quantity
  {
    seq(|cart|, i requires 0 <= i < |cart| => Line(cart[i], LineAmount(cart[i])))
  }

  /**
   The page: the empty screen when the cart is absent or empty, otherwise each
   line with its amount and the total of all lines.
   */
  function View(cart: Option<seq<CartItem>>): (v: CartScreen)
    ensures v.EmptyCart? <==> cart.None? || |cart.value| == 0
    ensures v.Filled? ==> |v.lines| == |cart.value|
    ensures v.Filled? ==> forall i :: 0 <= i < |v.lines| ==>
              v.lines[i].item == cart.value[i] && v.lines[i].amount == cart.value[i].price * cart.value[i].quantity
    ensures v.Filled? ==> v.total == CartTotal(cart.value)
  {
    if cart.None? || |cart.value| == 0 then EmptyCart
    else
      ReduceTotalIsSum(0, cart.value);
      Filled(LinesOf(cart.value), ReduceTotal(0, cart.value))
  }

  /** On a store whose `clearCart` empties the cart, "Clear All" brings back the empty-cart screen. */
  lemma ClearAllShowsEmptyCart(store: Store, cart: seq<CartItem>)
    requires ClearsAll(store)
    ensures Run(store, cart, ClearAll()) == []
    ensures View(Some(Run(store, cart, ClearAll()))) == EmptyCart
  {
    assert ClearAll()[1..] == [];
  }
}

=== FILE: cart_summary.dfy ===
/**
 The order summary: the configured line items with their prices, a discount
 input, and a subtotal and total that both show the sum of price times
 quantity over the lines, formatted with the currency label (or "$") and two
 decimals. Amounts are in cents.
 */
module CartSummary {
  import opened Wrappers
  import opened JsValue

  /** A configured line: price in cents and quantity, either of which may be missing. */
  datatype SummaryItem = SummaryItem(name: Option<string>, option: Option<string>, price: Option<int>, quantity: Option<int>)

  /** `x || 0` for a numeric field: a missing value counts as zero. */
  function OrZero(x: Option<int>): (n: int)
    ensures x.None? ==> n == 0
    ensures x.Some? ==> n == x.value
  {
    x.GetOr(0)
  }

  /** One line's share of the subtotal: `(item_price || 0) * (quantity || 0)`. */
  function LineAmount(item: SummaryItem): int {
    OrZero(item.price) * OrZero(item.quantity)
  }

  /** The subtotal as a sum over the lines, first to last. */
  function SumOfLines(items: seq<SummaryItem>): int
    decreases |items|
  {
    if |items| == 0 then 0 else SumOfLines(items[..|items| - 1]) + LineAmount(items[|items| - 1])
  }

  /** The `reduce` that computes the subtotal, left to right from zero. */
  method Subtotal(items: seq<SummaryItem>) returns (sum: int)
    ensures sum == SumOfLines(items)
  {
    sum := 0;
    var i := 0;
    while i < |items|
      invariant 0 <= i <= |items|
      invariant sum == SumOfLines(items[..i])
    {
      assert items[..i + 1][..i] == items[..i];
      sum := sum + LineAmount(items[i]);
      i := i + 1;
    }
    assert items[..|items|] == items;
  }

  /** Lines without a price or without a quantity add nothing. */
  lemma {:induction false} IncompleteLinesAddNothing(items: seq<SummaryItem>)
    requires forall i :: 0 <= i < |items| ==> items[i].price.None? || items[i].quantity.None?
    ensures SumOfLines(items) == 0
    decreases |items|
  {
    if |items| > 0 {
      IncompleteLinesAddNothing(items[..|items| - 1]);
    }
  }

  /** The subtotal of two lists of lines is the sum of their subtotals. */
  lemma {:induction false} SumOfLinesAppend(a: seq<SummaryItem>, b: seq<SummaryItem>)
    ensures SumOfLines(a + b) == SumOfLines(a) + SumOfLines(b)
    decreases |b|
  {
    if |b| > 0 {
      var b' := b[..|b| - 1];
      assert (a + b)[..|a + b| - 1] == a + b';
      SumOfLinesAppend(a, b');
    } else {
      assert a + b == a;
    }
  }

  /** Lines with non-negative prices and quantities give a non-negative subtotal. */
  lemma {:induction false} SubtotalNonNegative(items: seq<SummaryItem>)
    requires forall i :: 0 <= i < |items| ==> OrZero(items[i].price) >= 0 && OrZero(items[i].quantity) >= 0
    ensures SumOfLines(items) >= 0
    decreases |items|
  {
    if |items| > 0 {
      SubtotalNonNegative(items[..|items| - 1]);
    }
  }

  /** `currency_label || "$"`. */
  function Symbol(currencyLabel: Option<string>): string {
    TextOr(currencyLabel, "$")
  }

  /** `formatPrice`: the symbol, then "0.00" for a missing or zero price, else the price to two decimals. */
  function FormatPrice(currencyLabel: Option<string>, price: Option<int>): (text: string)
    ensures |text| >= |Symbol(currencyLabel)| + 4
    ensures text[..|Symbol(currencyLabel)|] == Symbol(currencyLabel)
  {
    var symbol := Symbol(currencyLabel);
    if price.None? || price.value == 0 then symbol + "0.00" else symbol + CentsToFixed(price.value)
  }

  /** The zero case is the general format applied to zero: the special case changes nothing. */
  lemma ZeroPriceIsGeneralFormat(currencyLabel: Option<string>, price: Option<int>)
    ensures FormatPrice(currencyLabel, price) == Symbol(currencyLabel) + CentsToFixed(OrZero(price))
  {
    if OrZero(price) == 0 {
      assert NatToString(0) == "0" && DigitChar(0) == '0';
      assert UnsignedFixed(0) == "0" + "." + ['0', '0'];
      assert CentsToFixed(0) == "0.00";
    }
  }

  /** The amount after the symbol reads back as the price (zero when it is missing). */
  lemma FormatPriceRoundTrip(currencyLabel: Option<string>, price: Option<int>)
    requires OrZero(price) >= 0
    ensures var text := FormatPrice(currencyLabel, price);
      ParseFixed(text[|Symbol(currencyLabel)|..]) == OrZero(price)
  {
    ZeroPriceIsGeneralFormat(currencyLabel, price);
    var symbol := Symbol(currencyLabel);
    assert (symbol + CentsToFixed(OrZero(price)))[|symbol|..] == CentsToFixed(OrZero(price));
    CentsToFixedRoundTrip(OrZero(price));
  }

  // -------------------------------------------------------------------- view

  /**
   * One rendered line: its image alt text, its quantity badge, the product
   * name heading and option text (a missing value renders as nothing), and
   * its price.
   */
  datatype LineView = LineView(alt: string, badge: Option<int>, heading: string, option: string, price: string)

  function LineViewOf(item: SummaryItem, currencyLabel: Option<string>): (v: LineView)
    ensures v.badge.Some? <==> item.quantity.Some? && item.quantity.value != 0
    ensures v.alt == TextOr(item.name, "Product")
    ensures v.badge.Some? ==> v.badge == item.quantity
    ensures item.name.Some? ==> v.heading == item.name.value
    ensures item.name.None? ==> v.heading == ""
    ensures item.option.Some? ==> v.option == item.option.value
    ensures item.option.None? ==> v.option == ""
    ensures v.heading == "" ==> v.alt == "Product"
    ensures v.price == FormatPrice(currencyLabel, item.price)
  {
    LineView(
      TextOr(item.name, "Product"),
      if item.quantity.Some? && item.quantity.value != 0 then item.quantity else None,
      item.name.GetOr(""),
      item.option.GetOr(""),
      FormatPrice(currencyLabel, item.price))
  }

  datatype Lines = LineList(lines: seq<LineView>) | NoItemsMessage

  datatype SummaryView = SummaryView(lines: Lines, subtotal: string, total: string)

  /** `primary.items || []`, drawn line by line or as "No items in the cart."; subtotal and total from the same sum. */
  function View(items: Option<seq<SummaryItem>>, currencyLabel: Option<string>): (v: SummaryView)
    ensures v.lines.NoItemsMessage? <==> items.None? || |items.value| == 0
    ensures v.lines.LineList? ==> |v.lines.lines| == |items.value|
    ensures v.lines.LineList? ==> forall i :: 0 <= i < |v.lines.lines| ==>
      v.lines.lines[i] == LineViewOf(items.value[i], currencyLabel)
    ensures v.subtotal == v.total
    ensures v.subtotal == FormatPrice(currencyLabel, Some(SumOfLines(items.GetOr([]))))
  {
    var list := items.GetOr([]);
    var lines :=
      if |list| > 0 then LineList(seq(|list|, i requires 0 <= i < |list| => LineViewOf(list[i], currencyLabel)))
      else NoItemsMessage;
    var amount := FormatPrice(currencyLabel, Some(SumOfLines(list)));
    SummaryView(lines, amount, amount)
  }

  /** An empty summary shows the message and a zero subtotal. */
  lemma EmptySummary(currencyLabel: Option<string>)
    ensures View(None, currencyLabel) == SummaryView(NoItemsMessage, Symbol(currencyLabel) + "0.00", Symbol(currencyLabel) + "0.00")
  {
  }
}

=== FILE: catalog.dfy ===
/**
 Records shared by the product views and the cart views: a product fetched from
 the demo catalogue, a cart line, and the calls a view issues to the cart store.
 The store itself is not part of this model; views are modelled by the calls
 they issue, in order. Prices are integer cents.
 */
module Catalog {
  import opened Seqs

  datatype Product = Product(
    id: int,
    title: string,
    price: int,
    image: string,
    description: string,
    category: string)

  datatype CartItem = CartItem(id: int, title: string, price: int, image: string, quantity: int)

  /** One call into the cart store (`addToCart`, `removeFromCart`, `clearCart`). */
  datatype CartCall =
    | AddToCart(item: CartItem)
    | RemoveFromCart(id: int)
    | ClearCart

  /** The cart line a product view builds for `addToCart`: the product's id, title, price and image. */
  function LineFor(p: Product, quantity: int): CartItem {
    CartItem(p.id, p.title, p.price, p.image, quantity)
  }

  /** A product as the listing and detail views hold it: the fetched record plus its `sold_out` flag. */
  datatype Listed = Listed(product: Product, soldOut: bool)

  /** The calls of an add-to-cart handler guarded by the sold-out flag: nothing for a sold-out product, otherwise one unit. */
  function AddOne(l: Listed): (calls: seq<CartCall>)
    ensures |calls| <= 1
    ensures calls == [] <==> l.soldOut
    ensures forall c :: c in calls ==>
      c.AddToCart? && c.item.quantity == 1 && c.item.id == l.product.id && c.item.price == l.product.price
    ensures !l.soldOut ==>
      calls == [AddToCart(CartItem(l.product.id, l.product.title, l.product.price, l.product.image, 1))]
  {
    if l.soldOut then [] else [AddToCart(LineFor(l.product, 1))]
  }

  /** `price * quantity` of one line. */
  function LineAmount(item: CartItem): int {
    item.price * item.quantity
  }

  /** Reference definition of a cart's value: the sum of its line amounts. */
  function CartTotal(cart: seq<CartItem>): int {
    if |cart| == 0 then 0 else LineAmount(cart[0]) + CartTotal(cart[1..])
  }

  lemma {:induction false} CartTotalAppend(a: seq<CartItem>, b: seq<CartItem>)
    ensures CartTotal(a + b) == CartTotal(a) + CartTotal(b)
  {
    if |a| == 0 {
      assert a + b == b;
    } else {
      assert (a + b)[1..] == a[1..] + b;
      CartTotalAppend(a[1..], b);
    }
  }

  /** The cart without the lines carrying `id`, in order. */
  function WithoutId(cart: seq<CartItem>, id: int): (r: seq<CartItem>)
    ensures |r| <= |cart|
    ensures forall i :: 0 <= i < |r| ==> r[i].id != id
  {
    if |cart| == 0 then []
    else if cart[0].id == id then WithoutId(cart[1..], id)
    else [cart[0]] + WithoutId(cart[1..], id)
  }

  lemma {:induction false} WithoutIdTotal(cart: seq<CartItem>, i: nat)
    requires i < |cart|
    requires forall j :: 0 <= j < |cart| && j != i ==> cart[j].id != cart[i].id
    ensures CartTotal(WithoutId(cart, cart[i].id)) == CartTotal(cart) - LineAmount(cart[i])
  {
    if i == 0 {
      WithoutIdKeepsOthers(cart[1..], cart[0].id);
    } else {
      WithoutIdTotal(cart[1..], i - 1);
    }
  }

  lemma {:induction false} WithoutIdKeepsOthers(cart: seq<CartItem>, id: int)
    requires forall j :: 0 <= j < |cart| ==> cart[j].id != id
    ensures WithoutId(cart, id) == cart
  {
    if |cart| > 0 {
      WithoutIdKeepsOthers(cart[1..], id);
      assert cart == [cart[0]] + cart[1..];
    }
  }

  lemma {:induction false} WithoutIdMembership(cart: seq<CartItem>, id: int, x: CartItem)
    ensures x in WithoutId(cart, id) <==> x in cart && x.id != id
  {
    if |cart| > 0 {
      WithoutIdMembership(cart[1..], id, x);
      assert cart == [cart[0]] + cart[1..];
    }
  }
}

=== FILE: checkout_delivery_form.dfy ===
/**
 The delivery form: a country list fetched once, and a state list fetched
 whenever the selected country changes. The selected state becomes the
 document's default state when the new list holds it and is cleared
 otherwise; the state select is disabled while the list is empty.
 */
module CheckoutDeliveryForm {
  import opened Wrappers
  import opened Seqs
  import opened JsValue

  datatype DeliveryState = DeliveryState(
    countries: seq<string>,
    states: seq<string>,
    selectedCountry: string,
    selectedState: string)

  /** The first render: no lists, "United States", and `slice.primary.state || ""`. */
  function Initial(defaultState: Option<string>): (s: DeliveryState)
    ensures s.countries == [] && s.states == [] && s.selectedCountry == "United States"
    ensures defaultState.Some? && defaultState.value != "" ==> s.selectedState == defaultState.value
    ensures defaultState.None? || defaultState.value == "" ==> s.selectedState == ""
  {
    DeliveryState([], [], "United States", TextOr(defaultState, ""))
  }

  /** A response body of the countries service: its `error` flag and its `data` list. */
  datatype ApiReply<T> = ApiReply(error: bool, data: T)

  /** The countries fetch: the list replaces the empty one unless the service reports an error or the request fails. */
  function OnCountries(s: DeliveryState, outcome: Fetched<ApiReply<seq<string>>>): (r: DeliveryState)
    ensures r.states == s.states && r.selectedCountry == s.selectedCountry && r.selectedState == s.selectedState
    ensures outcome.Received? && !outcome.body.error ==> r.countries == outcome.body.data
    ensures !(outcome.Received? && !outcome.body.error) ==> r.countries == s.countries
  {
    match outcome
    case Received(reply) => if !reply.error then s.(countries := reply.data) else s
    case Failed => s
  }

  /** The state-list effect: no country clears the list and sends nothing; otherwise the country is posted. */
  function StatesRequest(s: DeliveryState): (r: (DeliveryState, Option<string>))
    ensures s.selectedCountry == "" ==> r.0 == s.(states := []) && r.1 == None
    ensures s.selectedCountry != "" ==> r.0 == s && r.1 == Some(s.selectedCountry)
  {
    if s.selectedCountry == "" then (s.(states := []), None) else (s, Some(s.selectedCountry))
  }

  /** The reply to the state-list request. */
  function OnStates(s: DeliveryState, defaultState: Option<string>, outcome: Fetched<ApiReply<seq<string>>>): (r: DeliveryState)
    ensures r.countries == s.countries && r.selectedCountry == s.selectedCountry
    ensures outcome.Received? && !outcome.body.error ==> r.states == outcome.body.data
    ensures !(outcome.Received? && !outcome.body.error) ==> r.states == [] && r.selectedState == s.selectedState
    ensures outcome.Received? && !outcome.body.error && defaultState.Some? && defaultState.value != "" && defaultState.value in outcome.body.data ==>
      r.selectedState == defaultState.value
    ensures outcome.Received? && !outcome.body.error && (defaultState.None? || defaultState.value == "" || defaultState.value !in outcome.body.data) ==>
      r.selectedState == ""
  {
    match outcome
    case Received(reply) =>
      if reply.error then s.(states := [])
      else
        var keep := defaultState.Some? && defaultState.value != "" && defaultState.value in reply.data;
        s.(states := reply.data, selectedState := if keep then defaultState.value else "")
    case Failed => s.(states := [])
  }

  /**
   After a successful state list the selected state is one of the select's
   options: the default state when the list holds it, otherwise the empty
   placeholder.
   */
  lemma SelectedStateIsAnOption(s: DeliveryState, defaultState: Option<string>, reply: ApiReply<seq<string>>)
    requires !reply.error
    ensures var r := OnStates(s, defaultState, Received(reply));
      r.selectedState in StateOptions(r.states)
    ensures var r := OnStates(s, defaultState, Received(reply));
      (r.selectedState != "" <==> defaultState.Some? && defaultState.value != "" && defaultState.value in reply.data)
    ensures var r := OnStates(s, defaultState, Received(reply));
      r.selectedState != "" ==> defaultState == Some(r.selectedState)
  {
  }

  /** The options of the state select: the empty placeholder, then the states. */
  function StateOptions(states: seq<string>): (options: seq<string>)
    ensures |options| == |states| + 1 && options[0] == ""
    ensures forall x :: x in options <==> x == "" || x in states
  {
    [""] + states
  }

  /** Picking an option keeps the selection an option. */
  function ChooseState(s: DeliveryState, value: string): (r: DeliveryState)
    requires value in StateOptions(s.states)
    ensures r.selectedState in StateOptions(r.states)
    ensures r.selectedState == value && r.(selectedState := s.selectedState) == s
  {
    s.(selectedState := value)
  }

  /**
   * Choosing a different country starts a new state-list request for it (none
   * for the empty choice). A select only reports a changed value, so choosing
   * the current country again does not happen.
   */
  function ChooseCountry(s: DeliveryState, country: string): (r: (DeliveryState, Option<string>))
    ensures r.0.selectedCountry == country
    ensures r.1.Some? <==> country != ""
    ensures country == "" ==> r.0.states == []
    ensures country != "" ==> r.1 == Some(country) && r.0.states == s.states
    ensures r.0.countries == s.countries && r.0.selectedState == s.selectedState
  {
    StatesRequest(s.(selectedCountry := country))
  }

  datatype StateSelect = StateSelect(disabled: bool, placeholder: string, options: seq<string>)

  function StateSelectView(s: DeliveryState): (v: StateSelect)
    ensures v.disabled <==> |s.states| == 0
    ensures v.placeholder == (if v.disabled then "---" else "Select state")
    ensures v.options == StateOptions(s.states)
  {
    StateSelect(|s.states| == 0, if |s.states| == 0 then "---" else "Select state", StateOptions(s.states))
  }

  /** A failed or refused state request leaves the select disabled. */
  lemma FailedStatesDisableSelect(s: DeliveryState, defaultState: Option<string>, outcome: Fetched<ApiReply<seq<string>>>)
    requires outcome.Failed? || outcome.body.error
    ensures StateSelectView(OnStates(s, defaultState, outcome)).disabled
  {
  }

  /** The shipping section: one entry per configured method, or the placeholder message when there are none. */
  datatype ShippingSection = Methods(items: seq<Value>) | EnterAddressMessage

  function Shipping(methods: Option<seq<Value>>): (r: ShippingSection)
    ensures r.EnterAddressMessage? <==> methods.None? || |methods.value| == 0
    ensures r.Methods? ==> r.items == methods.value
  {
    match methods
    case Some(items) => if |items| > 0 then Methods(items) else EnterAddressMessage
    case None => EnterAddressMessage
  }
}

=== FILE: checkout_page.dfy ===
/**
 The checkout page: the page document's slices split into a left column (the
 delivery, payment, express checkout and account opt-in slices) and a right
 column (the cart summary), each keeping the document order.
 */
module CheckoutPage {
  import opened Seqs
  import opened JsValue

  /** One slice of the page document: its `slice_type` and its content. */
  datatype PageSlice = PageSlice(sliceType: string, primary: Value)

  const FirstSectionTypes: seq<string> := [
    "express_checkout_options",
    "checkout_delivery_form",
    "payment_method_form",
    "payment_method_selector",
    "user_account_optin"]

  const SecondSectionType: string := "cart_summary"

  predicate InFirstSection(s: PageSlice) {
    s.sliceType in FirstSectionTypes
  }

  predicate InSecondSection(s: PageSlice) {
    s.sliceType == SecondSectionType
  }

  function FirstSection(slices: seq<PageSlice>): (r: seq<PageSlice>)
    ensures |r| <= |slices|
  {
    Filter(slices, InFirstSection)
  }

  function SecondSection(slices: seq<PageSlice>): (r: seq<PageSlice>)
    ensures |r| <= |slices|
  {
    Filter(slices, InSecondSection)
  }

  /**
   Each column holds exactly the document's slices of its types, in document
   order; no slice is in both; together they hold no more slices than the
   document, and a slice of any other type is in neither.
   */
  lemma ColumnsSplitTheDocument(slices: seq<PageSlice>, s: PageSlice)
    ensures s in FirstSection(slices) <==> s in slices && s.sliceType in FirstSectionTypes
    ensures s in SecondSection(slices) <==> s in slices && s.sliceType == "cart_summary"
    ensures !(s in FirstSection(slices) && s in SecondSection(slices))
    ensures IsSubsequence(FirstSection(slices), slices) && IsSubsequence(SecondSection(slices), slices)
    ensures |FirstSection(slices)| + |SecondSection(slices)| <= |slices|
    ensures multiset(FirstSection(slices))[s] == if InFirstSection(s) then multiset(slices)[s] else 0
    ensures multiset(SecondSection(slices))[s] == if InSecondSection(s) then multiset(slices)[s] else 0
  {
    FilterCount(slices, InFirstSection, s);
    FilterCount(slices, InSecondSection, s);
    FilterMembership(slices, InFirstSection, s);
    FilterMembership(slices, InSecondSection, s);
    FilterIsSubsequence(slices, InFirstSection);
    FilterIsSubsequence(slices, InSecondSection);
    DisjointFiltersFit(slices, InFirstSection, InSecondSection);
  }

  /** A document whose slices all belong to the two columns is shown in full. */
  lemma EverySliceShown(slices: seq<PageSlice>)
    requires forall i :: 0 <= i < |slices| ==> InFirstSection(slices[i]) || InSecondSection(slices[i])
    ensures |FirstSection(slices)| + |SecondSection(slices)| == |slices|
  {
    ComplementaryFiltersFill(slices);
  }

  lemma {:induction false} ComplementaryFiltersFill(slices: seq<PageSlice>)
    requires forall i :: 0 <= i < |slices| ==> InFirstSection(slices[i]) || InSecondSection(slices[i])
    ensures |Filter(slices, InFirstSection)| + |Filter(slices, InSecondSection)| == |slices|
  {
    if |slices| > 0 {
      ComplementaryFiltersFill(slices[1..]);
    }
  }
}

=== FILE: chronology_timeline.dfy ===
/**
 The milestone carousel: an index into the milestone list that the arrows
 move forwards and backwards with wrap-around, `(i + 1) % n` and
 `(i - 1 + n) % n`. With no milestones the remainder by zero makes the index
 NaN, after which nothing is shown and the arrows keep it NaN.
 */
module ChronologyTimeline {
  import opened Wrappers
  import opened Arith

  /** The index state: a number, or NaN. */
  datatype Index = At(i: int) | NaN

  /** JavaScript's `%` on integers: the sign of the dividend, NaN for a zero divisor. */
  function JsRem(a: int, n: int): (r: Index)
    ensures n == 0 <==> r == NaN
    ensures n != 0 && a >= 0 ==> r == At(a % (if n < 0 then -n else n))
  {
    if n == 0 then NaN
    else
      var m := if n < 0 then -n else n;
      if a >= 0 then At(a % m) else At(-((-a) % m))
  }

  const Initial := At(0)

  function Next(x: Index, n: nat): (r: Index)
    ensures r.NaN? <==> x.NaN? || n == 0
    ensures x.At? && n > 0 && 0 <= x.i < n ==> r == At(if x.i == n - 1 then 0 else x.i + 1)
  {
    match x
    case NaN => NaN
    case At(i) => JsRem(i + 1, n)
  }

  function Prev(x: Index, n: nat): (r: Index)
    ensures r.NaN? <==> x.NaN? || n == 0
    ensures x.At? && n > 0 && 0 <= x.i < n ==> r == At(if x.i == 0 then n - 1 else x.i - 1)
  {
    match x
    case NaN => NaN
    case At(i) => JsRem(i - 1 + n, n)
  }

  predicate InRange(x: Index, n: nat) {
    x.At? && 0 <= x.i < n
  }

  /** On a milestone, Next moves to the following one and wraps from the last to the first. */
  lemma NextOnMilestone(i: int, n: nat)
    requires 0 <= i < n
    ensures Next(At(i), n) == At(if i + 1 < n then i + 1 else 0)
  {
    if i + 1 < n {
      ModUnique(i + 1, n, 0, i + 1);
    } else {
      ModUnique(i + 1, n, 1, 0);
    }
  }

  /** On a milestone, Prev moves to the preceding one and wraps from the first to the last. */
  lemma PrevOnMilestone(i: int, n: nat)
    requires 0 <= i < n
    ensures Prev(At(i), n) == At(if i > 0 then i - 1 else n - 1)
  {
    if i > 0 {
      ModUnique(i - 1 + n, n, 1, i - 1);
    } else {
      ModUnique(n - 1, n, 0, n - 1);
    }
  }

  /** With milestones, the arrows keep the index on a milestone. */
  lemma ArrowsStayInRange(x: Index, n: nat)
    requires n > 0 && InRange(x, n)
    ensures InRange(Next(x, n), n) && InRange(Prev(x, n), n)
  {
    NextOnMilestone(x.i, n);
    PrevOnMilestone(x.i, n);
  }

  /** The arrows undo each other. */
  lemma PrevUndoesNext(x: Index, n: nat)
    requires n > 0 && InRange(x, n)
    ensures Prev(Next(x, n), n) == x
    ensures Next(Prev(x, n), n) == x
  {
    var i := x.i;
    NextOnMilestone(i, n);
    PrevOnMilestone(i, n);
    var j := if i + 1 < n then i + 1 else 0;
    var k := if i > 0 then i - 1 else n - 1;
    PrevOnMilestone(j, n);
    NextOnMilestone(k, n);
  }

  /** `k` presses of Next. */
  function Forward(x: Index, n: nat, k: nat): Index
    decreases k
  {
    if k == 0 then x else Next(Forward(x, n, k - 1), n)
  }

  lemma {:induction false} ForwardIsRotation(i: nat, n: nat, k: nat)
    requires i < n
    ensures Forward(At(i), n, k) == At((i + k) % n)
  {
    if k > 0 {
      ForwardIsRotation(i, n, k - 1);
      ModSuccessor(i + k - 1, n);
    } else {
      ModUnique(i, n, 0, i);
    }
  }

  lemma ModSuccessor(a: nat, n: nat)
    requires n > 0
    ensures (a % n + 1) % n == (a + 1) % n
  {
    var q, r := a / n, a % n;
    if r + 1 < n {
      ModUnique(a + 1, n, q, r + 1);
      ModUnique(r + 1, n, 0, r + 1);
    } else {
      assert (q + 1) * n == q * n + n;
      ModUnique(a + 1, n, q + 1, 0);
      ModUnique(r + 1, n, 1, 0);
    }
  }

  /** Pressing Next once per milestone comes back to the start. */
  lemma FullCircle(i: nat, n: nat)
    requires i < n
    ensures Forward(At(i), n, n) == At(i)
  {
    ForwardIsRotation(i, n, n);
    ModUnique(i + n, n, 1, i);
  }

  /** Without milestones the first press makes the index NaN, and it stays NaN. */
  lemma EmptyTimelineIsNaN(x: Index, k: nat)
    requires k > 0
    ensures Forward(x, 0, k) == NaN
    ensures Prev(x, 0) == NaN
  {
    if k > 1 {
      EmptyTimelineIsNaN(x, k - 1);
    }
  }

  /** `milestones[currentIndex]`: the milestone shown, none for NaN or an index outside the list. */
  function Current<T>(milestones: seq<T>, x: Index): (m: Option<T>)
    ensures m.Some? <==> InRange(x, |milestones|)
    ensures m.Some? ==> m.value == milestones[x.i]
  {
    if InRange(x, |milestones|) then Some(milestones[x.i]) else None
  }

  /** `slice.primary.milestones || []`. */
  function Milestones<T>(field: Option<seq<T>>): seq<T> {
    field.GetOr([])
  }

  /** From the first render, every sequence of presses shows a milestone when there are any. */
  lemma AlwaysShowsAMilestone<T>(milestones: seq<T>, presses: seq<bool>)
    requires |milestones| > 0
    ensures Current(milestones, Press(Initial, |milestones|, presses)).Some?
  {
    PressStaysInRange(Initial, |milestones|, presses);
  }

  /** Applies arrow presses in order: `true` for Next, `false` for Prev. */
  function Press(x: Index, n: nat, presses: seq<bool>): Index
    decreases |presses|
  {
    if |presses| == 0 then x
    else Press(if presses[0] then Next(x, n) else Prev(x, n), n, presses[1..])
  }

  lemma {:induction false} PressStaysInRange(x: Index, n: nat, presses: seq<bool>)
    requires n > 0 && InRange(x, n)
    ensures InRange(Press(x, n, presses), n)
    decreases |presses|
  {
    if |presses| > 0 {
      ArrowsStayInRange(x, n);
      PressStaysInRange(if presses[0] then Next(x, n) else Prev(x, n), n, presses[1..]);
    }
  }
}

=== FILE: feature_split_grid.dfy ===
/**
 The split feature grid: each feature is a media cell and a text cell side by
 side in a two-column grid, with the order flipped on every other feature so
 the media zig-zags between the columns; only the last feature's text cell
 carries its button.
 */
module FeatureSplitGrid {
  import opened Wrappers
  import opened JsValue

  /** `slice.primary?.items || slice.items || []`, read as a list. */
  function Items(primaryItems: Value, sliceItems: Value): (items: seq<Value>)
    ensures Truthy(primaryItems) ==> items == (if primaryItems.Arr? then primaryItems.elems else [])
    ensures !Truthy(primaryItems) && Truthy(sliceItems) ==> items == (if sliceItems.Arr? then sliceItems.elems else [])
    ensures !Truthy(primaryItems) && !Truthy(sliceItems) ==> items == []
  {
    var chosen := Or(primaryItems, Or(sliceItems, Arr([])));
    if chosen.Arr? then chosen.elems else []
  }

  /** An empty list in the primary section hides the repeatable items: an empty array is truthy. */
  lemma EmptyPrimaryItemsHideSliceItems(sliceItems: Value)
    ensures Items(Arr([]), sliceItems) == []
  {
  }

  /** A grid cell: an item's media (drawn when it has a url) or its text (with the button, on the last item). */
  datatype Cell =
    | MediaCell(index: nat, hasImage: bool)
    | TextCell(index: nat, button: Option<Value>)

  /** `isLastItem && item.button?.url`: the button with its caption, `button_text || "Learn More"`. */
  function Button(items: seq<Value>, i: nat): (b: Option<Value>)
    requires i < |items|
    ensures b.Some? <==> i == |items| - 1 && Truthy(Get(Get(items[i], "button"), "url"))
    ensures b.Some? ==> Truthy(b.value)
  {
    if i == |items| - 1 && Truthy(Get(Get(items[i], "button"), "url")) then Some(Or(Get(items[i], "button_text"), Str("Learn More")))
    else None
  }

  /** The two cells of item `i`: media then text, or text then media when `i` is odd. */
  function Pair(items: seq<Value>, i: nat): (cells: seq<Cell>)
    requires i < |items|
    ensures |cells| == 2 && cells[0].index == i && cells[1].index == i
    ensures cells[i % 2].MediaCell? && cells[1 - i % 2].TextCell?
  {
    var media := MediaCell(i, Truthy(Get(Get(items[i], "media"), "url")));
    var text := TextCell(i, Button(items, i));
    if i % 2 != 0 then [text, media] else [media, text]
  }

  /** The cells of the items from `from` on, in the grid's order. */
  function CellsFrom(items: seq<Value>, from: nat): (cells: seq<Cell>)
    requires from <= |items|
    ensures |cells| == 2 * (|items| - from)
    decreases |items| - from
  {
    if from == |items| then [] else Pair(items, from) + CellsFrom(items, from + 1)
  }

  function Cells(items: seq<Value>): (cells: seq<Cell>)
    ensures |cells| == 2 * |items|
  {
    CellsFrom(items, 0)
  }

  /** Cells `2j` and `2j + 1` after `from` are the pair of item `from + j`. */
  lemma {:induction false} CellsFromPairs(items: seq<Value>, from: nat, j: nat)
    requires from + j < |items|
    ensures CellsFrom(items, from)[2 * j] == Pair(items, from + j)[0]
    ensures CellsFrom(items, from)[2 * j + 1] == Pair(items, from + j)[1]
    decreases j
  {
    if j > 0 {
      CellsFromPairs(items, from + 1, j - 1);
    }
  }

  /**
   In the two-column grid (cell `k` sits in column `k % 2`) item `i` fills
   row `i`: its media in column `i % 2` and its text in the other, so the
   media alternates left and right.
   */
  lemma ZigZag(items: seq<Value>, i: nat)
    requires i < |items|
    ensures var cells := Cells(items);
      cells[2 * i + i % 2].MediaCell? && cells[2 * i + i % 2].index == i &&
      cells[2 * i + 1 - i % 2].TextCell? && cells[2 * i + 1 - i % 2].index == i
  {
    CellsFromPairs(items, 0, i);
  }

  /** Only the last item's text cell can carry a button. */
  lemma ButtonOnlyOnLast(items: seq<Value>, k: nat)
    requires k < |Cells(items)| && Cells(items)[k].TextCell? && Cells(items)[k].button.Some?
    ensures Cells(items)[k].index == |items| - 1
  {
    CellsFromPairs(items, 0, k / 2);
  }

  datatype Section = Grid(cells: seq<Cell>) | NoFeaturesMessage

  /** "No features found in Prismic." for an empty list, the grid otherwise. */
  function View(primaryItems: Value, sliceItems: Value): (s: Section)
    ensures s.NoFeaturesMessage? <==> |Items(primaryItems, sliceItems)| == 0
    ensures s.Grid? ==> s.cells == Cells(Items(primaryItems, sliceItems))
  {
    var items := Items(primaryItems, sliceItems);
    if |items| == 0 then NoFeaturesMessage else Grid(Cells(items))
  }
}

=== FILE: footer_minimal.dfy ===
/**
 The minimal footer: a row of links, each read from a content item that may
 be a web link, a document link or something else, and a note drawn as its
 paragraph blocks only.
 */
module FooterMinimal {
  import opened Wrappers
  import opened Seqs
  import opened JsValue

  /** `Array.isArray(primary.links) ? primary.links : []`. */
  function Links(primary: Value): (links: seq<Value>)
    ensures Get(primary, "links").Arr? ==> links == Get(primary, "links").elems
    ensures !Get(primary, "links").Arr? ==> links == []
  {
    var field := Get(primary, "links");
    if field.Arr? then field.elems else []
  }

  /** `getLinkUrl`: a web link's url, "/uid" for a document link, "#" otherwise. */
  function LinkUrl(link: Value): (url: Value)
    ensures Truthy(url)
    ensures Truthy(link) && Truthy(Get(link, "url")) ==> url == Get(link, "url")
    ensures url != Str("#") && !Truthy(Get(link, "url")) ==>
      Truthy(Get(link, "type")) && Truthy(Get(link, "uid")) && url == Str("/" + ToJsString(Get(link, "uid")))
    ensures Truthy(link) && !Truthy(Get(link, "url")) && Truthy(Get(link, "type")) && Truthy(Get(link, "uid")) ==>
      url == Str("/" + ToJsString(Get(link, "uid")))
    ensures Truthy(link) && !Truthy(Get(link, "url")) && !(Truthy(Get(link, "type")) && Truthy(Get(link, "uid"))) ==>
      url == Str("#")
    ensures !Truthy(link) ==> url == Str("#")
  {
    if !Truthy(link) then Str("#")
    else if Truthy(Get(link, "url")) then Get(link, "url")
    else if Truthy(Get(link, "type")) && Truthy(Get(link, "uid")) then Str("/" + ToJsString(Get(link, "uid")))
    else Str("#")
  }

  /**
   A document link, whatever other keys it carries (`id`, `lang`, `link_type`,
   ...), leads to its uid under the root; a web url takes precedence over it.
   */
  lemma DocumentLinkPath(link: Value, uid: string)
    requires link.Obj? && Truthy(Get(link, "type")) && Get(link, "uid") == Str(uid) && uid != ""
    ensures !Truthy(Get(link, "url")) ==> LinkUrl(link) == Str("/" + uid)
    ensures Truthy(Get(link, "url")) ==> LinkUrl(link) == Get(link, "url")
  {
  }

  /** `getLinkText`: the first of `label`, `text` and `link_text` that is set, else "Link". */
  function LinkText(link: Value): (text: Value)
    ensures Truthy(text)
    ensures !Truthy(link) ==> text == Str("Link")
    ensures Truthy(link) ==> text == FirstTruthy([Get(link, "label"), Get(link, "text"), Get(link, "link_text")], Str("Link"))
  {
    if !Truthy(link) then Str("Link")
    else FirstTruthy([Get(link, "label"), Get(link, "text"), Get(link, "link_text")], Str("Link"))
  }

  /** A label wins over the other keys. */
  lemma LabelWins(link: Value)
    requires Truthy(Get(link, "label"))
    ensures LinkText(link) == Get(link, "label")
  {
    FirstTruthyIsFirst([Get(link, "label"), Get(link, "text"), Get(link, "link_text")], Str("Link"), 0);
  }

  /** A paragraph block with non-empty text: the only blocks the note draws. */
  predicate IsParagraph(block: Value) {
    Get(block, "type") == Str("paragraph") && Truthy(Get(block, "text"))
  }

  function Texts(blocks: seq<Value>): (texts: seq<Value>)
    ensures |texts| == |blocks|
    ensures forall i :: 0 <= i < |blocks| ==> texts[i] == Get(blocks[i], "text")
  {
    seq(|blocks|, i requires 0 <= i < |blocks| => Get(blocks[i], "text"))
  }

  /** `SimpleRichText`: nothing for a field that is not a list, else one paragraph per paragraph block, in order. */
  function Note(field: Value): (paragraphs: Option<seq<Value>>)
    ensures paragraphs.None? <==> !field.Arr?
    ensures field.Arr? ==> paragraphs == Some(Texts(Filter(field.elems, IsParagraph)))
    ensures paragraphs.Some? ==> |paragraphs.value| <= |field.elems|
    ensures paragraphs.Some? ==> forall i :: 0 <= i < |paragraphs.value| ==> Truthy(paragraphs.value[i])
  {
    if !field.Arr? then None
    else
      var kept := Filter(field.elems, IsParagraph);
      Some(Texts(kept))
  }

  /** A note block is drawn exactly when it is a paragraph with text. */
  lemma NoteDrawsParagraphsOnly(blocks: seq<Value>, block: Value)
    requires block in blocks
    ensures block in Filter(blocks, IsParagraph) <==> IsParagraph(block)
  {
    FilterMembership(blocks, IsParagraph, block);
  }

  datatype FooterLink = FooterLink(href: Value, text: Value)

  /** The links, and the note container (drawn when the note is set) with its paragraphs (none when the note is not a list). */
  datatype Footer = Footer(links: seq<FooterLink>, note: Option<Option<seq<Value>>>)

  function View(primary: Value): (f: Footer)
    ensures |f.links| == |Links(primary)|
    ensures forall i :: 0 <= i < |f.links| ==> Truthy(f.links[i].href) && Truthy(f.links[i].text)
    ensures f.note.Some? <==> Truthy(Get(primary, "note"))
    ensures forall i :: 0 <= i < |f.links| ==>
      f.links[i] == FooterLink(LinkUrl(Links(primary)[i]), LinkText(Links(primary)[i]))
    ensures f.note.Some? ==> f.note.value == Note(Get(primary, "note"))
  {
    var links := Links(primary);
    Footer(
      seq(|links|, i requires 0 <= i < |links| => FooterLink(LinkUrl(links[i]), LinkText(links[i]))),
      if Truthy(Get(primary, "note")) then Some(Note(Get(primary, "note"))) else None)
  }
}

=== FILE: form_request.dfy ===
/**
 The support-request form: four text inputs (email, subject, description,
 request type), an optional attachment, a submit that shows a confirmation
 toast and clears the form, and a request-type select whose options come from
 a field that may be missing, a single option or a list.
 */
module FormRequest {
  import opened Wrappers
  import opened JsValue

  // ------------------------------------------------------------ rich text

  /** A block shows as the title when it is a second-level heading or a paragraph with non-empty text. */
  predicate IsTitleBlock(block: Value) {
    (Get(block, "type") == Str("heading2") || Get(block, "type") == Str("paragraph")) && Truthy(Get(block, "text"))
  }

  /** The position of the first title block, as `Array.prototype.find` scans. */
  function FirstTitleBlock(blocks: seq<Value>): (i: Option<nat>)
    ensures i.Some? ==> i.value < |blocks| && IsTitleBlock(blocks[i.value])
    ensures i.Some? ==> forall j :: 0 <= j < i.value ==> !IsTitleBlock(blocks[j])
    ensures i.None? <==> forall j :: 0 <= j < |blocks| ==> !IsTitleBlock(blocks[j])
  {
    if |blocks| == 0 then None
    else if IsTitleBlock(blocks[0]) then Some(0)
    else match FirstTitleBlock(blocks[1..])
      case None => None
      case Some(k) => Some(k + 1)
  }

  /**
   * `SimpleRichTextTitle`, a helper the component declares but never renders
   * (the heading drawn is `Title` below): nothing for a field that is not a
   * list, else the text of its first title block, if any.
   */
  function SimpleRichTextTitle(field: Value): (t: Option<Value>)
    ensures !field.Arr? ==> t.None?
    ensures t.Some? ==> Truthy(t.value)
  {
    if !field.Arr? then None
    else match FirstTitleBlock(field.elems)
      case None => None
      case Some(i) => Some(Get(field.elems[i], "text"))
  }

  /** The helper yields the text of the earliest title block, and a list with one yields something. */
  lemma TitleIsEarliestBlock(blocks: seq<Value>, i: nat)
    requires i < |blocks| && IsTitleBlock(blocks[i])
    requires forall j :: 0 <= j < i ==> !IsTitleBlock(blocks[j])
    ensures SimpleRichTextTitle(Arr(blocks)) == Some(Get(blocks[i], "text"))
  {
  }

  // --------------------------------------------------------------- fields

  /** `primary.request_type_options` read as a list: a list as is, a single option wrapped, nothing as empty. */
  function RequestOptions(field: Value): (options: seq<Value>)
    ensures field.Arr? ==> options == field.elems
    ensures !field.Arr? && Truthy(field) ==> options == [field]
    ensures !Truthy(field) ==> options == []
  {
    if field.Arr? then field.elems else if Truthy(field) then [field] else []
  }

  /** The options read the way every other list-or-single content field is read. */
  lemma RequestOptionsAsList(field: Value)
    ensures RequestOptions(field) == ToArray(field)
  {
  }

  /** The title heading: none for a falsy field; for a list, `title[0]?.text || ""`; otherwise the field itself. */
  function Title(primary: Value): (t: Option<Value>)
    ensures t.Some? <==> Truthy(Get(primary, "title"))
    ensures t.Some? && !Get(primary, "title").Arr? ==> t.value == Get(primary, "title")
    ensures t.Some? && Get(primary, "title").Arr? ==> t.value.Str? || Truthy(t.value)
    ensures t.Some? && Get(primary, "title").Arr? ==>
      var elems := Get(primary, "title").elems;
      t.value == Or(Get(if |elems| > 0 then elems[0] else Undefined, "text"), Str(""))
  {
    var title := Get(primary, "title");
    if !Truthy(title) then None
    else if title.Arr? then
      var first := if |title.elems| > 0 then title.elems[0] else Undefined;
      Some(Or(Get(first, "text"), Str("")))
    else Some(title)
  }

  /** An empty title list still draws the heading, with empty text. */
  lemma EmptyTitleListDrawsEmptyHeading(primary: Value)
    requires Get(primary, "title") == Arr([])
    ensures Title(primary) == Some(Str(""))
  {
  }

  /** The labels of the form, each the configured text or its default. */
  datatype Labels = Labels(email: Value, subject: Value, description: Value, requestType: Value,
                           attachments: Value, optional: Value, uploadPrompt: Value, submit: Value)

  function LabelsOf(primary: Value): (l: Labels)
    ensures Truthy(l.email) && Truthy(l.subject) && Truthy(l.description) && Truthy(l.requestType)
    ensures Truthy(l.attachments) && Truthy(l.optional) && Truthy(l.uploadPrompt) && Truthy(l.submit)
    ensures !Truthy(Get(primary, "email_label")) ==> l.email == Str("Your email address")
    ensures Truthy(Get(primary, "email_label")) ==> l.email == Get(primary, "email_label")
    ensures !Truthy(Get(primary, "submit_button_label")) ==> l.submit == Str("Submit")
    ensures Truthy(Get(primary, "submit_button_label")) ==> l.submit == Get(primary, "submit_button_label")
    ensures l.subject == Or(Get(primary, "subject_label"), Str("Subject"))
    ensures l.description == Or(Get(primary, "description_label"), Str("Description"))
    ensures l.requestType == Or(Get(primary, "request_type_label"), Str("Request Type"))
    ensures l.attachments == Or(Get(primary, "attachments_label"), Str("Attachments"))
    ensures l.optional == Or(Get(primary, "attachments_optional"), Str("(optional)"))
    ensures l.uploadPrompt == Or(Get(primary, "file_upload_prompt"), Str("Add file or drop files here"))
  {
    Labels(
      Or(Get(primary, "email_label"), Str("Your email address")),
      Or(Get(primary, "subject_label"), Str("Subject")),
      Or(Get(primary, "description_label"), Str("Description")),
      Or(Get(primary, "request_type_label"), Str("Request Type")),
      Or(Get(primary, "attachments_label"), Str("Attachments")),
      Or(Get(primary, "attachments_optional"), Str("(optional)")),
      Or(Get(primary, "file_upload_prompt"), Str("Add file or drop files here")),
      Or(Get(primary, "submit_button_label"), Str("Submit")))
  }

  // ----------------------------------------------------------------- state

  /** A chosen file, by name; its contents play no part in the form. */
  type FileRef = string

  datatype RequestData = RequestData(
    email: string, subject: string, description: string, requestType: string, attachment: Option<FileRef>)

  const Empty := RequestData("", "", "", "", None)

  datatype FormState = FormState(data: RequestData, toast: bool)

  const Initial := FormState(Empty, false)

  datatype TextInput = EmailInput | SubjectInput | DescriptionInput | RequestTypeInput

  /** `handleChange` for one of the text inputs: that value, and only it, changes. */
  function ChangeText(s: FormState, input: TextInput, value: string): (r: FormState)
    ensures r.toast == s.toast && r.data.attachment == s.data.attachment
    ensures r.data.email == (if input == EmailInput then value else s.data.email)
    ensures r.data.subject == (if input == SubjectInput then value else s.data.subject)
    ensures r.data.description == (if input == DescriptionInput then value else s.data.description)
    ensures r.data.requestType == (if input == RequestTypeInput then value else s.data.requestType)
  {
    match input
    case EmailInput => s.(data := s.data.(email := value))
    case SubjectInput => s.(data := s.data.(subject := value))
    case DescriptionInput => s.(data := s.data.(description := value))
    case RequestTypeInput => s.(data := s.data.(requestType := value))
  }

  /**
   `handleChange` for the file input: the first chosen file, or none when the
   input has no file list or an empty one.
   */
  function ChangeFiles(s: FormState, files: Option<seq<FileRef>>): (r: FormState)
    ensures r.toast == s.toast && r.data == s.data.(attachment := r.data.attachment)
    ensures r.data.attachment.Some? <==> files.Some? && |files.value| > 0
    ensures r.data.attachment.Some? ==> r.data.attachment.value == files.value[0]
  {
    var first := match files
      case None => None
      case Some(fs) => if |fs| > 0 then Some(fs[0]) else None;
    s.(data := s.data.(attachment := first))
  }

  /** The inputs marked `required` the browser checks before it lets the form submit. */
  predicate RequiredFilled(d: RequestData) {
    d.email != "" && d.subject != "" && d.requestType != ""
  }

  /** A submit attempt: with the required inputs filled the toast shows and every input is cleared; otherwise nothing happens. */
  function Submit(s: FormState): (r: FormState)
    ensures RequiredFilled(s.data) ==> r.toast && r.data == Empty
    ensures !RequiredFilled(s.data) ==> r == s
  {
    if RequiredFilled(s.data) then FormState(Empty, true) else s
  }

  /** The toast's timer running out hides it and leaves the inputs alone. */
  function ToastTimeout(s: FormState): (r: FormState)
    ensures !r.toast && r.data == s.data
  {
    s.(toast := false)
  }

  /** After a submit the form cannot submit again until the required inputs are filled in anew. */
  lemma SubmitClearsRequired(s: FormState)
    ensures !RequiredFilled(Submit(s).data) || Submit(s) == s
    ensures Submit(Submit(s)).data == Submit(s).data
  {
  }

  /** Typing into the inputs never shows the toast; only a submit does. */
  lemma OnlySubmitShowsToast(s: FormState, input: TextInput, value: string, files: Option<seq<FileRef>>)
    requires !s.toast
    ensures !ChangeText(s, input, value).toast && !ChangeFiles(s, files).toast
    ensures Submit(s).toast <==> RequiredFilled(s.data)
  {
  }
}

=== FILE: js_value.dfy ===
/**
 The loosely-typed values the components receive from the content service and
 read with JavaScript's dynamic semantics: truthiness, property reads that
 yield `undefined` when a key is missing, `a || b`, `String(v)`, and
 `String.prototype.trim` emptiness.
 */
module JsValue {
  import opened Wrappers
  import opened Seqs
  import opened Arith

  /** A JSON-shaped JavaScript value. Numbers are integers in this model. */
  datatype Value =
    | Undefined
    | Null
    | Bool(b: bool)
    | Num(n: int)
    | Str(s: string)
    | Arr(elems: seq<Value>)
    | Obj(props: map<string, Value>)
      /** A built-in method read off a primitive, such as `"home".link`; `typeof` gives "function". */
    | Method(name: string)

  /** JavaScript truthiness: `undefined`, `null`, `false`, `0` and `""` are falsy; arrays and objects never are. */
  predicate Truthy(v: Value) {
    match v
    case Undefined => false
    case Null => false
    case Bool(b) => b
    case Num(n) => n != 0
    case Str(s) => s != ""
    case Arr(_) => true
    case Obj(_) => true
    case Method(_) => true
  }

  /**
   The HTML methods every string inherits (section B.2.2 of ECMA-262):
   reading one of these keys off a string finds a function.
   */
  const StringHtmlMethods: set<string> :=
    {"anchor", "big", "blink", "bold", "fixed", "fontcolor", "fontsize", "italics", "link", "small", "strike", "sub", "sup"}

  /**
   `v.key` (or `v?.key`): the property if `v` is an object holding it, the
   inherited method if `v` is a string and `key` names an HTML method, and
   `undefined` otherwise.
   */
  function Get(v: Value, key: string): (r: Value)
    ensures !v.Obj? && !v.Str? ==> r == Undefined
    ensures v.Obj? && key !in v.props ==> r == Undefined
    ensures v.Obj? && key in v.props ==> r == v.props[key]
    ensures v.Str? ==> (Truthy(r) <==> key in StringHtmlMethods) && !IsObjectType(r)
  {
    if v.Obj? && key in v.props then v.props[key]
    else if v.Str? && key in StringHtmlMethods then Method(key)
    else Undefined
  }

  /** `key in v` for an object. */
  predicate Has(v: Value, key: string) {
    v.Obj? && key in v.props
  }

  /** `typeof v === "object"`: true of `null`, arrays and plain objects. */
  predicate IsObjectType(v: Value) {
    v.Null? || v.Arr? || v.Obj?
  }

  /** `a || b`. */
  function Or(a: Value, b: Value): (r: Value)
    ensures Truthy(r) <==> Truthy(a) || Truthy(b)
    ensures Truthy(a) ==> r == a
    ensures !Truthy(a) ==> r == b
  {
    if Truthy(a) then a else b
  }

  /** The first truthy value of `vs`, else `fallback` (a chain `v0 || v1 || ... || fallback`). */
  function FirstTruthy(vs: seq<Value>, fallback: Value): (r: Value)
    ensures (exists i :: 0 <= i < |vs| && Truthy(vs[i])) ==> r in vs && Truthy(r)
    ensures (forall i :: 0 <= i < |vs| ==> !Truthy(vs[i])) ==> r == fallback
  {
    if |vs| == 0 then fallback
    else if Truthy(vs[0]) then vs[0]
    else FirstTruthy(vs[1..], fallback)
  }

  lemma {:induction false} FirstTruthyIsFirst(vs: seq<Value>, fallback: Value, i: nat)
    requires i < |vs| && Truthy(vs[i])
    requires forall j :: 0 <= j < i ==> !Truthy(vs[j])
    ensures FirstTruthy(vs, fallback) == vs[i]
  {
    if i > 0 {
      FirstTruthyIsFirst(vs[1..], fallback, i - 1);
    }
  }

  /** `nullable || fallback` for a text field the content service may leave null or empty. */
  function TextOr(t: Option<string>, fallback: string): (r: string)
    ensures t.Some? && t.value != "" ==> r == t.value
    ensures t.None? || t.value == "" ==> r == fallback
  {
    match t
    case Some(s) => if s != "" then s else fallback
    case None => fallback
  }

  /**
   `field ? (Array.isArray(field) ? field : [field]) : []`: a content field that
   may be missing, a single item or a list, read as a list.
   */
  function ToArray(v: Value): (r: seq<Value>)
    ensures forall x :: x in r ==> x == v || (v.Arr? && x in v.elems)
    ensures r == [] <==> !Truthy(v) || v == Arr([])
    ensures Truthy(v) && !v.Arr? ==> r == [v]
  {
    if !Truthy(v) then [] else if v.Arr? then v.elems else [v]
  }

  /** Reading the list back as a field gives the same list. */
  lemma ToArrayIdempotent(v: Value)
    ensures ToArray(Arr(ToArray(v))) == ToArray(v)
  {
  }

  // ---------------------------------------------------------------------------
  // Decimal text

  function DigitChar(d: nat): (c: char)
    requires d < 10
    ensures '0' <= c <= '9'
  {
    "0123456789"[d]
  }

  /** The decimal digits of `n`, as `String(n)` prints a non-negative integer. */
  function NatToString(n: nat): (r: string)
    ensures |r| > 0
    ensures forall i :: 0 <= i < |r| ==> '0' <= r[i] <= '9'
    ensures |r| > 1 ==> r[0] != '0'
  {
    if n < 10 then [DigitChar(n)]
    else NatToString(n / 10) + [DigitChar(n % 10)]
  }

  /** Reads a string of decimal digits back (the inverse of `NatToString`). */
  function ParseDigits(s: string): nat
    requires forall i :: 0 <= i < |s| ==> '0' <= s[i] <= '9'
  {
    if |s| == 0 then 0
    else ParseDigits(s[..|s| - 1]) * 10 + (s[|s| - 1] as int - '0' as int)
  }

  lemma {:induction false} NatToStringRoundTrip(n: nat)
    ensures ParseDigits(NatToString(n)) == n
  {
    var s := NatToString(n);
    if n >= 10 {
      NatToStringRoundTrip(n / 10);
      assert s[..|s| - 1] == NatToString(n / 10);
    }
  }

  /**
   `(cents / 100).toFixed(2)` of an amount held in cents: the whole units, a
   point, and exactly two digits.
   */
  function CentsToFixed(cents: int): (r: string)
    ensures |r| >= 4 && r[|r| - 3] == '.'
    ensures cents < 0 <==> r[0] == '-'
    ensures forall i :: 0 <= i < |r| && i != |r| - 3 && !(cents < 0 && i == 0) ==> '0' <= r[i] <= '9'
  {
    if cents < 0 then "-" + UnsignedFixed(-cents) else UnsignedFixed(cents)
  }

  /** The digits of a non-negative amount of cents: whole units, a point, two digits. */
  function UnsignedFixed(a: nat): (r: string)
    ensures |r| >= 4 && r[|r| - 3] == '.' && '0' <= r[0] <= '9'
    ensures forall i :: 0 <= i < |r| && i != |r| - 3 ==> '0' <= r[i] <= '9'
  {
    NatToString(a / 100) + "." + [DigitChar(a % 100 / 10), DigitChar(a % 10)]
  }

  /** Reads `units.dd` back as cents. */
  function ParseFixed(s: string): int
    requires |s| >= 4 && s[|s| - 3] == '.'
    requires forall i :: 0 <= i < |s| && i != |s| - 3 ==> '0' <= s[i] <= '9'
  {
    ParseDigits(s[..|s| - 3]) * 100 + ParseDigits(s[|s| - 2..])
  }

  lemma CentsToFixedRoundTrip(cents: nat)
    ensures ParseFixed(CentsToFixed(cents)) == cents
  {
    var q, r := cents / 100, cents % 100;
    var whole := NatToString(q);
    var tail := [DigitChar(r / 10), DigitChar(r % 10)];
    CentsToFixedShape(cents);
    ParseFixedSplit(whole, tail);
    NatToStringRoundTrip(q);
    TwoDigitsRoundTrip(r);
    DivMod100(cents);
  }

  lemma CentsToFixedShape(cents: nat)
    ensures CentsToFixed(cents) == NatToString(cents / 100) + "." + [DigitChar(cents % 100 / 10), DigitChar(cents % 10)]
  {
    assert CentsToFixed(cents) == UnsignedFixed(cents);
  }

  lemma DivMod100(n: nat)
    ensures (n / 100) * 100 + n % 100 == n
    ensures (n % 100) % 10 == n % 10
  {
    var q, r := n / 100, n % 100;
    var a, b := r / 10, r % 10;
    assert n == q * 100 + r && r == a * 10 + b;
    assert n == (q * 10 + a) * 10 + b;
    ModUnique(n, 10, q * 10 + a, b);
  }

  lemma ParseFixedSplit(whole: string, tail: string)
    requires |whole| >= 1 && |tail| == 2
    requires forall i :: 0 <= i < |whole| ==> '0' <= whole[i] <= '9'
    requires forall i :: 0 <= i < |tail| ==> '0' <= tail[i] <= '9'
    ensures ParseFixed(whole + "." + tail) == ParseDigits(whole) * 100 + ParseDigits(tail)
  {
    var s := whole + "." + tail;
    assert s[..|s| - 3] == whole;
    assert s[|s| - 2..] == tail;
  }

  lemma TwoDigitsRoundTrip(d: nat)
    requires d < 100
    ensures ParseDigits([DigitChar(d / 10), DigitChar(d % 10)]) == d
  {
    var hi, lo := DigitChar(d / 10), DigitChar(d % 10);
    var t := [hi, lo];
    DigitCharValue(d / 10);
    DigitCharValue(d % 10);
    assert t[..1] == [hi];
    assert [hi][..0] == [];
    assert ParseDigits([hi]) == d / 10;
    assert ParseDigits(t) == (d / 10) * 10 + d % 10;
  }

  lemma DigitCharValue(d: nat)
    requires d < 10
    ensures DigitChar(d) as int - '0' as int == d
  {
  }

  /** `String(i)` of an integer. */
  function IntToString(i: int): (r: string)
    ensures |r| > 0
    ensures i < 0 <==> r[0] == '-'
  {
    if i < 0 then "-" + NatToString(-i) else NatToString(i)
  }

  /** `String(v)`, as a template literal or `Array.prototype.join` converts a value. */
  function ToJsString(v: Value): string
    decreases v, 0
  {
    match v
    case Undefined => "undefined"
    case Null => "null"
    case Bool(b) => if b then "true" else "false"
    case Num(n) => IntToString(n)
    case Str(s) => s
    case Arr(es) => Join(seq(|es|, i requires 0 <= i < |es| => JoinPart(es[i])), ",")
    case Obj(_) => "[object Object]"
    case Method(name) => "function " + name + "() { [native code] }"
  }

  /** How `Array.prototype.join` renders one element: `undefined` and `null` become empty. */
  function JoinPart(v: Value): (r: string)
    ensures v.Undefined? || v.Null? ==> r == ""
    ensures v.Str? ==> r == v.s
    decreases v, 1
  {
    if v.Undefined? || v.Null? then "" else ToJsString(v)
  }

  /** `s.includes(t)`: `t` occurs in `s` at some position. */
  predicate Includes(s: string, t: string)
    decreases |s|
  {
    |t| <= |s| && (s[..|t|] == t || Includes(s[1..], t))
  }

  /** `t` sits in `s` at position `i`. */
  predicate OccursAt(s: string, t: string, i: int) {
    0 <= i <= |s| - |t| && s[i..i + |t|] == t
  }

  /** `Includes` holds exactly when `t` occurs at some position of `s`. */
  lemma {:induction false} IncludesIffOccurs(s: string, t: string)
    ensures Includes(s, t) <==> exists i :: OccursAt(s, t, i)
    decreases |s|
  {
    if |t| <= |s| && s[..|t|] == t {
      assert OccursAt(s, t, 0);
    } else if |t| <= |s| {
      IncludesIffOccurs(s[1..], t);
      if exists i :: OccursAt(s, t, i) {
        var i :| OccursAt(s, t, i);
        assert i > 0;
        assert OccursAt(s[1..], t, i - 1);
      }
      if Includes(s[1..], t) {
        var j :| OccursAt(s[1..], t, j);
        assert OccursAt(s, t, j + 1);
      }
    }
  }

  /** A text without the first character of `t` does not include `t`. */
  lemma MissingFirstCharExcludes(s: string, t: string)
    requires |t| > 0 && t[0] !in s
    ensures !Includes(s, t)
  {
    IncludesIffOccurs(s, t);
    forall i | 0 <= i <= |s| - |t|
      ensures !OccursAt(s, t, i)
    {
      assert s[i] in s;
    }
  }

  // ---------------------------------------------------------------------------
  // String.prototype.trim

  /** The characters `trim` removes: ECMA-262's WhiteSpace (with every Zs space) and LineTerminator. */
  predicate IsJsWhitespace(c: char) {
    var n := c as int;
    n == 0x09 || n == 0x0A || n == 0x0B || n == 0x0C || n == 0x0D || n == 0x20
    || n == 0xA0 || n == 0x1680 || (0x2000 <= n <= 0x200A) || n == 0x2028 || n == 0x2029
    || n == 0x202F || n == 0x205F || n == 0x3000 || n == 0xFEFF
  }

  function TrimStart(s: string): (r: string)
    ensures |r| > 0 ==> !IsJsWhitespace(r[0])
    ensures |r| <= |s|
  {
    if |s| > 0 && IsJsWhitespace(s[0]) then TrimStart(s[1..]) else s
  }

  function TrimEnd(s: string): (r: string)
    ensures |r| > 0 ==> !IsJsWhitespace(r[|r| - 1])
    ensures |r| <= |s|
  {
    if |s| > 0 && IsJsWhitespace(s[|s| - 1]) then TrimEnd(s[..|s| - 1]) else s
  }

  function Trim(s: string): (r: string)
    ensures |r| <= |s|
    ensures |r| > 0 ==> !IsJsWhitespace(r[0]) && !IsJsWhitespace(r[|r| - 1])
  {
    TrimEndIsPrefix(TrimStart(s));
    TrimEnd(TrimStart(s))
  }

  /** Trimming the end only drops characters from the end. */
  lemma {:induction false} TrimEndIsPrefix(s: string)
    ensures TrimEnd(s) == s[..|TrimEnd(s)|]
  {
    if |s| > 0 && IsJsWhitespace(s[|s| - 1]) {
      TrimEndIsPrefix(s[..|s| - 1]);
    }
  }

  /** Trimming the start drops only white space, and only from the start. */
  lemma {:induction false} TrimStartDropsWhitespace(s: string)
    ensures var i := |s| - |TrimStart(s)|;
      TrimStart(s) == s[i..] && AllWhitespace(s[..i])
  {
    if |s| > 0 && IsJsWhitespace(s[0]) {
      TrimStartDropsWhitespace(s[1..]);
      var i := |s| - |TrimStart(s)|;
      assert s[1..][i - 1..] == s[i..];
      assert forall k :: 0 < k < i ==> s[..i][k] == s[1..][..i - 1][k - 1];
    }
  }

  /** Trimming the end drops only white space, and only from the end. */
  lemma {:induction false} TrimEndDropsWhitespace(s: string)
    ensures var j := |TrimEnd(s)|;
      TrimEnd(s) == s[..j] && AllWhitespace(s[j..])
  {
    if |s| > 0 && IsJsWhitespace(s[|s| - 1]) {
      var t := s[..|s| - 1];
      TrimEndDropsWhitespace(t);
      var j := |TrimEnd(s)|;
      assert t[..j] == s[..j];
      assert forall k :: 0 <= k < |s| - 1 - j ==> s[j..][k] == t[j..][k];
    }
  }

  /**
   * `s.trim()` is the part of `s` between two runs of white space: it
   * keeps every character from the first non-white-space one to the last.
   */
  lemma TrimIsInfix(s: string)
    ensures var i := |s| - |TrimStart(s)|; var j := i + |Trim(s)|;
      i <= j <= |s| && Trim(s) == s[i..j] && AllWhitespace(s[..i]) && AllWhitespace(s[j..])
  {
    var t := TrimStart(s);
    var u := TrimEnd(t);
    assert Trim(s) == u;
    TrimStartDropsWhitespace(s);
    TrimEndDropsWhitespace(t);
    var i := |s| - |t|;
    var j := i + |u|;
    assert t == s[i..];
    assert u == s[i..j];
    assert s[j..] == t[|u|..];
  }

  /** `s.trim() === ""`. */
  predicate IsBlank(s: string) {
    Trim(s) == ""
  }

  predicate AllWhitespace(s: string) {
    forall i :: 0 <= i < |s| ==> IsJsWhitespace(s[i])
  }

  lemma {:induction false} TrimStartEmpty(s: string)
    ensures TrimStart(s) == "" <==> AllWhitespace(s)
  {
    if |s| > 0 && IsJsWhitespace(s[0]) {
      TrimStartEmpty(s[1..]);
      assert AllWhitespace(s) <==> AllWhitespace(s[1..]) by {
        if AllWhitespace(s[1..]) {
          forall i | 0 <= i < |s| ensures IsJsWhitespace(s[i]) {
            if i > 0 { assert s[i] == s[1..][i - 1]; }
          }
        }
      }
    }
  }

  lemma {:induction false} TrimEndEmpty(s: string)
    ensures TrimEnd(s) == "" <==> AllWhitespace(s)
  {
    if |s| > 0 && IsJsWhitespace(s[|s| - 1]) {
      TrimEndEmpty(s[..|s| - 1]);
      assert AllWhitespace(s) <==> AllWhitespace(s[..|s| - 1]) by {
        if AllWhitespace(s[..|s| - 1]) {
          forall i | 0 <= i < |s| ensures IsJsWhitespace(s[i]) {
            if i < |s| - 1 { assert s[i] == s[..|s| - 1][i]; }
          }
        }
      }
    }
  }

  /** A string trims to nothing exactly when every one of its characters is whitespace. */
  lemma BlankIffAllWhitespace(s: string)
    ensures IsBlank(s) <==> AllWhitespace(s)
  {
    TrimStartEmpty(s);
    var t := TrimStart(s);
    TrimEndEmpty(t);
    if |t| > 0 {
      assert !AllWhitespace(t);
    }
  }
}

=== FILE: navbar2.dfy ===
/**
 The secondary navigation bar: a document loaded from the content service
 (nothing renders until it arrives), logo and section links read from fields
 that may be missing, single items or lists, and three panels (search box,
 mobile menu, country list) opened by toggle buttons. Two effects keep the
 search box and the mobile menu from being open together.
 */
module Navbar2 {
  import opened Wrappers
  import opened Seqs
  import opened JsValue

  /** `getSingle("navbar2").catch(() => null)` followed by `data?.data || null`. */
  function LoadedDocument(outcome: Fetched<Value>): (doc: Value)
    ensures outcome.Failed? ==> doc == Null
    ensures outcome.Received? && Truthy(Get(outcome.body, "data")) ==> doc == Get(outcome.body, "data")
    ensures !Truthy(doc) ==> doc == Null
  {
    match outcome
    case Failed => Null
    case Received(d) => Or(Get(d, "data"), Null)
  }

  // ------------------------------------------------------------------ links

  /** The link sections, each with the property of an item that holds its link. */
  const Sections: seq<(string, string)> := [
    ("headphone", "headphonelink"),
    ("earphones", "earphonelink"),
    ("accessories", "accessorieslink"),
    ("collaborations", "collaborationslink"),
    ("blog", "bloglink")]

  /** `item.<linkKey>?.url || "#"`. */
  function Href(item: Value, linkKey: string): (href: Value)
    ensures Truthy(href)
    ensures Truthy(Get(Get(item, linkKey), "url")) ==> href == Get(Get(item, linkKey), "url")
    ensures !Truthy(Get(Get(item, linkKey), "url")) ==> href == Str("#")
  {
    Or(Get(Get(item, linkKey), "url"), Str("#"))
  }

  /** One link per item of the section's field. */
  function SectionLinks(doc: Value, section: string, linkKey: string): (links: seq<Value>)
    ensures |links| == |ToArray(Get(doc, section))|
    ensures forall i :: 0 <= i < |links| ==> links[i] == Href(ToArray(Get(doc, section))[i], linkKey)
  {
    var items := ToArray(Get(doc, section));
    seq(|items|, i requires 0 <= i < |items| => Href(items[i], linkKey))
  }

  /** The links of `Sections[from..]`, section after section. */
  function LinksFrom(doc: Value, from: nat): (links: seq<Value>)
    requires from <= |Sections|
    ensures forall i :: 0 <= i < |links| ==> Truthy(links[i])
    ensures from == |Sections| ==> links == []
    ensures from < |Sections| ==>
      var first := SectionLinks(doc, Sections[from].0, Sections[from].1);
      |first| <= |links| && links[..|first|] == first
    decreases |Sections| - from
  {
    if from == |Sections| then []
    else SectionLinks(doc, Sections[from].0, Sections[from].1) + LinksFrom(doc, from + 1)
  }

  /** The section links, in the order the bar lists them (the same in the desktop bar and the mobile menu). */
  function NavLinks(doc: Value): (links: seq<Value>)
    ensures forall i :: 0 <= i < |links| ==> Truthy(links[i])
    ensures links ==
      SectionLinks(doc, "headphone", "headphonelink") + SectionLinks(doc, "earphones", "earphonelink")
      + SectionLinks(doc, "accessories", "accessorieslink") + SectionLinks(doc, "collaborations", "collaborationslink")
      + SectionLinks(doc, "blog", "bloglink")
  {
    LinksFromSections(doc);
    LinksFrom(doc, 0)
  }

  /** Unfolds the section walk into the five sections, in order. */
  lemma LinksFromSections(doc: Value)
    ensures LinksFrom(doc, 0) ==
      SectionLinks(doc, "headphone", "headphonelink") + SectionLinks(doc, "earphones", "earphonelink")
      + SectionLinks(doc, "accessories", "accessorieslink") + SectionLinks(doc, "collaborations", "collaborationslink")
      + SectionLinks(doc, "blog", "bloglink")
  {
    var a := SectionLinks(doc, "headphone", "headphonelink");
    var b := SectionLinks(doc, "earphones", "earphonelink");
    var c := SectionLinks(doc, "accessories", "accessorieslink");
    var d := SectionLinks(doc, "collaborations", "collaborationslink");
    var e := SectionLinks(doc, "blog", "bloglink");
    assert Sections[0] == ("headphone", "headphonelink") && Sections[1] == ("earphones", "earphonelink");
    assert Sections[2] == ("accessories", "accessorieslink") && Sections[3] == ("collaborations", "collaborationslink");
    assert Sections[4] == ("blog", "bloglink");
    LinksFromStep(doc, 0);
    LinksFromStep(doc, 1);
    LinksFromStep(doc, 2);
    LinksFromStep(doc, 3);
    LinksFromStep(doc, 4);
    assert LinksFrom(doc, 4) == e;
    ConcatFive(a, b, c, d, e);
  }

  lemma ConcatFive<T>(a: seq<T>, b: seq<T>, c: seq<T>, d: seq<T>, e: seq<T>)
    ensures a + (b + (c + (d + e))) == a + b + c + d + e
  {
    assert c + (d + e) == c + d + e;
    assert b + (c + d + e) == b + c + d + e;
    assert a + (b + c + d + e) == a + b + c + d + e;
  }

  lemma LinksFromStep(doc: Value, from: nat)
    requires from < |Sections|
    ensures LinksFrom(doc, from) == SectionLinks(doc, Sections[from].0, Sections[from].1) + LinksFrom(doc, from + 1)
  {
  }

  /** A document without section fields has no section links at all. */
  lemma NoSectionsNoLinks(doc: Value)
    requires forall k :: k in ["headphone", "earphones", "accessories", "collaborations", "blog"] ==> !Truthy(Get(doc, k))
    ensures NavLinks(doc) == []
  {
    assert !Truthy(Get(doc, Sections[0].0)) && !Truthy(Get(doc, Sections[1].0));
    assert !Truthy(Get(doc, Sections[2].0)) && !Truthy(Get(doc, Sections[3].0));
    assert !Truthy(Get(doc, Sections[4].0));
  }

  /** A section given as a single item contributes exactly one link, to its url or to "#". */
  lemma SingleItemSection(doc: Value, i: nat)
    requires i < |Sections|
    requires Truthy(Get(doc, Sections[i].0)) && !Get(doc, Sections[i].0).Arr?
    ensures SectionLinks(doc, Sections[i].0, Sections[i].1) == [Href(Get(doc, Sections[i].0), Sections[i].1)]
  {
  }

  datatype LogoEntry = LogoLink(href: Value) | LogoMissing

  /** A logo item with an image links to `link?.url || "/"`; one without shows "Logo Missing". */
  function LogoFor(item: Value): (e: LogoEntry)
    ensures e.LogoMissing? <==> !Truthy(Get(item, "logoimage"))
    ensures e.LogoLink? ==> Truthy(e.href)
  {
    if Truthy(Get(item, "logoimage")) then LogoLink(Or(Get(Get(item, "link"), "url"), Str("/")))
    else LogoMissing
  }

  // ----------------------------------------------------------------- panels

  datatype Panels = Panels(search: bool, menu: bool, country: bool)

  datatype Toggle = ToggleSearch | ToggleMenu | ToggleCountry

  function Flip(p: Panels, t: Toggle): (r: Panels)
    ensures r.search == (p.search != (t == ToggleSearch))
    ensures r.menu == (p.menu != (t == ToggleMenu))
    ensures r.country == (p.country != (t == ToggleCountry))
  {
    match t
    case ToggleSearch => p.(search := !p.search)
    case ToggleMenu => p.(menu := !p.menu)
    case ToggleCountry => p.(country := !p.country)
  }

  function OpenCount(p: Panels): nat {
    (if p.search then 1 else 0) + (if p.menu then 1 else 0)
  }

  /**
   The renders after a state change: each effect runs when its own flag
   changed, the search effect closing the menu when search is open and the
   menu effect closing search when the menu is open, until nothing changes.
   */
  function Settle(prev: Panels, cur: Panels): (r: Panels)
    ensures r.country == cur.country
    decreases OpenCount(cur)
  {
    var afterSearch := if cur.search != prev.search && cur.search then cur.(menu := false) else cur;
    var next := if cur.menu != prev.menu && cur.menu then afterSearch.(search := false) else afterSearch;
    if next == cur then cur else Settle(cur, next)
  }

  /** A click on a toggle button, with the renders it causes. */
  function Click(p: Panels, t: Toggle): (r: Panels)
    ensures r.country == (p.country != (t == ToggleCountry))
  {
    Settle(p, Flip(p, t))
  }

  /** The search button flips search; opening it closes the mobile menu, closing it leaves the menu alone. */
  lemma ClickSearch(p: Panels)
    ensures var r := Click(p, ToggleSearch);
      r.search == !p.search && r.menu == (p.menu && p.search) && r.country == p.country
  {
    var c := Flip(p, ToggleSearch);
    if c.search && c.menu {
      var n := c.(menu := false);
      assert Settle(c, n) == n;
      assert Settle(p, c) == n;
    }
  }

  /** The menu button flips the menu; opening it closes search, closing it leaves search alone. */
  lemma ClickMenu(p: Panels)
    ensures var r := Click(p, ToggleMenu);
      r.menu == !p.menu && r.search == (p.search && p.menu) && r.country == p.country
  {
    var c := Flip(p, ToggleMenu);
    if c.search && c.menu {
      var n := c.(search := false);
      assert Settle(c, n) == n;
      assert Settle(p, c) == n;
    }
  }

  /** The country list is independent of the other two panels. */
  lemma ClickCountry(p: Panels)
    ensures Click(p, ToggleCountry) == p.(country := !p.country)
  {
  }

  /**
   After any click the search box and the mobile menu are never both open (a
   click on either of them ensures it even from a state where both were).
   */
  lemma NeverBothOpen(p: Panels, t: Toggle)
    requires !(p.search && p.menu) || t != ToggleCountry
    ensures var r := Click(p, t);
      !(r.search && r.menu)
  {
    match t
    case ToggleSearch => ClickSearch(p);
    case ToggleMenu => ClickMenu(p);
    case ToggleCountry => ClickCountry(p);
  }

  function Clicks(p: Panels, ts: seq<Toggle>): Panels
    decreases |ts|
  {
    if |ts| == 0 then p else Clicks(Click(p, ts[0]), ts[1..])
  }

  lemma {:induction false} NeverBothOpenAfterClicks(p: Panels, ts: seq<Toggle>)
    requires !(p.search && p.menu)
    ensures var r := Clicks(p, ts);
      !(r.search && r.menu)
    decreases |ts|
  {
    if |ts| > 0 {
      NeverBothOpen(p, ts[0]);
      NeverBothOpenAfterClicks(Click(p, ts[0]), ts[1..]);
    }
  }

  // ------------------------------------------------------------------- view

  datatype NavState = NavState(doc: Value, panels: Panels, query: string)

  const Initial := NavState(Null, Panels(false, false, false), "")

  datatype Header = Header(
    logos: seq<LogoEntry>,
    links: seq<Value>,
    searchBox: Option<string>,
    mobileMenu: Option<seq<Value>>,
    countries: seq<string>)

  /** Nothing renders until the document is loaded; then the bar with whichever panels are open. */
  function View(s: NavState): (h: Option<Header>)
    ensures h.None? <==> !Truthy(s.doc)
    ensures h.Some? ==> (h.value.searchBox.Some? <==> s.panels.search)
    ensures h.Some? && h.value.searchBox.Some? ==> h.value.searchBox.value == s.query
    ensures h.Some? ==> (h.value.mobileMenu.Some? <==> s.panels.menu)
    ensures h.Some? && h.value.mobileMenu.Some? ==> h.value.mobileMenu.value == h.value.links
    ensures h.Some? ==> (h.value.countries != [] <==> s.panels.country)
    ensures h.Some? ==> h.value.links == NavLinks(s.doc)
    ensures h.Some? ==> |h.value.logos| == |ToArray(Get(s.doc, "logo"))|
    ensures h.Some? ==> forall i :: 0 <= i < |h.value.logos| ==>
      h.value.logos[i] == LogoFor(ToArray(Get(s.doc, "logo"))[i])
  {
    if !Truthy(s.doc) then None
    else
      var logoItems := ToArray(Get(s.doc, "logo"));
      var links := NavLinks(s.doc);
      Some(Header(
        seq(|logoItems|, i requires 0 <= i < |logoItems| => LogoFor(logoItems[i])),
        links,
        if s.panels.search then Some(s.query) else None,
        if s.panels.menu then Some(links) else None,
        if s.panels.country then ["US", "CA", "UK"] else []))
  }

  /** A failed load renders nothing, whatever the panels. */
  lemma FailedLoadRendersNothing(s: NavState)
    ensures View(s.(doc := LoadedDocument(Failed))).None?
  {
  }
}

=== FILE: navigation_menu.dfy ===
/**
 The navigation menu: menu items taken from `primary.menu_links` or the
 slice's repeatable items, each resolved to a content link, a plain href or
 nothing, and drawn as a link, an anchor or a disabled label accordingly.
 */
module NavigationMenu {
  import opened JsValue

  /** `Array.isArray(primary?.menu_links) ? … : Array.isArray(items) ? items : []`. */
  function MenuLinks(primary: Value, items: Value): (links: seq<Value>)
    ensures Get(primary, "menu_links").Arr? ==> links == Get(primary, "menu_links").elems
    ensures !Get(primary, "menu_links").Arr? && items.Arr? ==> links == items.elems
    ensures !Get(primary, "menu_links").Arr? && !items.Arr? ==> links == []
  {
    var field := Get(primary, "menu_links");
    if field.Arr? then field.elems else if items.Arr? then items.elems else []
  }

  /** What `resolveMenuItemLink` finds: a link field, an href, or nothing. */
  datatype Resolved = FieldLink(field: Value) | HrefLink(href: string) | NoLink

  /**
   `resolveMenuItemLink`: the item's `link`, then its `menu_link`, then the
   item itself when it looks like a link (an object with a `link_type` or a
   `url`), then a non-empty string as an href. A string item never gets that
   far: its `link` is the inherited `String.prototype.link` method, so it
   resolves to that function as its field.
   */
  function ResolveLink(item: Value): (r: Resolved)
    ensures r.FieldLink? ==> Truthy(r.field)
    ensures Truthy(item) && Truthy(Get(item, "link")) ==> r == FieldLink(Get(item, "link"))
    ensures item.Str? && item.s != "" ==> r == FieldLink(Method("link"))
    ensures r.FieldLink? && r.field != Get(item, "link") && r.field != Get(item, "menu_link") ==> r.field == item && item.Obj?
    ensures Truthy(item) && !Truthy(Get(item, "link")) && Truthy(Get(item, "menu_link")) ==>
      r == FieldLink(Get(item, "menu_link"))
    ensures Truthy(item) && !Truthy(Get(item, "link")) && !Truthy(Get(item, "menu_link")) ==>
      r == if IsObjectType(item) && (Truthy(Get(item, "link_type")) || Truthy(Get(item, "url"))) then FieldLink(item) else NoLink
    ensures !Truthy(item) ==> r == NoLink
  {
    if !Truthy(item) then NoLink
    else if Truthy(Get(item, "link")) then FieldLink(Get(item, "link"))
    else if Truthy(Get(item, "menu_link")) then FieldLink(Get(item, "menu_link"))
    else if IsObjectType(item) && (Truthy(Get(item, "link_type")) || Truthy(Get(item, "url"))) then FieldLink(item)
    else
      match item
      case Str(text) => if |text| > 0 then HrefLink(text) else NoLink
      case _ => NoLink
  }

  /** The href branch is dead: no item resolves to a plain href. */
  lemma NoItemResolvesToHref(item: Value)
    ensures !ResolveLink(item).HrefLink?
  {
    if item.Str? && item.s != "" {
      assert Get(item, "link") == Method("link");
    }
  }

  /**
   `resolveMenuItemLabel`: "" for an empty item; otherwise the first set of
   `label`, `text`, `menu_label`, `title` and the link's own label or title,
   else "Menu Item".
   */
  function ResolveLabel(item: Value): (caption: Value)
    ensures !Truthy(item) ==> caption == Str("")
    ensures Truthy(item) ==> Truthy(caption)
    ensures Truthy(item) ==> caption == FirstTruthy(
      [Get(item, "label"), Get(item, "text"), Get(item, "menu_label"), Get(item, "title"), LinkCaption(item)],
      Str("Menu Item"))
  {
    if !Truthy(item) then Str("")
    else
      FirstTruthy([Get(item, "label"), Get(item, "text"), Get(item, "menu_label"), Get(item, "title"), LinkCaption(item)], Str("Menu Item"))
  }

  /** `item.link && (item.link.label || item.link.title)`. */
  function LinkCaption(item: Value): (v: Value)
    ensures !Truthy(Get(item, "link")) ==> v == Get(item, "link")
    ensures Truthy(Get(item, "link")) ==> v == Or(Get(Get(item, "link"), "label"), Get(Get(item, "link"), "title"))
  {
    var link := Get(item, "link");
    if Truthy(link) then Or(Get(link, "label"), Get(link, "title")) else link
  }

  /** The item's own label keys, in the order they are tried. */
  const LabelKeys: seq<string> := ["label", "text", "menu_label", "title"]

  /** The first of the item's own label keys that is set gives the label, whatever the later keys and the link hold. */
  lemma LabelPriority(item: Value, k: nat)
    requires Truthy(item) && k < |LabelKeys| && Truthy(Get(item, LabelKeys[k]))
    requires forall j :: 0 <= j < k ==> !Truthy(Get(item, LabelKeys[j]))
    ensures ResolveLabel(item) == Get(item, LabelKeys[k])
  {
    var parts := [Get(item, "label"), Get(item, "text"), Get(item, "menu_label"), Get(item, "title"), LinkCaption(item)];
    assert forall j :: 0 <= j < |LabelKeys| ==> parts[j] == Get(item, LabelKeys[j]);
    FirstTruthyIsFirst(parts, Str("Menu Item"), k);
  }

  /** The item's own keys come before its link's: the link's label is read only when none of them is set. */
  lemma LinkLabelIsLastResort(item: Value)
    requires item.Obj? && Truthy(Get(item, "link")) && Truthy(Get(Get(item, "link"), "label"))
    requires !Truthy(Get(item, "label")) && !Truthy(Get(item, "text"))
    requires !Truthy(Get(item, "menu_label")) && !Truthy(Get(item, "title"))
    ensures ResolveLabel(item) == Get(Get(item, "link"), "label")
  {
    FirstTruthyIsFirst([Get(item, "label"), Get(item, "text"), Get(item, "menu_label"), Get(item, "title"), LinkCaption(item)], Str("Menu Item"), 4);
  }

  /** How one item renders: a content link, a plain anchor, or a disabled label. */
  datatype Entry = ContentLink(field: Value, caption: Value) | Anchor(href: string, caption: Value) | Disabled(caption: Value)

  function EntryFor(item: Value): (e: Entry)
    ensures e.caption == ResolveLabel(item)
    ensures e.ContentLink? <==> ResolveLink(item).FieldLink? && IsObjectType(ResolveLink(item).field)
    ensures e.Anchor? <==> ResolveLink(item).HrefLink?
    ensures e.ContentLink? ==> e.field == ResolveLink(item).field
    ensures !e.Anchor?
  {
    var caption := ResolveLabel(item);
    match ResolveLink(item)
    case FieldLink(field) => if IsObjectType(field) then ContentLink(field, caption) else Disabled(caption)
    case HrefLink(href) => Anchor(href, caption)
    case NoLink => Disabled(caption)
  }

  /**
   A plain string item renders as a disabled "Menu Item": its field is the
   inherited `link` method, which is not an object.
   */
  lemma StringItemIsDisabled(s: string)
    requires s != ""
    ensures EntryFor(Str(s)) == Disabled(Str("Menu Item"))
  {
    var item := Str(s);
    var link := Get(item, "link");
    assert link == Method("link");
    assert ResolveLink(item) == FieldLink(link);
    var parts := [Get(item, "label"), Get(item, "text"), Get(item, "menu_label"), Get(item, "title"), LinkCaption(item)];
    assert forall i :: 0 <= i < |parts| ==> parts[i] == Undefined;
    assert ResolveLabel(item) == FirstTruthy(parts, Str("Menu Item"));
  }

  /** An item whose `link` is set but is not an object (a bare string, say) renders disabled. */
  lemma NonObjectLinkIsDisabled(item: Value)
    requires Truthy(Get(item, "link")) && !IsObjectType(Get(item, "link"))
    ensures EntryFor(item).Disabled?
  {
  }

  datatype Menu = Entries(entries: seq<Entry>) | NoLinksMessage

  /** One entry per menu item, or "No menu links found" when there are none. */
  function View(primary: Value, items: Value): (m: Menu)
    ensures m.NoLinksMessage? <==> |MenuLinks(primary, items)| == 0
    ensures m.Entries? ==> |m.entries| == |MenuLinks(primary, items)|
    ensures m.Entries? ==> forall i :: 0 <= i < |m.entries| ==> m.entries[i] == EntryFor(MenuLinks(primary, items)[i])
  {
    var links := MenuLinks(primary, items);
    if |links| == 0 then NoLinksMessage
    else Entries(seq(|links|, i requires 0 <= i < |links| => EntryFor(links[i])))
  }
}

=== FILE: payment_method_form.dfy ===
/**
 The payment-method block: a single radio option that, once chosen, reveals a
 card form whose placeholders come from fields given as plain text, rich text
 or objects with a `text` property; a row of payment icons; and a
 "use the shipping address for billing" checkbox, checked at first.
 */
module PaymentMethodForm {
  import opened Wrappers
  import opened Seqs
  import opened JsValue

  /** The text of every block of a rich-text list, in order. */
  function BlockTexts(blocks: seq<Value>): (texts: seq<string>)
    ensures |texts| == |blocks|
    ensures forall i :: 0 <= i < |blocks| ==> texts[i] == JoinPart(Get(blocks[i], "text"))
  {
    seq(|blocks|, i requires 0 <= i < |blocks| => JoinPart(Get(blocks[i], "text")))
  }

  /** A list whose first element has a truthy `type`: what the content service sends for rich text. */
  predicate IsRichText(field: Value) {
    field.Arr? && |field.elems| > 0 && Truthy(Get(field.elems[0], "type"))
  }

  /**
   `getText`: "" for a falsy field, a string as is, the block texts of rich
   text joined by spaces, the `text` property of any other object holding
   one, and "" for everything else.
   */
  function GetText(field: Value): (t: Value)
    ensures !Truthy(field) ==> t == Str("")
    ensures field.Str? ==> t == field
    ensures IsRichText(field) ==> t == Str(Join(BlockTexts(field.elems), " "))
    ensures field.Obj? && Truthy(field) && "text" in field.props ==> t == field.props["text"]
    ensures (field.Num? || field.Bool? || (field.Arr? && !IsRichText(field))) ==> t == Str("")
  {
    if !Truthy(field) then Str("")
    else if field.Str? then field
    else if IsRichText(field) then Str(Join(BlockTexts(field.elems), " "))
    else if field.Obj? && "text" in field.props then field.props["text"]
    else Str("")
  }

  /**
   Rich text with string texts reads as those texts joined by single spaces:
   the result is as long as the texts together plus one space between each
   neighbouring pair.
   */
  lemma RichTextLength(field: Value)
    requires IsRichText(field)
    ensures GetText(field).Str?
    ensures |GetText(field).s| == SumLengths(BlockTexts(field.elems)) + |field.elems| - 1
  {
    JoinLength(BlockTexts(field.elems), " ");
  }

  /** A single rich-text block reads as its own text. */
  lemma SingleBlockText(block: Value, text: string)
    requires Truthy(Get(block, "type")) && Get(block, "text") == Str(text)
    ensures GetText(Arr([block])) == Str(text)
  {
  }

  /** `getText(field) || fallback`: the placeholder of one card input. */
  function Placeholder(field: Value, fallback: string): (p: Value)
    requires fallback != ""
    ensures Truthy(p)
    ensures Truthy(GetText(field)) ==> p == GetText(field)
    ensures !Truthy(GetText(field)) ==> p == Str(fallback)
  {
    Or(GetText(field), Str(fallback))
  }

  /** The four card inputs' placeholders. */
  datatype CardForm = CardForm(number: Value, expiration: Value, securityCode: Value, nameOnCard: Value)

  function CardFormOf(primary: Value): (c: CardForm)
    ensures Truthy(c.number) && Truthy(c.expiration) && Truthy(c.securityCode) && Truthy(c.nameOnCard)
    ensures var t := GetText(Get(primary, "card_number_placeholder"));
      c.number == if Truthy(t) then t else Str("Card number")
    ensures var t := GetText(Get(primary, "expiration_placeholder"));
      c.expiration == if Truthy(t) then t else Str("Expiration date (MM/YY)")
    ensures var t := GetText(Get(primary, "security_code_placeholder"));
      c.securityCode == if Truthy(t) then t else Str("Security code")
    ensures var t := GetText(Get(primary, "name_on_card_placeholder"));
      c.nameOnCard == if Truthy(t) then t else Str("Name on card")
  {
    CardForm(
      Placeholder(Get(primary, "card_number_placeholder"), "Card number"),
      Placeholder(Get(primary, "expiration_placeholder"), "Expiration date (MM/YY)"),
      Placeholder(Get(primary, "security_code_placeholder"), "Security code"),
      Placeholder(Get(primary, "name_on_card_placeholder"), "Name on card"))
  }

  /** Placeholders whose fields read as no text show their defaults: missing keys, empty strings, empty rich text. */
  lemma UnsetPlaceholdersDefault(primary: Value)
    requires !Truthy(GetText(Get(primary, "card_number_placeholder")))
    requires !Truthy(GetText(Get(primary, "expiration_placeholder")))
    requires !Truthy(GetText(Get(primary, "security_code_placeholder")))
    requires !Truthy(GetText(Get(primary, "name_on_card_placeholder")))
    ensures CardFormOf(primary) == CardForm(Str("Card number"), Str("Expiration date (MM/YY)"), Str("Security code"), Str("Name on card"))
  {
  }

  /** An item draws an icon when `item.icon?.url` is truthy. */
  predicate HasIconUrl(item: Value) {
    Truthy(Get(Get(item, "icon"), "url"))
  }

  /** `payment_methods?.map(item => item.icon?.url && <image/>)`: the items that draw an icon, in order. */
  function Icons(methods: Value): (icons: seq<Value>)
    ensures |icons| <= (if methods.Arr? then |methods.elems| else 0)
    ensures forall i :: 0 <= i < |icons| ==> HasIconUrl(icons[i])
    ensures methods.Arr? ==> IsSubsequence(icons, methods.elems)
  {
    if methods.Arr? then
      FilterIsSubsequence(methods.elems, HasIconUrl);
      Filter(methods.elems, HasIconUrl)
    else []
  }

  /** Every item with an icon url, and no other item, draws an icon. */
  lemma IconsKeepEveryItemWithUrl(methods: Value, item: Value)
    requires methods.Arr?
    ensures item in Icons(methods) <==> item in methods.elems && HasIconUrl(item)
  {
    FilterMembership(methods.elems, HasIconUrl, item);
  }

  // ----------------------------------------------------------------- state

  /** The only option of the radio group. */
  const PaymentOption := "paymentOption"

  datatype PaymentState = PaymentState(selected: string, useShipping: bool)

  const Initial := PaymentState("", true)

  datatype PaymentEvent = ChooseCard | ToggleUseShipping

  function Apply(s: PaymentState, e: PaymentEvent): (r: PaymentState)
    ensures e == ChooseCard ==> r.selected == PaymentOption && r.useShipping == s.useShipping
    ensures e == ToggleUseShipping ==> r.useShipping == !s.useShipping && r.selected == s.selected
  {
    match e
    case ChooseCard => s.(selected := PaymentOption)
    case ToggleUseShipping => s.(useShipping := !s.useShipping)
  }

  function ApplyAll(s: PaymentState, es: seq<PaymentEvent>): PaymentState
    decreases |es|
  {
    if |es| == 0 then s else ApplyAll(Apply(s, es[0]), es[1..])
  }

  /** The number of checkbox clicks among the events. */
  function Toggles(es: seq<PaymentEvent>): nat {
    if |es| == 0 then 0 else (if es[0] == ToggleUseShipping then 1 else 0) + Toggles(es[1..])
  }

  /**
   After any events, the card form shows exactly when the card option was
   chosen at some point (nothing unchooses it), and the checkbox is checked
   exactly when it was clicked an even number of times.
   */
  lemma {:induction false} EventsDetermineState(es: seq<PaymentEvent>)
    ensures ApplyAll(Initial, es).selected == PaymentOption <==> ChooseCard in es
    ensures ApplyAll(Initial, es).useShipping <==> Toggles(es) % 2 == 0
  {
    EventsFrom(Initial, es);
  }

  lemma {:induction false} EventsFrom(s: PaymentState, es: seq<PaymentEvent>)
    requires s.selected == "" || s.selected == PaymentOption
    ensures ApplyAll(s, es).selected == PaymentOption <==> s.selected == PaymentOption || ChooseCard in es
    ensures ApplyAll(s, es).useShipping <==> (s.useShipping <==> Toggles(es) % 2 == 0)
    decreases |es|
  {
    if |es| > 0 {
      EventsFrom(Apply(s, es[0]), es[1..]);
      assert es == [es[0]] + es[1..];
    }
  }

  /** What renders: the card form once chosen, and the checkbox when both its fields are set. */
  datatype PaymentView = PaymentView(radioChecked: bool, card: Option<CardForm>, checkbox: Option<bool>, icons: seq<Value>)

  function View(s: PaymentState, primary: Value): (v: PaymentView)
    ensures v.card.Some? <==> s.selected == PaymentOption
    ensures v.radioChecked <==> v.card.Some?
    ensures v.checkbox.Some? <==> Truthy(Get(primary, "use_shipping_address_as_billing")) && Truthy(Get(primary, "shipping_text"))
    ensures v.checkbox.Some? ==> v.checkbox.value == s.useShipping
    ensures v.card.Some? ==> v.card.value == CardFormOf(primary)
    ensures v.icons == Icons(Get(primary, "payment_methods"))
  {
    PaymentView(
      s.selected == PaymentOption,
      if s.selected == PaymentOption then Some(CardFormOf(primary)) else None,
      if Truthy(Get(primary, "use_shipping_address_as_billing")) && Truthy(Get(primary, "shipping_text")) then Some(s.useShipping) else None,
      Icons(Get(primary, "payment_methods")))
  }
}

=== FILE: product_detail.dfy ===
/**
 The product detail page: the `id` search parameter chooses the product to
 fetch (product 1 when the parameter is missing, blank, not a number or below
 one), the id decides the sold-out flag, and the add-to-cart button does
 nothing for a sold-out or missing product.

 JavaScript's `Number(text)` is a parameter, `toNumber`: `None` stands for NaN.
 */
module ProductDetail {
  import opened Wrappers
  import opened Seqs
  import opened JsValue
  import opened Catalog
  import ProductGrid

  /** Whether the parameter is rejected and product 1 is fetched instead. */
  predicate FallsBack(productId: Option<string>, toNumber: string -> Option<real>) {
    productId.None? || productId.value == "" || IsBlank(productId.value)
    || toNumber(productId.value).None? || toNumber(productId.value).value < 1.0
  }

  /** The id the page fetches. */
  function IdToFetch(productId: Option<string>, toNumber: string -> Option<real>): (id: real)
    ensures id >= 1.0
    ensures FallsBack(productId, toNumber) ==> id == 1.0
    ensures !FallsBack(productId, toNumber) ==> Some(id) == toNumber(productId.value)
  {
    if FallsBack(productId, toNumber) then 1.0 else toNumber(productId.value).value
  }

  /** A missing, empty or whitespace-only parameter fetches product 1, whatever `Number` would say. */
  lemma BlankIdFetchesFirst(productId: Option<string>, toNumber: string -> Option<real>)
    requires productId.None? || AllWhitespace(productId.value)
    ensures IdToFetch(productId, toNumber) == 1.0
  {
    if productId.Some? {
      BlankIffAllWhitespace(productId.value);
    }
  }

  /**
   A link `/productdetail?id=<n>` built from a product id `n >= 1` (as the grid
   and the recommendations build it) fetches product `n`, given that `Number`
   reads a digit string as its decimal value.
   */
  lemma LinkedIdIsFetched(n: nat, toNumber: string -> Option<real>)
    requires n >= 1
    requires toNumber(NatToString(n)) == Some(n as real)
    ensures IdToFetch(Some(NatToString(n)), toNumber) == n as real
  {
    var s := NatToString(n);
    BlankIffAllWhitespace(s);
    assert !IsJsWhitespace(s[0]);
  }

  /** `[2, 5, 7, 14, 17].includes(idToFetch - 1)`. */
  predicate SoldOutId(id: real) {
    id - 1.0 in [2.0, 5.0, 7.0, 14.0, 17.0]
  }

  /**
   The detail page and the grid flag the same products when the catalogue
   lists product `i + 1` at position `i`.
   */
  lemma DetailAgreesWithGrid(data: seq<Product>, i: nat)
    requires i < |data|
    ensures ProductGrid.MarkSoldOut(data)[i].soldOut <==> SoldOutId((i + 1) as real)
  {
  }

  datatype DetailState = DetailState(product: Option<Listed>, loading: bool)

  const Initial := DetailState(None, true)

  /**
   The fetch outcome. A response that is not OK throws inside the chain and
   ends in the catch handler, so it is a `Failed` outcome too.
   */
  function OnFetch(id: real, outcome: Fetched<Product>): (s: DetailState)
    ensures !s.loading
    ensures s.product.Some? <==> outcome.Received?
    ensures s.product.Some? ==> s.product.value.product == outcome.body
    ensures s.product.Some? ==> (s.product.value.soldOut <==> SoldOutId(id))
  {
    match outcome
    case Received(data) => DetailState(Some(Listed(data, SoldOutId(id))), false)
    case Failed => DetailState(None, false)
  }

  /** `handleAddToCart`: nothing without a product or for a sold-out one. */
  function HandleAdd(product: Option<Listed>): (calls: seq<CartCall>)
    ensures calls == [] <==> product.None? || product.value.soldOut
    ensures product.Some? ==> calls == AddOne(product.value)
  {
    match product
    case None => []
    case Some(l) => AddOne(l)
  }

  datatype Screen =
    | LoadingScreen
    | NotFound
    | Details(product: Listed, buttonDisabled: bool, soldOutBadge: bool)

  function View(s: DetailState): (v: Screen)
    ensures s.loading <==> v.LoadingScreen?
    ensures v.NotFound? <==> !s.loading && s.product.None?
    ensures v.Details? ==> s.product == Some(v.product)
    ensures v.Details? ==> (v.buttonDisabled <==> v.product.soldOut) && (v.soldOutBadge <==> v.product.soldOut)
  {
    if s.loading then LoadingScreen
    else match s.product
      case None => NotFound
      case Some(l) => Details(l, l.soldOut, l.soldOut)
  }

  /** The button the page shows is enabled exactly when clicking it adds the product. */
  lemma ButtonMatchesHandler(s: DetailState)
    requires View(s).Details?
    ensures !View(s).buttonDisabled <==> HandleAdd(s.product) != []
  {
  }

  /** From the first render: whatever the parameter, the page ends on the product or on "not found". */
  lemma FetchSettles(productId: Option<string>, toNumber: string -> Option<real>, outcome: Fetched<Product>)
    ensures var id := IdToFetch(productId, toNumber);
      var v := View(OnFetch(id, outcome));
      (v.Details? <==> outcome.Received?) && (v.NotFound? <==> outcome.Failed?)
  {
  }
}

=== FILE: product_feature_grid.dfy ===
/**
 The "Featured Products" grid: the first four products of the electronics
 category, decorated by position (the second is sold out and priced "From",
 the fourth is new, the first and third can be engraved), with a shortened
 title, a price with two decimals and a row of colour swatches.
 */
module ProductFeatureGrid {
  import opened Wrappers
  import opened Seqs
  import opened JsValue
  import opened Catalog

  datatype Featured = Featured(
    product: Product,
    soldOut: bool,
    pricePrefix: string,
    newIn: bool,
    hasEngrave: bool)

  /** The flags the page gives the product at `index`. */
  function Decorate(p: Product, index: nat): (f: Featured)
    ensures f.product == p
    ensures f.soldOut <==> index == 1
    ensures f.pricePrefix == (if index == 1 then "From " else "")
    ensures f.newIn <==> index == 3
    ensures f.hasEngrave <==> index == 0 || index == 2
  {
    Featured(p, index == 1, if index == 1 then "From " else "", index == 3, index == 0 || index == 2)
  }

  /** `data.slice(0, 4).map(decorate)`. */
  function FeaturedProducts(data: seq<Product>): (r: seq<Featured>)
    ensures |r| == Min(4, |data|)
    ensures forall i :: 0 <= i < |r| ==> r[i] == Decorate(data[i], i)
  {
    var firstFour := JsSlice(data, 0, 4);
    seq(|firstFour|, i requires 0 <= i < |firstFour| => Decorate(firstFour[i], i))
  }

  /**
   The badges never collide: no product is both sold out and new, the "From "
   prefix goes with the sold-out one, and exactly one product of a full grid
   is sold out.
   */
  lemma BadgesAreExclusive(data: seq<Product>, i: nat)
    requires i < |FeaturedProducts(data)|
    ensures var f := FeaturedProducts(data)[i];
      !(f.soldOut && f.newIn) && (f.pricePrefix == "From " <==> f.soldOut) && (f.hasEngrave ==> !f.soldOut && !f.newIn)
  {
  }

  lemma OneSoldOut(data: seq<Product>)
    requires |data| >= 4
    ensures var r := FeaturedProducts(data);
      r[1].soldOut && forall i :: 0 <= i < |r| && i != 1 ==> !r[i].soldOut
  {
  }

  /** `title.split(' ').slice(0, 1).join(' ')`: the text before the first space. */
  function FirstWord(title: string): (w: string)
    ensures ' ' !in w
    ensures |w| <= |title| && w == title[..|w|]
    ensures |w| < |title| ==> title[|w|] == ' '
  {
    if |title| == 0 || title[0] == ' ' then "" else [title[0]] + FirstWord(title[1..])
  }

  /** The first word of `a + " " + b` is `a` when `a` holds no space. */
  lemma {:induction false} FirstWordOfPhrase(a: string, b: string)
    requires ' ' !in a
    ensures FirstWord(a + " " + b) == a
  {
    if |a| > 0 {
      assert (a + " " + b)[1..] == a[1..] + " " + b;
      FirstWordOfPhrase(a[1..], b);
    } else {
      assert (a + " " + b)[0] == ' ';
    }
  }

  /** The heading: the first word, a space, and "Wireless" for the third product. */
  function Heading(title: string, index: nat): (h: string)
    ensures |h| > |FirstWord(title)| && h[|FirstWord(title)|] == ' '
    ensures h[..|FirstWord(title)|] == FirstWord(title)
    ensures h[|FirstWord(title)| + 1..] == (if index == 2 then "Wireless" else "")
  {
    FirstWord(title) + " " + (if index == 2 then "Wireless" else "")
  }

  /** The price line: the prefix, a dollar sign and `price.toFixed(2)`. */
  function PriceLine(f: Featured): (line: string)
    ensures |line| >= |f.pricePrefix| + 5
    ensures line[..|f.pricePrefix|] == f.pricePrefix && line[|f.pricePrefix|] == '$'
    ensures line[|f.pricePrefix| + 1..] == CentsToFixed(f.product.price)
  {
    f.pricePrefix + "$" + CentsToFixed(f.product.price)
  }

  /** The two description lines. */
  function Description(category: string, index: nat): (lines: (string, string))
    ensures category != "electronics" ==> lines.0 == category
    ensures category == "electronics" ==> lines.0 in {"Active Noise-Cancelling True", "Wired Earphones", "Active Noise-Cancelling Wireless"}
    ensures lines.1 != "" <==> index <= 1
  {
    var first :=
      if category == "electronics" then
        if index == 1 then "Active Noise-Cancelling True"
        else if index == 3 then "Wired Earphones"
        else "Active Noise-Cancelling Wireless"
      else category;
    var second := if index == 1 then "Wireless Earphones" else if index == 0 then "Headphones" else "";
    (first, second)
  }

  /** Outside the electronics category the first line is the category itself. */
  lemma DescriptionShowsCategory(category: string, index: nat)
    ensures category != "electronics" ==> Description(category, index).0 == category
    ensures category == "electronics" ==> Description(category, index).0 != category
  {
  }

  // ---------------------------------------------------------------- swatches

  /** The fourth product shows four swatches, the others six. */
  function SwatchCount(index: nat): (n: nat)
    ensures n == 4 || n == 6
    ensures n == 4 <==> index == 3
  {
    if index == 3 then 4 else 6
  }

  /** `table[i] || fallback`: a missing or empty entry gives the fallback. */
  function EntryOr(table: seq<string>, i: nat, fallback: string): (r: string)
    ensures i < |table| && table[i] != "" ==> r == table[i]
    ensures i >= |table| || table[i] == "" ==> r == fallback
  {
    if i < |table| && table[i] != "" then table[i] else fallback
  }

  const Table0: seq<string> := ["bg-[#222]", "bg-[#8B5E3C]", "bg-gray-400", "bg-blue-900", "bg-black", "bg-gray-600"]
  const Table1: seq<string> := ["", "bg-gray-800", "bg-green-900", "bg-blue-300", "bg-black", "bg-gray-400"]
  const Table2: seq<string> := ["", "bg-black", "bg-[#333]", "bg-gray-300", "bg-blue-800", "bg-blue-600", "bg-gray-700"]
  const Table3: seq<string> := ["", "bg-white border-gray-300", "bg-[#CD7F32]", "bg-black"]

  /** `getSwatchStyle(productIndex, swatchIndex)`. */
  function SwatchStyle(productIndex: nat, swatchIndex: nat): (style: string)
    ensures style != ""
  {
    if productIndex == 0 then EntryOr(Table0, swatchIndex, "bg-gray-300")
    else if productIndex == 1 then
      if swatchIndex == 0 then "bg-gradient-to-br from-blue-900 to-black"
      else EntryOr(Table1, swatchIndex, "bg-gray-300")
    else if productIndex == 2 then
      if swatchIndex == 0 then "bg-[#D2B48C]"
      else EntryOr(Table2, swatchIndex, "bg-gray-300")
    else
      if swatchIndex == 0 then "bg-gradient-to-r from-black via-gray-400 to-black"
      else EntryOr(Table3, swatchIndex, "bg-black")
  }

  /**
   Every swatch the grid draws takes its colour from the product's own table
   (or its special first swatch); no drawn swatch falls back to the default.
   */
  lemma DrawnSwatchesUseTables(productIndex: nat, swatchIndex: nat)
    requires productIndex < 4 && swatchIndex < SwatchCount(productIndex)
    ensures productIndex == 0 ==> SwatchStyle(productIndex, swatchIndex) == Table0[swatchIndex]
    ensures productIndex == 1 && swatchIndex > 0 ==> SwatchStyle(productIndex, swatchIndex) == Table1[swatchIndex]
    ensures productIndex == 2 && swatchIndex > 0 ==> SwatchStyle(productIndex, swatchIndex) == Table2[swatchIndex]
    ensures productIndex == 3 && swatchIndex > 0 ==> SwatchStyle(productIndex, swatchIndex) == Table3[swatchIndex]
  {
  }

  // ------------------------------------------------------------------ state

  datatype GridState = GridState(products: seq<Featured>, loading: bool)

  const Initial := GridState([], true)

  function OnFetch(s: GridState, outcome: Fetched<seq<Product>>): (r: GridState)
    ensures !r.loading
    ensures outcome.Received? ==> |r.products| == Min(4, |outcome.body|)
    ensures outcome.Received? ==> r.products == FeaturedProducts(outcome.body)
    ensures outcome.Failed? ==> r.products == s.products
  {
    match outcome
    case Received(data) => GridState(FeaturedProducts(data), false)
    case Failed => s.(loading := false)
  }
}

=== FILE: product_gallery_grid.dfy ===
/**
 The product gallery: with five or more items, the first five laid out in two
 columns (items 1 and 3 on the left, 2, 4 and 5 on the right); with fewer, a
 flat grid of all of them, or a message when there are none. An item without
 an image url draws nothing.
 */
module ProductGalleryGrid {
  import opened Wrappers
  import opened Seqs
  import opened JsValue

  /** `GalleryImage` draws only an item whose image has a url. */
  predicate HasImage(item: Value) {
    Truthy(Get(Get(item, "image"), "url"))
  }

  datatype Gallery =
    | Columns(left: seq<Value>, right: seq<Value>)
    | Flat(items: seq<Value>, emptyMessage: bool)

  /** The layout of `primary.gallery_items || []`, before items without an image drop out. */
  function Layout(galleryItems: Option<seq<Value>>): (g: Gallery)
    ensures g.Columns? <==> |galleryItems.GetOr([])| >= 5
    ensures g.Columns? ==> var items := galleryItems.value;
      g.left == [items[0], items[2]] && g.right == [items[1], items[3], items[4]]
    ensures g.Flat? ==> g.items == galleryItems.GetOr([]) && (g.emptyMessage <==> |g.items| == 0)
  {
    var items := galleryItems.GetOr([]);
    if |items| >= 5 then Columns([items[0], items[2]], [items[1], items[3], items[4]])
    else Flat(items, |items| == 0)
  }

  /** Every laid-out item, left column first. */
  function Placed(g: Gallery): seq<Value> {
    match g
    case Columns(left, right) => left + right
    case Flat(items, _) => items
  }

  /**
   The two-column layout places exactly the first five items, each once; any
   item after the fifth is never drawn. With fewer, every item is placed in
   order.
   */
  lemma PlacesFirstFive(items: seq<Value>)
    ensures |items| >= 5 ==> multiset(Placed(Layout(Some(items)))) == multiset(items[..5])
    ensures |items| < 5 ==> Placed(Layout(Some(items))) == items
  {
    if |items| >= 5 {
      var a, b, c, d, e := items[0], items[1], items[2], items[3], items[4];
      assert Placed(Layout(Some(items))) == [a, c] + [b, d, e];
      assert items[..5] == [a, b, c, d, e];
      SwapSecondAndThird(a, b, c, d, e);
    }
  }

  /** Exchanging the second and third of five items keeps the same items. */
  lemma SwapSecondAndThird<T>(a: T, b: T, c: T, d: T, e: T)
    ensures multiset([a, c] + [b, d, e]) == multiset([a, b, c, d, e])
  {
    assert [a, c] + [b, d, e] == [a] + [c, b] + [d, e];
    assert [a, b, c, d, e] == [a] + [b, c] + [d, e];
    assert multiset([c, b]) == multiset([b, c]);
  }

  /** The images actually drawn: the placed items that have an image url, in order. */
  function Drawn(g: Gallery): (drawn: seq<Value>)
    ensures |drawn| <= |Placed(g)|
    ensures forall i :: 0 <= i < |drawn| ==> HasImage(drawn[i])
    ensures IsSubsequence(drawn, Placed(g))
  {
    FilterIsSubsequence(Placed(g), HasImage);
    Filter(Placed(g), HasImage)
  }

  /** A placed item is drawn exactly when it has an image url. */
  lemma DrawnIffImage(g: Gallery, item: Value)
    ensures item in Drawn(g) <==> item in Placed(g) && HasImage(item)
  {
    FilterMembership(Placed(g), HasImage, item);
  }

  /** The empty message shows only for an empty gallery, never beside images. */
  lemma EmptyMessageOnlyWhenEmpty(galleryItems: Option<seq<Value>>)
    ensures Layout(galleryItems).Flat? && Layout(galleryItems).emptyMessage ==> Drawn(Layout(galleryItems)) == []
    ensures Layout(None) == Flat([], true)
  {
  }
}

=== FILE: product_grid.dfy ===
/**
 The product listing page: the fetched catalogue with five products flagged as
 sold out, a price sort chosen from a drop-down, nine products per page, a
 window of page numbers with ellipses, Prev/Next buttons, and an add-to-cart
 button that refuses sold-out products.
 */
module ProductGrid {
  import opened Wrappers
  import opened Seqs
  import opened Catalog
  import opened StableSort

  /** Positions in the fetched list that the page marks as sold out. */
  const SoldOutIndices: seq<int> := [2, 5, 7, 14, 17]

  function MarkSoldOut(data: seq<Product>): (r: seq<Listed>)
    ensures |r| == |data|
    ensures forall i :: 0 <= i < |r| ==> r[i].product == data[i]
    ensures forall i :: 0 <= i < |r| ==> (r[i].soldOut <==> i in SoldOutIndices)
  {
    seq(|data|, i requires 0 <= i < |data| => Listed(data[i], i in SoldOutIndices))
  }

  /** The positions of sold-out products in a listing. */
  function SoldOutPositions(r: seq<Listed>): set<int> {
    set i | 0 <= i < |r| && r[i].soldOut
  }

  /**
   At most five products are ever sold out, and a catalogue of more than
   seventeen products has exactly five.
   */
  lemma SoldOutCount(data: seq<Product>)
    ensures |SoldOutPositions(MarkSoldOut(data))| <= 5
    ensures |data| > 17 ==> |SoldOutPositions(MarkSoldOut(data))| == 5
  {
    var all: set<int> := {2, 5, 7, 14, 17};
    FiveIndices();
    SoldOutWithin(data);
    SubsetCardinality(SoldOutPositions(MarkSoldOut(data)), all);
    if |data| > 17 {
      SoldOutAllWhenLong(data);
    }
  }

  lemma FiveIndices()
    ensures |{2, 5, 7, 14, 17}| == 5
  {
  }

  lemma SoldOutWithin(data: seq<Product>)
    ensures SoldOutPositions(MarkSoldOut(data)) <= {2, 5, 7, 14, 17}
  {
  }

  lemma SoldOutAllWhenLong(data: seq<Product>)
    requires |data| > 17
    ensures SoldOutPositions(MarkSoldOut(data)) == {2, 5, 7, 14, 17}
  {
    var r := MarkSoldOut(data);
    assert r[2].soldOut && r[5].soldOut && r[7].soldOut && r[14].soldOut && r[17].soldOut;
  }

  lemma SubsetCardinality<T>(a: set<T>, b: set<T>)
    requires a <= b
    ensures |a| <= |b|
  {
    assert b == a + (b - a);
  }

  // ---------------------------------------------------------------- sorting

  datatype SortOption = Default | PriceAsc | PriceDesc

  /** The `<select>` value: the two price options by name, anything else the default order. */
  function ParseSort(value: string): (opt: SortOption)
    ensures opt == PriceAsc <==> value == "price-asc"
    ensures opt == PriceDesc <==> value == "price-desc"
  {
    if value == "price-asc" then PriceAsc
    else if value == "price-desc" then PriceDesc
    else Default
  }

  function PriceOf(l: Listed): int { l.product.price }
  function NegPriceOf(l: Listed): int { -l.product.price }
  function NoKey(l: Listed): int { 0 }

  /** The comparator handed to `Array.prototype.sort`. */
  function Compare(opt: SortOption, a: Listed, b: Listed): int {
    if opt == PriceAsc then a.product.price - b.product.price
    else if opt == PriceDesc then b.product.price - a.product.price
    else 0
  }

  /** The integer key whose difference is the comparator. */
  function SortKey(opt: SortOption): Listed -> int {
    match opt
    case PriceAsc => PriceOf
    case PriceDesc => NegPriceOf
    case Default => NoKey
  }

  lemma CompareIsKeyDifference(opt: SortOption, a: Listed, b: Listed)
    ensures Compare(opt, a, b) == SortKey(opt)(a) - SortKey(opt)(b)
  {
  }

  /** `[...products].sort(comparator)`, a stable sort. */
  function SortedProducts(products: seq<Listed>, opt: SortOption): (r: seq<Listed>)
    ensures |r| == |products|
    ensures multiset(r) == multiset(products)
  {
    SortPermutes(products, SortKey(opt));
    Sort(products, SortKey(opt))
  }

  /**
   What the sorted listing looks like: ascending or descending by price, the
   catalogue order untouched by the default option, and products of equal
   price kept in catalogue order under every option.
   */
  lemma SortedProductsOrder(products: seq<Listed>, opt: SortOption)
    ensures var r := SortedProducts(products, opt);
      && (opt == PriceAsc ==> forall i, j :: 0 <= i < j < |r| ==> r[i].product.price <= r[j].product.price)
      && (opt == PriceDesc ==> forall i, j :: 0 <= i < j < |r| ==> r[i].product.price >= r[j].product.price)
      && (opt == Default ==> r == products)
      && (forall c :: WithKey(r, PriceOf, c) == WithKey(products, PriceOf, c))
  {
    var r := SortedProducts(products, opt);
    SortIsStable(products, SortKey(opt));
    if opt == Default {
      SortConstantKey(products, NoKey, 0);
    } else if opt == PriceDesc {
      forall c ensures WithKey(r, PriceOf, c) == WithKey(products, PriceOf, c) {
        WithKeyNegated(r, PriceOf, NegPriceOf, c);
        WithKeyNegated(products, PriceOf, NegPriceOf, c);
      }
    }
  }

  /**
   The comparator fixes the result: any ordering that the comparator accepts
   and that keeps comparator-equal products in catalogue order is `SortedProducts`.
   */
  lemma AnyStableSortAgrees(r: seq<Listed>, products: seq<Listed>, opt: SortOption)
    requires forall i, j :: 0 <= i < j < |r| ==> Compare(opt, r[i], r[j]) <= 0
    requires forall k :: WithKey(r, SortKey(opt), k) == WithKey(products, SortKey(opt), k)
    ensures r == SortedProducts(products, opt)
  {
    var key := SortKey(opt);
    forall i, j | 0 <= i < j < |r| ensures key(r[i]) <= key(r[j]) {
      CompareIsKeyDifference(opt, r[i], r[j]);
    }
    SortIsStable(products, key);
    StableSortIsUnique(r, Sort(products, key), key);
  }

  // ------------------------------------------------------------- pagination

  const ItemsPerPage: nat := 9

  /** `Math.ceil(n / 9)`. */
  function TotalPages(n: nat): (t: nat)
    ensures n == 0 <==> t == 0
    ensures n > 0 ==> (t - 1) * ItemsPerPage < n <= t * ItemsPerPage
  {
    (n + ItemsPerPage - 1) / ItemsPerPage
  }

  /** The products shown on `page` (1-based). */
  function CurrentItems<T>(list: seq<T>, page: int): (r: seq<T>)
    ensures page >= 1 ==> |r| <= ItemsPerPage
    ensures page >= 1 ==> forall i :: 0 <= i < |r| ==>
      (page - 1) * ItemsPerPage + i < |list| && r[i] == list[(page - 1) * ItemsPerPage + i]
  {
    JsSlice(list, (page - 1) * ItemsPerPage, page * ItemsPerPage)
  }

  /** A page in `1..TotalPages` shows between one and nine products; past the end, none; page 0 none. */
  lemma PageSize<T>(list: seq<T>, page: int)
    ensures 1 <= page <= TotalPages(|list|) ==> 1 <= |CurrentItems(list, page)| <= ItemsPerPage
    ensures page > TotalPages(|list|) ==> CurrentItems(list, page) == []
    ensures page == 0 ==> CurrentItems(list, page) == []
  {
  }

  /** Pages `page`, `page + 1`, …, `total` laid end to end. */
  function PagesFrom<T>(list: seq<T>, page: nat, total: nat): seq<T>
    requires page >= 1
    decreases total + 1 - page
  {
    if page > total then [] else CurrentItems(list, page) + PagesFrom(list, page + 1, total)
  }

  /** The pages partition the listing: every product is on exactly one page, in order. */
  lemma PagesCoverListing<T>(list: seq<T>)
    ensures PagesFrom(list, 1, TotalPages(|list|)) == list
  {
    PagesFromSuffix(list, 1);
  }

  lemma {:induction false} PagesFromSuffix<T>(list: seq<T>, page: nat)
    requires 1 <= page
    ensures PagesFrom(list, page, TotalPages(|list|)) == list[Min((page - 1) * ItemsPerPage, |list|)..]
    decreases TotalPages(|list|) + 1 - page
  {
    var total := TotalPages(|list|);
    if page <= total {
      PagesFromSuffix(list, page + 1);
      var a, b := (page - 1) * ItemsPerPage, page * ItemsPerPage;
      assert CurrentItems(list, page) == list[a..Min(b, |list|)];
      assert list[a..] == list[a..Min(b, |list|)] + list[Min(b, |list|)..];
    }
  }

  // ----------------------------------------------------------- page window

  /** `Array.from({ length: total }, (_, i) => i + 1)`. */
  function PageNumbers(total: nat): (r: seq<int>)
    ensures |r| == total
    ensures forall i :: 0 <= i < total ==> r[i] == i + 1
  {
    seq(total, i => i + 1)
  }

  /** A page number button is shown for the first page, the last page and the neighbours of the current one. */
  predicate ShowsPage(page: int, current: int, total: int) {
    page == 1 || page == total || (current - 1 <= page <= current + 1)
  }

  function VisiblePages(total: nat, current: int): (r: seq<int>)
    ensures |r| <= total
    ensures forall i :: 0 <= i < |r| ==> ShowsPage(r[i], current, total)
  {
    Filter(PageNumbers(total), page => ShowsPage(page, current, total))
  }

  predicate StrictlyIncreasing(s: seq<int>) {
    forall i, j :: 0 <= i < j < |s| ==> s[i] < s[j]
  }

  lemma {:induction false} FilterKeepsIncreasing(s: seq<int>, p: int -> bool)
    requires StrictlyIncreasing(s)
    ensures StrictlyIncreasing(Filter(s, p))
    ensures forall i :: 0 <= i < |Filter(s, p)| ==> Filter(s, p)[i] in s
  {
    if |s| > 0 {
      FilterKeepsIncreasing(s[1..], p);
      var rest := Filter(s[1..], p);
      forall i | 0 <= i < |rest| ensures s[0] < rest[i] {
        var m :| 0 <= m < |s[1..]| && s[1..][m] == rest[i];
        assert s[1 + m] == rest[i];
      }
    }
  }

  /** The window: exactly the pages in `1..total` that `ShowsPage` selects, in increasing order. */
  lemma VisiblePagesSpec(total: nat, current: int, page: int)
    ensures page in VisiblePages(total, current) <==> 1 <= page <= total && ShowsPage(page, current, total)
    ensures StrictlyIncreasing(VisiblePages(total, current))
  {
    var all := PageNumbers(total);
    var p := (q: int) => ShowsPage(q, current, total);
    FilterMembership(all, p, page);
    if 1 <= page <= total {
      assert all[page - 1] == page;
    }
    FilterKeepsIncreasing(all, p);
  }

  lemma BetweenConsecutiveIsAbsent(arr: seq<int>, idx: nat, q: int)
    requires StrictlyIncreasing(arr) && 0 < idx < |arr| && arr[idx - 1] < q < arr[idx]
    ensures q !in arr
  {
    forall m | 0 <= m < |arr| ensures arr[m] != q {
      if m < idx - 1 {
        assert arr[m] < arr[idx - 1];
      } else if m > idx {
        assert arr[idx] < arr[m];
      }
    }
  }

  /** One page number button, with the "..." that may precede it. */
  datatype PageLink = PageLink(page: int, ellipsisBefore: bool, active: bool)

  function PageLinks(total: nat, current: int): (r: seq<PageLink>)
    ensures |r| == |VisiblePages(total, current)|
    ensures forall i :: 0 <= i < |r| ==> r[i].page == VisiblePages(total, current)[i]
    ensures forall i :: 0 <= i < |r| ==> (r[i].active <==> r[i].page == current)
    ensures |r| > 0 ==> !r[0].ellipsisBefore
  {
    var arr := VisiblePages(total, current);
    seq(|arr|, idx requires 0 <= idx < |arr| =>
      PageLink(arr[idx], idx > 0 && arr[idx] - arr[idx - 1] > 1, arr[idx] == current))
  }

  /**
   An ellipsis stands exactly where the window skips a page: before link `idx`
   there is "..." iff some page between it and the previous link is hidden.
   The current page's link is the only one highlighted.
   */
  lemma EllipsisMarksHiddenPages(total: nat, current: int, idx: nat)
    requires 0 < idx < |PageLinks(total, current)|
    ensures var links := PageLinks(total, current);
      links[idx].ellipsisBefore <==>
        exists q :: links[idx - 1].page < q < links[idx].page && !ShowsPage(q, current, total)
  {
    var arr := VisiblePages(total, current);
    var links := PageLinks(total, current);
    VisiblePagesSpec(total, current, arr[idx - 1]);
    VisiblePagesSpec(total, current, arr[idx]);
    if arr[idx] - arr[idx - 1] > 1 {
      var q := arr[idx - 1] + 1;
      VisiblePagesSpec(total, current, q);
      BetweenConsecutiveIsAbsent(arr, idx, q);
      assert links[idx - 1].page < q < links[idx].page && !ShowsPage(q, current, total);
    } else {
      assert links[idx].page - links[idx - 1].page <= 1;
    }
  }

  lemma ActiveLinkIsCurrent(total: nat, current: int, idx: nat)
    requires idx < |PageLinks(total, current)|
    ensures PageLinks(total, current)[idx].active <==> PageLinks(total, current)[idx].page == current
  {
  }

  // ------------------------------------------------------------ navigation

  datatype PageEvent = Prev | Next | Goto(page: int)

  /** `Math.max(p - 1, 1)`, `Math.min(p + 1, total)`, and a click on a page number. */
  function Navigate(current: int, total: nat, e: PageEvent): (r: int)
    ensures e.Prev? ==> r >= 1 && r >= current - 1
    ensures e.Next? ==> r <= total && r <= current + 1
    ensures e.Goto? ==> r == e.page
  {
    match e
    case Prev => Max(current - 1, 1)
    case Next => Min(current + 1, total)
    case Goto(page) => page
  }

  predicate PrevDisabled(current: int) { current == 1 }
  predicate NextDisabled(current: int, total: nat) { current == total }

  /** An event the page can raise: a page number click offers only the window's pages. */
  predicate Offered(current: int, total: nat, e: PageEvent) {
    e.Goto? ==> e.page in VisiblePages(total, current)
  }

  /**
   The pages the view can be on. With products, one of `1..total`; without,
   the initial page 1 or the 0 that Next produces from it (`Math.min(2, 0)`).
   */
  predicate PageInRange(current: int, total: nat) {
    if total == 0 then current == 0 || current == 1 else 1 <= current <= total
  }

  lemma NavigateStaysInRange(current: int, total: nat, e: PageEvent)
    requires PageInRange(current, total) && Offered(current, total, e)
    ensures PageInRange(Navigate(current, total, e), total)
  {
    if e.Goto? {
      VisiblePagesSpec(total, current, e.page);
    }
  }

  /** On a reachable page of a non-empty listing, Next and Prev move by one unless disabled. */
  lemma NavigateMovesByOne(current: int, total: nat)
    requires total > 0 && PageInRange(current, total)
    ensures !NextDisabled(current, total) ==> Navigate(current, total, Next) == current + 1
    ensures NextDisabled(current, total) ==> Navigate(current, total, Next) == current
    ensures !PrevDisabled(current) ==> Navigate(current, total, Prev) == current - 1
    ensures PrevDisabled(current) ==> Navigate(current, total, Prev) == current
  {
  }

  /** On a reachable page the grid is never empty when there are products. */
  lemma ReachablePageShowsProducts<T>(list: seq<T>, current: int)
    requires |list| > 0 && PageInRange(current, TotalPages(|list|))
    ensures 1 <= |CurrentItems(list, current)| <= ItemsPerPage
  {
    PageSize(list, current);
  }

  // ------------------------------------------------------------ add to cart

  /** Ids whose "Adding..." state is showing; the handler adds one, a timer removes it again. */
  function StartAdding(pending: seq<int>, l: Listed): (r: seq<int>)
    ensures l.soldOut ==> r == pending
    ensures !l.soldOut ==> l.product.id in r && |r| == |pending| + 1
  {
    if l.soldOut then pending else pending + [l.product.id]
  }

  function FinishAdding(pending: seq<int>, id: int): (r: seq<int>)
    ensures id !in r
    ensures forall x :: x in r <==> x in pending && x != id
    ensures IsSubsequence(r, pending)
  {
    var keep := x => x != id;
    FilterMembershipAll(pending, keep);
    FilterIsSubsequence(pending, keep);
    Filter(pending, keep)
  }

  /** The timer undoes the handler: no trace of the id is left, and other ids are untouched. */
  lemma FinishUndoesStart(pending: seq<int>, l: Listed)
    ensures FinishAdding(StartAdding(pending, l), l.product.id) == FinishAdding(pending, l.product.id)
  {
    var id := l.product.id;
    if !l.soldOut {
      FilterConcat(pending, [id], x => x != id);
    }
  }

  datatype ButtonLabel = SoldOutLabel | AddingLabel | AddLabel

  function Button(l: Listed, pending: seq<int>): (b: ButtonLabel)
    ensures b == SoldOutLabel <==> l.soldOut
    ensures b == AddingLabel <==> !l.soldOut && l.product.id in pending
  {
    if l.soldOut then SoldOutLabel
    else if l.product.id in pending then AddingLabel
    else AddLabel
  }

  predicate ButtonDisabled(l: Listed, pending: seq<int>) {
    l.soldOut || l.product.id in pending
  }

  /** The button is clickable exactly when it reads "Add to Cart". */
  lemma DisabledUnlessAddLabel(l: Listed, pending: seq<int>)
    ensures ButtonDisabled(l, pending) <==> Button(l, pending) != AddLabel
  {
  }

  /** After a successful click the button stays disabled until the timer fires. */
  lemma ClickDisablesButton(l: Listed, pending: seq<int>)
    requires !l.soldOut
    ensures ButtonDisabled(l, StartAdding(pending, l))
    ensures !ButtonDisabled(l, FinishAdding(StartAdding(pending, l), l.product.id))
  {
  }

  // ------------------------------------------------------------ page state

  datatype GridState = GridState(products: seq<Listed>, loading: bool, sort: SortOption, page: int)

  const Initial := GridState([], true, Default, 1)

  /** The fetch outcome: products flagged and loading over, or loading over with no products. */
  function OnFetch(s: GridState, outcome: Fetched<seq<Product>>): (r: GridState)
    ensures !r.loading && r.sort == s.sort && r.page == s.page
    ensures outcome.Failed? ==> r.products == s.products
    ensures outcome.Received? ==> |r.products| == |outcome.body|
    ensures outcome.Received? ==> r.products == MarkSoldOut(outcome.body)
  {
    match outcome
    case Received(data) => s.(products := MarkSoldOut(data), loading := false)
    case Failed => s.(loading := false)
  }

  datatype Screen = LoadingScreen | GridScreen(shown: nat, cards: seq<Listed>, links: seq<PageLink>)

  function View(s: GridState): (v: Screen)
    ensures s.loading <==> v == LoadingScreen
    ensures !s.loading ==> v.shown == |s.products|
    ensures !s.loading ==> v.cards == CurrentItems(SortedProducts(s.products, s.sort), s.page)
    ensures !s.loading ==> v.links == PageLinks(TotalPages(|s.products|), s.page)
  {
    if s.loading then LoadingScreen
    else
      var sorted := SortedProducts(s.products, s.sort);
      var total := TotalPages(|sorted|);
      GridScreen(|s.products|, CurrentItems(sorted, s.page), PageLinks(total, s.page))
  }

  /**
   Whatever the fetch returns, the page the view lands on is in range, and with
   a non-empty catalogue the first screen shows between one and nine cards.
   */
  lemma FirstScreen(outcome: Fetched<seq<Product>>)
    ensures var s := OnFetch(Initial, outcome);
      PageInRange(s.page, TotalPages(|s.products|))
    ensures outcome.Received? && |outcome.body| > 0 ==>
      var v := View(OnFetch(Initial, outcome));
      v.GridScreen? && 1 <= |v.cards| <= ItemsPerPage && v.shown == |outcome.body|
  {
    var s := OnFetch(Initial, outcome);
    PageSize(SortedProducts(s.products, s.sort), 1);
  }
}

=== FILE: product_recommendations.dfy ===
/**
 The "Recommended Products" strip: the first four products of the catalogue,
 each flagged sold out when it costs less than twenty dollars, with an
 add-to-cart button that is disabled, and ignored, for sold-out products.
 */
module ProductRecommendations {
  import opened Wrappers
  import opened Seqs
  import opened Catalog

  const Shown: nat := 4

  /** Twenty dollars, in cents: cheaper products are shown as sold out. */
  const SoldOutBelow: int := 2000

  /** `data.slice(0, 4)`. */
  function Recommended(data: seq<Product>): (r: seq<Product>)
    ensures |r| == Min(Shown, |data|)
    ensures forall i :: 0 <= i < |r| ==> r[i] == data[i]
  {
    JsSlice(data, 0, Shown)
  }

  /** A card: the product with its sold-out flag. */
  function Card(p: Product): (l: Listed)
    ensures l.product == p
    ensures l.soldOut <==> p.price < SoldOutBelow
  {
    Listed(p, p.price < SoldOutBelow)
  }

  /** `onClick={() => !isSoldOut && handleAddToCart(item)}`. */
  function OnClick(p: Product): (calls: seq<CartCall>)
    ensures calls == [] <==> p.price < SoldOutBelow
    ensures |calls| <= 1
    ensures forall c :: c in calls ==> c.AddToCart? && c.item.id == p.id && c.item.quantity == 1
    ensures p.price >= SoldOutBelow ==> calls == [AddToCart(CartItem(p.id, p.title, p.price, p.image, 1))]
  {
    if p.price < SoldOutBelow then [] else [AddToCart(LineFor(p, 1))]
  }

  /**
   The click guard is the same sold-out guard the listing uses: a click adds
   one unit of a product of at least twenty dollars and nothing otherwise.
   */
  lemma OnClickIsGuardedAdd(p: Product)
    ensures OnClick(p) == AddOne(Card(p))
    ensures OnClick(p) != [] <==> p.price >= SoldOutBelow
  {
  }

  datatype RecState = RecState(products: seq<Product>, loading: bool)

  const Initial := RecState([], true)

  function OnFetch(s: RecState, outcome: Fetched<seq<Product>>): (r: RecState)
    ensures !r.loading
    ensures outcome.Received? ==> r.products == Recommended(outcome.body)
    ensures outcome.Failed? ==> r.products == s.products
  {
    match outcome
    case Received(data) => RecState(Recommended(data), false)
    case Failed => s.(loading := false)
  }

  /** What renders: nothing but the loading text, or one card per product with its button state. */
  function View(s: RecState): (cards: Option<seq<Listed>>)
    ensures s.loading <==> cards.None?
    ensures cards.Some? ==> |cards.value| == |s.products|
    ensures cards.Some? ==> forall i :: 0 <= i < |cards.value| ==> cards.value[i] == Card(s.products[i])
  {
    if s.loading then None
    else Some(seq(|s.products|, i requires 0 <= i < |s.products| => Card(s.products[i])))
  }

  /** After any fetch at most four cards show, and they are the catalogue's first ones in order. */
  lemma AtMostFourCards(outcome: Fetched<seq<Product>>)
    ensures var v := View(OnFetch(Initial, outcome));
      v.Some? && |v.value| <= Shown
    ensures outcome.Received? ==>
      var v := View(OnFetch(Initial, outcome)).value;
      forall i :: 0 <= i < |v| ==> v[i].product == outcome.body[i]
  {
  }
}

=== FILE: routing.dfy ===
/**
 Which site-wide header pieces a page shows, by its path: the home navbar on
 "/" and "/signup", the secondary navbar on every other page except checkout
 and the two support pages, and the announcement text above them unless the
 page is checkout or support or the text field is falsy (missing, null or
 the empty string; an empty rich-text list is truthy and still shows).
 */
module Routing {
  import opened JsValue

  datatype NavbarChoice = HomeNavbar | SecondNavbar | NoNavbar

  const HomePaths: seq<string> := ["/", "/signup"]
  const HideSecondPaths: seq<string> := ["/checkout", "/support", "/support2", "/signup"]
  const HeadTextExcluded: seq<string> := ["/checkout", "/support", "/support2"]

  /** `NavbarSelector`: the home list is checked first, so "/signup" gets the home navbar. */
  function SelectNavbar(path: string): (c: NavbarChoice) {
    var showHome := path in HomePaths;
    var showSecond := !showHome && path !in HideSecondPaths;
    if showHome then HomeNavbar else if showSecond then SecondNavbar else NoNavbar
  }

  /** The decision table: two home pages, three pages without a navbar, the secondary navbar elsewhere. */
  lemma NavbarTable(path: string)
    ensures SelectNavbar(path) == HomeNavbar <==> path == "/" || path == "/signup"
    ensures SelectNavbar(path) == NoNavbar <==> path == "/checkout" || path == "/support" || path == "/support2"
    ensures SelectNavbar(path) == SecondNavbar <==>
      path !in {"/", "/signup", "/checkout", "/support", "/support2"}
  {
  }

  /** `GlobalHeadtext`: rendered when the field is truthy and the page is not excluded. */
  predicate ShowsHeadText(field: Value, path: string) {
    Truthy(field) && path !in HeadTextExcluded
  }

  /** The announcement text is hidden on exactly the pages that show no navbar (given a truthy field). */
  lemma HeadTextFollowsNavbar(field: Value, path: string)
    ensures ShowsHeadText(field, path) <==> Truthy(field) && SelectNavbar(path) != NoNavbar
  {
    NavbarTable(path);
  }
}

=== FILE: seqs.dfy ===
/**
 Sequence helpers shared by the components: order-preserving filtering,
 subsequences, the index arithmetic of `Array.prototype.slice`, and joining
 strings with a separator.
 */
module Seqs {

  function Min(a: int, b: int): int { if a <= b then a else b }
  function Max(a: int, b: int): int { if a <= b then b else a }

  /** The elements of `s` satisfying `p`, in their original order (`Array.prototype.filter`). */
  function Filter<T>(s: seq<T>, p: T -> bool): (r: seq<T>)
    ensures |r| <= |s|
    ensures forall i :: 0 <= i < |r| ==> p(r[i])
  {
    if |s| == 0 then []
    else if p(s[0]) then [s[0]] + Filter(s[1..], p)
    else Filter(s[1..], p)
  }

  lemma {:induction false} FilterMembership<T>(s: seq<T>, p: T -> bool, x: T)
    ensures x in Filter(s, p) <==> x in s && p(x)
  {
    if |s| > 0 {
      FilterMembership(s[1..], p, x);
      assert s == [s[0]] + s[1..];
    }
  }

  /** `FilterMembership` for every element at once. */
  lemma FilterMembershipAll<T>(s: seq<T>, p: T -> bool)
    ensures forall x :: x in Filter(s, p) <==> x in s && p(x)
  {
    forall x {
      FilterMembership(s, p, x);
    }
  }

  /** Filtering keeps every copy of a kept element and no copy of a dropped one. */
  lemma {:induction false} FilterCount<T>(s: seq<T>, p: T -> bool, x: T)
    ensures multiset(Filter(s, p))[x] == if p(x) then multiset(s)[x] else 0
  {
    if |s| > 0 {
      FilterCount(s[1..], p, x);
      assert s == [s[0]] + s[1..];
    }
  }

  lemma {:induction false} FilterConcat<T>(a: seq<T>, b: seq<T>, p: T -> bool)
    ensures Filter(a + b, p) == Filter(a, p) + Filter(b, p)
  {
    if |a| == 0 {
      assert a + b == b;
    } else {
      assert (a + b)[1..] == a[1..] + b;
      FilterConcat(a[1..], b, p);
    }
  }

  /** Filtering keeps everything exactly when every element passes. */
  lemma {:induction false} FilterAll<T>(s: seq<T>, p: T -> bool)
    requires forall i :: 0 <= i < |s| ==> p(s[i])
    ensures Filter(s, p) == s
  {
    if |s| > 0 {
      FilterAll(s[1..], p);
      assert s == [s[0]] + s[1..];
    }
  }

  /** `a` is obtained from `b` by deleting elements, without reordering. */
  predicate IsSubsequence<T(==)>(a: seq<T>, b: seq<T>)
    decreases |b|
  {
    if |a| == 0 then true
    else if |b| == 0 then false
    else if a[0] == b[0] then IsSubsequence(a[1..], b[1..])
    else IsSubsequence(a, b[1..])
  }

  lemma {:induction false} FilterIsSubsequence<T>(s: seq<T>, p: T -> bool)
    ensures IsSubsequence(Filter(s, p), s)
  {
    if |s| > 0 {
      FilterIsSubsequence(s[1..], p);
      var rest := Filter(s[1..], p);
      if !p(s[0]) && |rest| > 0 {
        SubsequenceExtend(rest, s[1..], s[0]);
        assert s == [s[0]] + s[1..];
      }
    }
  }

  /** A subsequence stays one when the larger sequence gains a new first element. */
  lemma {:induction false} SubsequenceExtend<T>(a: seq<T>, b: seq<T>, x: T)
    requires IsSubsequence(a, b)
    ensures IsSubsequence(a, [x] + b)
    decreases |b|, 1
  {
    assert ([x] + b)[1..] == b;
    if |a| > 0 && a[0] == x {
      SubsequenceDropHead(a, b);
    }
  }

  /** If `a` is a subsequence of `b`, then `a[1..]` is a subsequence of `b`. */
  lemma {:induction false} SubsequenceDropHead<T>(a: seq<T>, b: seq<T>)
    requires |a| > 0 && IsSubsequence(a, b)
    ensures IsSubsequence(a[1..], b)
    decreases |b|, 0
  {
    if a[0] != b[0] {
      SubsequenceDropHead(a, b[1..]);
    }
    if |a[1..]| > 0 {
      SubsequenceExtend(a[1..], b[1..], b[0]);
      assert [b[0]] + b[1..] == b;
    }
  }

  /** Two filters with disjoint predicates never select more elements than there are. */
  lemma {:induction false} DisjointFiltersFit<T>(s: seq<T>, p: T -> bool, q: T -> bool)
    requires forall x :: !(p(x) && q(x))
    ensures |Filter(s, p)| + |Filter(s, q)| <= |s|
  {
    if |s| > 0 {
      DisjointFiltersFit(s[1..], p, q);
    }
  }

  /**
   The index `Array.prototype.slice` derives from one argument: a negative
   argument counts back from the end, and the result is clamped to `[0, len]`.
   */
  function RelativeIndex(i: int, len: nat): (r: nat)
    ensures r <= len
    ensures 0 <= i ==> r == Min(i, len)
    ensures i < 0 ==> r == Max(len + i, 0)
  {
    if i < 0 then (if len + i < 0 then 0 else len + i)
    else if i > len then len
    else i
  }

  /** `s.slice(start, end)` of JavaScript. */
  function JsSlice<T>(s: seq<T>, start: int, end: int): (r: seq<T>)
    ensures |r| <= |s|
    ensures 0 <= start <= end ==> r == s[Min(start, |s|)..Min(end, |s|)]
    ensures 0 <= start && 0 <= end ==> |r| <= end - start || |r| == 0
    ensures end == 0 ==> r == []
  {
    var from := RelativeIndex(start, |s|);
    var to := RelativeIndex(end, |s|);
    if from < to then s[from..to] else []
  }

  /** `xs.join(sep)` over strings. */
  function Join(xs: seq<string>, sep: string): (r: string)
    ensures |xs| == 1 ==> r == xs[0]
    ensures |xs| == 0 ==> r == ""
  {
    if |xs| == 0 then ""
    else if |xs| == 1 then xs[0]
    else Join(xs[..|xs| - 1], sep) + sep + xs[|xs| - 1]
  }

  /** Every separator adds its length once between neighbours. */
  lemma {:induction false} JoinLength(xs: seq<string>, sep: string)
    requires |xs| > 0
    ensures |Join(xs, sep)| == SumLengths(xs) + (|xs| - 1) * |sep|
  {
    if |xs| > 1 {
      var init, last := xs[..|xs| - 1], xs[|xs| - 1];
      JoinLength(init, sep);
      SumLengthsSnoc(init, last);
      assert init + [last] == xs;
      var k := |init| - 1;
      assert (k + 1) * |sep| == k * |sep| + |sep|;
      assert |Join(xs, sep)| == |Join(init, sep)| + |sep| + |last|;
    }
  }

  function SumLengths(xs: seq<string>): nat {
    if |xs| == 0 then 0 else |xs[0]| + SumLengths(xs[1..])
  }

  lemma {:induction false} SumLengthsSnoc(xs: seq<string>, x: string)
    ensures SumLengths(xs + [x]) == SumLengths(xs) + |x|
  {
    if |xs| > 0 {
      assert (xs + [x])[1..] == xs[1..] + [x];
      SumLengthsSnoc(xs[1..], x);
    }
  }
}

=== FILE: stable_sort.dfy ===
/**
 Stable sorting by an integer key. `Array.prototype.sort` with a comparator
 `(a, b) => key(a) - key(b)` must be stable (ECMA-262, 2019 edition onwards), so
 its result is pinned down completely: ordered by key, and within one key in the
 original order. `Sort` computes that result by insertion, and
 `StableSortIsUnique` shows every sequence with those two properties is `Sort`'s.
 */
module StableSort {

  ghost predicate SortedBy<T>(s: seq<T>, key: T -> int) {
    forall i, j :: 0 <= i < j < |s| ==> key(s[i]) <= key(s[j])
  }

  /** The elements of `s` whose key is `k`, in their order in `s`. */
  function WithKey<T>(s: seq<T>, key: T -> int, k: int): (r: seq<T>)
    ensures |r| <= |s|
    ensures forall i :: 0 <= i < |r| ==> key(r[i]) == k
  {
    if |s| == 0 then []
    else if key(s[0]) == k then [s[0]] + WithKey(s[1..], key, k)
    else WithKey(s[1..], key, k)
  }

  /** `Sort(s)` is ordered by key and keeps the order of equal keys. */
  ghost predicate IsStableSortOf<T>(r: seq<T>, s: seq<T>, key: T -> int) {
    SortedBy(r, key) && forall k :: WithKey(r, key, k) == WithKey(s, key, k)
  }

  lemma {:induction false} WithKeyConcat<T>(a: seq<T>, b: seq<T>, key: T -> int, k: int)
    ensures WithKey(a + b, key, k) == WithKey(a, key, k) + WithKey(b, key, k)
  {
    if |a| == 0 {
      assert a + b == b;
    } else {
      assert (a + b)[1..] == a[1..] + b;
      WithKeyConcat(a[1..], b, key, k);
    }
  }

  lemma {:induction false} WithKeyNone<T>(s: seq<T>, key: T -> int, k: int)
    requires forall j :: 0 <= j < |s| ==> key(s[j]) != k
    ensures WithKey(s, key, k) == []
  {
    if |s| > 0 {
      WithKeyNone(s[1..], key, k);
    }
  }

  lemma {:induction false} WithKeyAll<T>(s: seq<T>, key: T -> int, k: int)
    requires forall j :: 0 <= j < |s| ==> key(s[j]) == k
    ensures WithKey(s, key, k) == s
  {
    if |s| > 0 {
      WithKeyAll(s[1..], key, k);
      assert s == [s[0]] + s[1..];
    }
  }

  /** Sorting by the negated key selects the same runs. */
  lemma {:induction false} WithKeyNegated<T>(s: seq<T>, key: T -> int, neg: T -> int, k: int)
    requires forall x :: neg(x) == -key(x)
    ensures WithKey(s, neg, -k) == WithKey(s, key, k)
  {
    if |s| > 0 {
      WithKeyNegated(s[1..], key, neg, k);
    }
  }

  lemma {:induction false} WithKeyMembers<T>(s: seq<T>, key: T -> int, k: int, x: T)
    requires x in WithKey(s, key, k)
    ensures x in s && key(x) == k
  {
    if |s| > 0 && x != s[0] {
      WithKeyMembers(s[1..], key, k, x);
    }
  }

  /** Places `x` after every element whose key is at most `x`'s. */
  function Insert<T>(x: T, s: seq<T>, key: T -> int): (r: seq<T>)
    ensures |r| == |s| + 1
  {
    if |s| == 0 then [x]
    else if key(s[0]) <= key(x) then [s[0]] + Insert(x, s[1..], key)
    else [x] + s
  }

  /** Insertion adds `x` and loses nothing. */
  lemma {:induction false} InsertPermutes<T>(x: T, s: seq<T>, key: T -> int)
    ensures multiset(Insert(x, s, key)) == multiset(s) + multiset{x}
  {
    if |s| > 0 && key(s[0]) <= key(x) {
      InsertPermutes(x, s[1..], key);
      assert s == [s[0]] + s[1..];
    }
  }

  lemma {:induction false} InsertSorted<T>(x: T, s: seq<T>, key: T -> int)
    requires SortedBy(s, key)
    ensures SortedBy(Insert(x, s, key), key)
  {
    if |s| > 0 && key(s[0]) <= key(x) {
      var rest := Insert(x, s[1..], key);
      InsertSorted(x, s[1..], key);
      InsertPermutes(x, s[1..], key);
      forall j | 0 <= j < |rest| ensures key(s[0]) <= key(rest[j]) {
        assert rest[j] in multiset(rest);
        if rest[j] != x {
          assert rest[j] in multiset(s[1..]);
          var m :| 0 <= m < |s[1..]| && s[1..][m] == rest[j];
          assert s[1 + m] == rest[j];
        }
      }
      var r := [s[0]] + rest;
      forall i, j | 0 <= i < j < |r| ensures key(r[i]) <= key(r[j]) {
        if i > 0 {
          assert r[i] == rest[i - 1] && r[j] == rest[j - 1];
        } else {
          assert r[j] == rest[j - 1];
        }
      }
    } else if |s| > 0 {
      var r := [x] + s;
      forall i, j | 0 <= i < j < |r| ensures key(r[i]) <= key(r[j]) {
        if i > 0 {
          assert r[i] == s[i - 1] && r[j] == s[j - 1];
        } else {
          assert key(s[0]) <= key(s[j - 1]);
        }
      }
    }
  }

  lemma {:induction false} InsertWithKey<T>(x: T, s: seq<T>, key: T -> int, k: int)
    requires SortedBy(s, key)
    ensures WithKey(Insert(x, s, key), key, k) == WithKey(s, key, k) + (if key(x) == k then [x] else [])
  {
    if |s| == 0 {
      assert Insert(x, s, key) == [x];
    } else if key(s[0]) <= key(x) {
      SortedTail(s, key);
      InsertWithKey(x, s[1..], key, k);
      InsertAfterHead(x, s, key, k);
    } else {
      InsertBeforeAll(x, s, key, k);
    }
  }

  /** The step of `InsertWithKey` where `x` goes after the head. */
  lemma InsertAfterHead<T>(x: T, s: seq<T>, key: T -> int, k: int)
    requires |s| > 0 && key(s[0]) <= key(x)
    requires WithKey(Insert(x, s[1..], key), key, k) == WithKey(s[1..], key, k) + (if key(x) == k then [x] else [])
    ensures WithKey(Insert(x, s, key), key, k) == WithKey(s, key, k) + (if key(x) == k then [x] else [])
  {
    var rest := Insert(x, s[1..], key);
    var r := Insert(x, s, key);
    assert r == [s[0]] + rest;
    assert r[0] == s[0] && r[1..] == rest;
    var head := if key(s[0]) == k then [s[0]] else [];
    assert WithKey(r, key, k) == head + WithKey(rest, key, k);
    assert WithKey(s, key, k) == head + WithKey(s[1..], key, k);
  }

  lemma SortedTail<T>(s: seq<T>, key: T -> int)
    requires |s| > 0 && SortedBy(s, key)
    ensures SortedBy(s[1..], key)
  {
    forall i, j | 0 <= i < j < |s[1..]| ensures key(s[1..][i]) <= key(s[1..][j]) {
      assert s[1..][i] == s[i + 1] && s[1..][j] == s[j + 1];
    }
  }

  /** Inserting in front of a sorted sequence whose keys all exceed `x`'s. */
  lemma InsertBeforeAll<T>(x: T, s: seq<T>, key: T -> int, k: int)
    requires |s| > 0 && SortedBy(s, key) && key(x) < key(s[0])
    ensures WithKey(Insert(x, s, key), key, k) == WithKey(s, key, k) + (if key(x) == k then [x] else [])
  {
    assert Insert(x, s, key) == [x] + s;
    if key(x) == k {
      forall j | 0 <= j < |s| ensures key(s[j]) != k {
        if j > 0 {
          assert key(s[0]) <= key(s[j]);
        }
      }
      WithKeyNone(s, key, k);
    }
    WithKeyConcat([x], s, key, k);
  }

  /** Insertion sort, taking the elements in their original order. */
  function Sort<T>(s: seq<T>, key: T -> int): (r: seq<T>)
    ensures |r| == |s|
  {
    if |s| == 0 then []
    else Insert(s[|s| - 1], Sort(s[..|s| - 1], key), key)
  }

  /** Sorting rearranges the elements and neither adds nor drops any. */
  lemma {:induction false} SortPermutes<T>(s: seq<T>, key: T -> int)
    ensures multiset(Sort(s, key)) == multiset(s)
  {
    if |s| > 0 {
      var init, last := s[..|s| - 1], s[|s| - 1];
      assert Sort(s, key) == Insert(last, Sort(init, key), key);
      SortPermutes(init, key);
      InsertPermutes(last, Sort(init, key), key);
      assert s == init + [last];
      assert multiset(s) == multiset(init) + multiset{last};
    }
  }

  /** `Sort` is a stable sort: ordered by key, equal keys in their original order. */
  lemma {:induction false} SortIsStable<T>(s: seq<T>, key: T -> int)
    ensures IsStableSortOf(Sort(s, key), s, key)
  {
    if |s| > 0 {
      var init, last := s[..|s| - 1], s[|s| - 1];
      var sorted := Sort(init, key);
      assert Sort(s, key) == Insert(last, sorted, key);
      assert s == init + [last];
      SortIsStable(init, key);
      InsertSorted(last, sorted, key);
      forall k ensures WithKey(Sort(s, key), key, k) == WithKey(s, key, k) {
        StableStep(init, last, key, k);
      }
    }
  }

  /** Inserting the last element into the sorted prefix extends the prefix's run of its key by that element. */
  lemma StableStep<T>(init: seq<T>, last: T, key: T -> int, k: int)
    requires IsStableSortOf(Sort(init, key), init, key)
    ensures WithKey(Insert(last, Sort(init, key), key), key, k) == WithKey(init + [last], key, k)
  {
    InsertWithKey(last, Sort(init, key), key, k);
    WithKeyConcat(init, [last], key, k);
    assert WithKey([last], key, k) == (if key(last) == k then [last] else []);
  }

  lemma WithKeyHead<T>(s: seq<T>, key: T -> int)
    requires |s| > 0
    ensures WithKey(s, key, key(s[0])) != []
  {
  }

  /**
   Any sequence ordered by key whose equal-key runs match `s`'s is the same
   sequence: a stable sort has exactly one possible result.
   */
  lemma {:induction false} StableSortIsUnique<T>(a: seq<T>, b: seq<T>, key: T -> int)
    requires SortedBy(a, key) && SortedBy(b, key)
    requires forall k :: WithKey(a, key, k) == WithKey(b, key, k)
    ensures a == b
    decreases |a|
  {
    if |a| == 0 || |b| == 0 {
      if |a| > 0 {
        WithKeyHead(a, key);
        assert false;
      } else if |b| > 0 {
        WithKeyHead(b, key);
        assert false;
      }
    } else {
      var ka, kb := key(a[0]), key(b[0]);
      if ka < kb {
        assert a[0] in WithKey(a, key, ka);
        WithKeyMembers(b, key, ka, a[0]);
        assert false;
      }
      if kb < ka {
        assert b[0] in WithKey(b, key, kb);
        WithKeyMembers(a, key, kb, b[0]);
        assert false;
      }
      assert WithKey(a, key, ka) == [a[0]] + WithKey(a[1..], key, ka);
      assert WithKey(b, key, ka) == [b[0]] + WithKey(b[1..], key, ka);
      assert a[0] == b[0];
      forall k ensures WithKey(a[1..], key, k) == WithKey(b[1..], key, k) {
        if k == ka {
          assert WithKey(a[1..], key, k) == WithKey(a, key, k)[1..];
          assert WithKey(b[1..], key, k) == WithKey(b, key, k)[1..];
        } else {
          assert WithKey(a, key, k) == WithKey(a[1..], key, k);
          assert WithKey(b, key, k) == WithKey(b[1..], key, k);
        }
      }
      StableSortIsUnique(a[1..], b[1..], key);
      assert a == [a[0]] + a[1..] && b == [b[0]] + b[1..];
    }
  }

  /** Sorting a sorted result again changes nothing. */
  lemma SortIdempotent<T>(s: seq<T>, key: T -> int)
    ensures Sort(Sort(s, key), key) == Sort(s, key)
  {
    var once := Sort(s, key);
    var twice := Sort(once, key);
    SortIsStable(s, key);
    SortIsStable(once, key);
    StableSortIsUnique(twice, once, key);
  }

  /** A key that never distinguishes two elements leaves the order untouched. */
  lemma SortConstantKey<T>(s: seq<T>, key: T -> int, c: int)
    requires forall x :: key(x) == c
    ensures Sort(s, key) == s
  {
    var r := Sort(s, key);
    SortIsStable(s, key);
    StableSortIsUnique(r, s, key);
  }
}

=== FILE: wrappers.dfy ===
/** Option for nullable fields and "nothing rendered"; Fetched for the outcome of a network request. */
module Wrappers {

  datatype Option<+T> = None | Some(value: T) {

    /** The value, or `default` when there is none (JavaScript's `x ?? default`). */
    function GetOr(default: T): T {
      match this
      case Some(v) => v
      case None => default
    }
  }

  /** How a `fetch(...).then(...).catch(...)` chain ends: with the parsed body, or in the catch handler. */
  datatype Fetched<+T> = Received(body: T) | Failed
}
